=== FILE: README.md ===
# thingylaunch in Dafny

thingylaunch is a small X11 launcher. It opens a one-line window. Keys edit a command
line, Tab completes executable names found on `PATH`, and Up and Down recall earlier
commands from a history file. Alt plus a letter runs a bookmarked command. Return
runs the command through the shell and appends it to the history.

The repository holds two generations of the program: a C one (`*.c`) and a C++ one
(`*.cpp`). This project models the non-graphical core of both, one module per source
file:

| module | file | what it models |
|---|---|---|
| `PathScan` | `scan.dfy` | The `PATH` scan shared by both completion builders: split on `:`, list each directory that opens, keep executable entries. |
| `CompletionC` | `completion_c.dfy` | `comp_init`, `comp_next`, `comp_reset`: the sorted index of full paths and the latched-hint cursor. |
| `CompletionCpp` | `completion_cpp.dfy` | `Completion`: the unsorted name list, `next` and `reset`. |
| `HistoryC` | `history_c.dfy` | `hist_init`, `hist_next`, `hist_prev`, `hist_save`, with `size_t` wrap-around written out. |
| `HistoryCpp` | `history_cpp.dfy` | `History`: the loader, `next`, `prev`, `save`. |
| `BookmarkC` | `bookmark_c.dfy` | `book_init` (`fscanf` line by line into a linked list) and `book_lookup`. |
| `BookmarkCpp` | `bookmark_cpp.dfy` | `Bookmark`: stream extraction into a map, and `lookup`. |
| `Keys` | `keys.dfy` | Key events and the keysyms the handlers switch on. |
| `LauncherC` | `launcher_c.dfy` | `keypress` of thingylaunch.c, and the truncation at the cursor in `execcmd`. |
| `LauncherCpp` | `launcher_cpp.dfy` | `Thingylaunch::keypress` of thingylaunch.cpp. |
| `Generations` | `generations.dfy` | The two Control-w implementations compared. |
| `Base`, `Text` | `base.dfy`, `text.dfy` | Shared vocabulary: `Option`, the build-time limits, `size_t` conversion, and string helpers (`strcmp` order, `snprintf` truncation, splitting, `isspace`, `>>` words, `%[^\n]`, `strrchr`). |

The file system, the environment, the history and bookmark file contents, and key
events are all inputs. Whether a file opens is an `Option` or a `bool`.

Undefined behaviour that the inputs can reach is an explicit `Fault` outcome, and
lemmas say exactly when it happens. There are four exceptions, each with its own line
under "## Left out". Two are preconditions: the directory-length bound of
`CompletionC.Init`, and the NUL key text that `LauncherC.Step` excludes. The third is the
C++ history iterator one before `begin()`, which is taken as index -1. The fourth is the
C++ editor's cursor, a `std::string` iterator kept across calls that change the string.
The model takes it as an offset, which is only right while the string is not
reallocated. `MAX_CMD_LEN` and
`MAX_HISTORY_LINES` come from a header outside the model. They stay symbolic: every
proof holds for any positive `MAX_CMD_LEN` and any positive `int` value of
`MAX_HISTORY_LINES`.

The model follows the code as written, including its defects. Lemmas exhibit them:

- `comp_reset` keeps the current position. After a reset, Tab resumes after the old
  entry instead of starting at the first match (`CompletionC.ResetStaleExample`).
- `hist_prev` at cursor 0 wraps the `size_t` cursor to `SIZE_MAX`. With two history lines
  it then repeats the oldest line instead of reaching the empty entry
  (`HistoryC.PrevWrapRepeatsOldest`).
- `hist_save` with one entry fewer than `MAX_HISTORY_LINES` underflows its drop count
  and frees past the entries (`HistoryC.SaveFaultIff`).
- The executable test checks the `S_IFREG` bit, not the file type, so sockets pass
  (`PathScan.SocketAccepted`).
- `book_init` counts skipped blanks towards `%n`, so a command after many blanks
  writes its NUL past the buffer (`BookmarkC.BlanksOverrun`).
- In the C editor:
  - Backspace and Control-w on a full buffer read past it.
  - Control-w inside the first word reads before it.
  - See `LauncherC.StepFaultIff` for all three.
- In the C++ editor, Control-w removes a leading blank at position 0, although the
  code's comment says it should not. Control-w at the start steps before `begin()`.
  See `LauncherCpp.ControlWExamples` and `Generations.ControlWAgreement`.
- Alt with no bookmark leaves the C++ cursor past the new empty command. The next key
  that reads it is undefined. Keys that assign the cursor first act on the empty command,
  so Alt plus Return launches the empty command (`LauncherCpp.StepFaultIff`,
  `LauncherCpp.AltWithoutBookmark`, `LauncherCpp.LaunchIff`).
- `comp_init` hands the result of `getenv("PATH")` to `strdup` unchecked. An unset `PATH`
  is therefore undefined (`CompletionC.Init`).
- The C++ bookmark reader stores only the first word of a command. Each further word
  becomes a bookmark of its own (`BookmarkCpp.ReadPair`, `BookmarkCpp.XtermExample`).
- An empty completion prefix in the C++ generation matches every name, and is never
  latched (`CompletionCpp.EmptyCommandRelatches`).
- The C++ editor keeps `m_cursorPos` across the `push_back` or `insert` of a typed
  character (thingylaunch.cpp:418-423). When that call reallocates the string, the
  `++m_cursorPos` after it and the next `redraw` use a dangling iterator. With a
  small-string buffer of 15 characters this is the 16th character typed into an empty
  command. When a reallocation happens depends on the library, so no lemma exhibits this
  (see `LauncherCpp.Insert` under "## Left out").
- The C++ editor keeps a NUL typed with Control-space (keysym space, text NUL) in the
  command. Return saves the whole string, but `execcmd` hands `c_str()` to the shell,
  which runs only the text before the NUL (`LauncherCpp.ControlSpaceCutsRun`).
- The C readers copy each line with `strncpy` (history.c:87) or `strdup`
  (bookmark.c:83), which stop at a NUL. A history line that starts with a NUL therefore
  loads as an empty entry. The next save writes that entry as a bare newline, and the
  next load drops it (`HistoryC.NulCutsLine`, `HistoryC.SaveLoadSkipsEmpty`). A bookmark
  whose command starts with a NUL stores the empty command (`BookmarkC.NulCutsCommand`).
- Neither save function suppresses a duplicate of the previous entry. The model does
  not either.

## Model

| member | source | states |
|---|---|---|
| `Base.SizeT` | history.c:154-155 | A conversion to `size_t` lands below 2^64. |
| `Text.StrLeTotal` | completion.c:263-270 | Any two file names are ordered by `strcmp` one way or the other. |
| `Text.StrLeTransitive` | completion.c:263-270 | The `strcmp` order used by the sort is transitive. |
| `Text.PrefixBetween` | completion.c:230-244 | In `strcmp` order, a name sorted between two names that start with a hint also starts with it. |
| `Text.Truncate` | thingylaunch.c:267 | `snprintf` into the command buffer keeps a prefix of at most the given length, and all of a string that fits. |
| `Text.Split` | completion.c:111 | Tokenising on a separator yields at least one piece, and no piece holds the separator. |
| `Text.SplitJoin` | history.cpp:39-44 | Splitting the separator-join of separator-free pieces gives the pieces back. |
| `Text.TerminatedIsJoin` | history.cpp:90-92 | Newline-terminated lines followed by a last unterminated line are the newline-join of all of them. |
| `Text.SkipSpace` | bookmark.cpp:40 | Skipping whitespace leaves a suffix that starts with a non-blank, and removes only blanks. |
| `Text.Word` | bookmark.cpp:40 | `>>` into a string takes a blank-free prefix that ends at a blank or at the end, and is non-empty when the text starts with a non-blank. |
| `Text.LinePrefix` | history.c:70 | `%N[^\n]` takes a newline-free prefix of at most N characters, stopping early only at a newline. |
| `Text.LineRead` | history.c:70 | A newline-free line of at most N characters followed by a newline reads as exactly that line. |
| `Text.AfterLast` | thingylaunch.c:304-306 | `strrchr(s, c) + 1` is a `c`-free suffix of `s` preceded by `c`. |
| `Text.AfterLastOfJoin` | thingylaunch.c:304-306 | After the last slash of `dir/name`, with `name` slash-free, comes exactly `name`. |
| `Text.BeforeNul` | history.c:87 | The C copy of a string is the prefix before its first NUL, which it ends at, and holds no NUL. |
| `Text.BeforeNulWhole` | bookmark.c:83 | A string without a NUL is copied whole. |
| `Text.BeforeNulCut` | bookmark.c:83 | A NUL-free head followed by a NUL is copied as just the head. |
| `Text.NonEmpty` | history.cpp:39-44 | Dropping empty lines keeps every non-empty line and introduces nothing else. |
| `Text.LastSpace` | thingylaunch.c:320-326 | Finds the last blank before a position, or says that there is none. |
| `PathScan.RegularExecutableAccepted` | completion.c:142-146 | A regular file with an applicable execute bit passes the executable test. |
| `PathScan.SocketAccepted` | completion.c:142-146 | A world-executable socket also passes, because the test checks one bit of the file type. |
| `PathScan.InListing` | completion.c:111-166 | An entry is listed exactly when its directory is a `PATH` element that opens and lists it. |
| `PathScan.Select` | completion.c:138-162 | The filter keeps exactly the accepted entries, each with its multiplicity. |
| `PathScan.CandidateIff` | completion.cpp:55-88 | An entry is a candidate exactly when it comes from an openable `PATH` directory and passes the executable test. |
| `CompletionC.MakeEntry` | completion.c:136-161 | The full path is directory, slash and name cut to the buffer. The file name is a prefix of the scanned name, and equal to it when the path fits. |
| `CompletionC.InsertPermutes` | completion.c:169-170 | One insertion step adds exactly the inserted entry. |
| `CompletionC.InsertSorted` | completion.c:169-170 | Inserting into a name-sorted index keeps it sorted. |
| `CompletionC.SortByNameSorted` | completion.c:169-170 | The sort leaves the index ordered by file name. |
| `CompletionC.SortByNamePermutes` | completion.c:169-170 | The sort only reorders. |
| `CompletionC.BuildIndex` | completion.c:136-170 | The index is sorted, well-formed, and a permutation of the scanned entries. |
| `CompletionC.Init` | completion.c:63-182 | Is undefined exactly when `PATH` is unset, since NULL reaches `strdup`. Otherwise gives a fresh cursor over a sorted, well-formed permutation of the accepted entries. |
| `CompletionC.IndexNamesFromScan` | completion.c:155-161 | Slash-free scanned names give slash-free file names in the index. |
| `CompletionC.FileNamesSlashFree` | completion.c:134-161 | With slash-free directory entries, every indexed file name is slash-free. |
| `CompletionC.FirstMatch` | completion.c:238-244 | The start-over loop finds the first matching position, skipping only non-matching ones. |
| `CompletionC.Next` | completion.c:215-247 | `comp_next` keeps the index, and the current position stays inside it. |
| `CompletionC.NextSpec` | completion.c:215-247 | The hint is latched. A path is returned exactly when some entry matches, and then it is a matching entry at the new position. NULL clears the position. |
| `CompletionC.LatchedHintIgnored` | completion.c:222-227 | Once a hint is latched, the hint passed to the next call makes no difference until the reset. |
| `CompletionC.Reset` | completion.c:208-213 | `comp_reset` forgets the hint. It keeps the index and the current position. |
| `CompletionC.CycleOverBlock` | completion.c:230-244 | When the matches are one contiguous run, call t returns entry `lo + t mod (hi - lo)`. |
| `CompletionC.SortedMatchesContiguous` | completion.c:169-170 | On a sorted index, an entry between two matches matches too. |
| `CompletionC.SortedBlock` | completion.c:169-170 | On a sorted index, the matches are exactly the run from the first match to the first non-match after it. |
| `CompletionC.CycleSorted` | completion.c:215-247 | On a sorted index, repeated Tab presses with one hint cycle through exactly the matches, in order. |
| `CompletionC.EmptyHintCyclesAll` | completion.c:227-244 | An empty hint matches everything, so Tab cycles the whole index. |
| `CompletionC.ResetResumesAfterOldPosition` | completion.c:208-235 | After a reset, the next call returns the entry after the old position when it matches the new hint. |
| `CompletionC.ResetStaleExample` | completion.c:208-235 | With entries `ab`, `ac`: Tab, reset, Tab returns `ac`, where a fresh cursor returns `ab`. |
| `CompletionC.ResetWithoutPositionIsFresh` | completion.c:208-244 | With no current position, a reset is a fresh start. |
| `CompletionCpp.Init` | completion.cpp:38-92 | Throws exactly when `PATH` is unset. Otherwise lists every accepted name in scan order, with a fresh iterator. |
| `CompletionCpp.InitIff` | completion.cpp:55-88 | A name is listed exactly when an openable `PATH` directory holds an accepted entry of that name. |
| `CompletionCpp.FindFrom` | completion.cpp:109 | `find_if` from a position gives the first match at or after it. |
| `CompletionCpp.Next` | completion.cpp:99-125 | `next` keeps the list, and the iterator stays within it. |
| `CompletionCpp.NextSpec` | completion.cpp:99-125 | The prefix is latched. A match is returned with the iterator just past it exactly when some name matches. Otherwise the command comes back and the iterator rewinds. |
| `CompletionCpp.Reset` | completion.cpp:127-132 | `reset` restores the state the constructor left. |
| `CompletionCpp.CycleMatches` | completion.cpp:99-125 | With a non-empty command, call t returns match number `t mod` the number of matches, in list order. |
| `CompletionCpp.NoMatchEchoes` | completion.cpp:115-124 | With no match, every call returns the command unchanged. |
| `CompletionCpp.EmptyCommandRelatches` | completion.cpp:102-104 | An empty command latches nothing. Two Tab presses on `[ls, cat]` give `ls` twice, and `cat` is never offered. |
| `HistoryC.ReadLines` | history.c:70-89 | The read loop yields entries that are newline-free, NUL-free and at most `MAX_CMD_LEN` characters long. |
| `HistoryC.ReadLinesSpec` | history.c:70-89 | A file reads exactly when it ends in a newline and no line is too long. It then yields its non-empty lines in order, each cut at its first NUL. |
| `HistoryC.NulCutsLine` | history.c:70-89 | A line with a NUL in it gives the entry before the NUL, which is empty when the NUL comes first. |
| `HistoryC.LineTooLong` | history.c:70-73 | A line longer than `MAX_CMD_LEN` fails the whole read. |
| `HistoryC.WithSentinel` | history.c:93-99 | The entries are the lines followed by the NULL sentinel. |
| `HistoryC.Load` | history.c:42-109 | A missing file gives an empty history. A loaded one has a valid cursor. |
| `HistoryC.LoadSpec` | history.c:42-109 | `hist_init` fails exactly on an unreadable file. Otherwise the entries are the non-empty lines, each cut at its first NUL, then the sentinel, with the cursor on the sentinel. |
| `HistoryC.Next` | history.c:123-130 | `hist_next` keeps the entries, and returns NULL with nothing changed when there are none. |
| `HistoryC.Prev` | history.c:132-139 | `hist_prev` keeps the entries, and returns NULL with nothing changed when there are none. |
| `HistoryC.NextPrevInverse` | history.c:123-139 | With entries present, `hist_prev` and `hist_next` undo each other, across the `size_t` wrap too. |
| `HistoryC.NextCycles` | history.c:123-130 | From a loaded history, Down press t returns entry `t mod n`: the oldest line first, the sentinel after the newest. |
| `HistoryC.PrevWalksBack` | history.c:132-139 | From a loaded history, Up press t returns line `m - 1 - t`, newest first. |
| `HistoryC.PrevWrap` | history.c:132-139 | At cursor 0, `hist_prev` wraps to `SIZE_MAX`. The entry it returns is the last one exactly when the count divides 2^64. |
| `HistoryC.PrevWrapRepeatsOldest` | history.c:132-139 | With two lines, Up past the oldest returns the oldest line again. |
| `HistoryC.DropCountSpec` | history.c:154-160 | The number of freed entries is the excess over the cap. One entry below the cap underflows to `SIZE_MAX`. A cap of 1 drops nothing. |
| `HistoryC.Save` | history.c:141-171 | `hist_save` writes nothing exactly when the file does not open. |
| `HistoryC.SaveFaultIff` | history.c:154-158 | Saving runs past the entries exactly when there is one entry fewer than the cap. |
| `HistoryC.SaveLoad` | history.c:141-171 | Loading what a save wrote gives the newest lines that fit under the cap, followed by the command. The only exception is the underflow case. |
| `HistoryC.SaveLoadSkipsEmpty` | history.c:141-171 | For any entries a load can produce, empty ones included, loading what a save wrote gives the non-empty kept entries followed by the command. The only exception is the underflow case. |
| `HistoryC.ReadTerminatedSkipsEmpty` | history.c:70-89 | Newline-terminated lines that fit read back as the non-empty ones. |
| `HistoryC.SaveFirstRun` | history.c:60-67 | With no history file the history is empty with no sentinel, and the save writes just the command and a newline. |
| `HistoryC.SaveFirstRunLoad` | history.c:141-171 | What the first run saved loads back as the command alone, with the cursor on the sentinel. An empty command loads as no lines. |
| `HistoryC.SaveEmptyLoad` | history.c:141-171 | Return on an empty line saves a bare newline. Loading skips it, so the round trip gives just the newest lines that fit under the cap. The only exception is the underflow case. |
| `HistoryC.SaveText` | history.c:159-166 | A save writes the kept lines and the command, whatever it is, each newline-terminated, skipping the sentinel. |
| `HistoryC.ReadBlankLine` | history.c:70-76 | A lone newline reads as no lines. |
| `HistoryC.ReadLineThen` | history.c:70-89 | A line that fits, then a newline, reads as that line followed by what the rest reads as. |
| `HistoryC.ReadTerminatedThen` | history.c:70-89 | Newline-terminated lines that fit, followed by readable text, read as those lines followed by what that text reads as. |
| `HistoryCpp.Load` | history.cpp:33-47 | The loader leaves the cursor before the first entry. |
| `HistoryCpp.LoadSpec` | history.cpp:33-47 | A line is loaded exactly when it is a non-empty line of the file. No entry holds a newline. |
| `HistoryCpp.Next` | history.cpp:54-68 | `next` returns the entry under the new cursor, or the empty string with nothing changed when there are no entries. |
| `HistoryCpp.Prev` | history.cpp:70-84 | `prev` returns the entry under the new cursor, or the empty string with nothing changed when there are no entries. |
| `HistoryCpp.NextPrevInverse` | history.cpp:54-84 | On an entry, `prev` and `next` undo each other. |
| `HistoryCpp.NextCycles` | history.cpp:54-68 | From the start, Down press t returns entry `t mod n`. |
| `HistoryCpp.FirstPrevIsNewest` | history.cpp:70-84 | The first Up press from the start returns the newest entry. |
| `HistoryCpp.SaveLoad` | history.cpp:86-93 | Loading what `save` wrote gives the old entries followed by the saved one. |
| `HistoryCpp.SaveEmptyLoad` | history.cpp:86-93 | Saving an empty command leaves a file that loads to the old entries. |
| `BookmarkC.ReadRound` | bookmark.c:71-83 | One round consumes input. The node's command is newline-free, within the buffer and NUL-free, since `strdup` copies up to the first NUL. It starts with a non-blank unless it is empty. |
| `BookmarkC.RoundEndsLine` | bookmark.c:71-73 | A successful round stops right after a newline. |
| `BookmarkC.Parse` | bookmark.c:71-90 | Every loaded command is newline-free, NUL-free, within the buffer, and non-blank-led unless empty. |
| `BookmarkC.NulCutsCommand` | bookmark.c:71-89 | A command with a NUL in it is stored up to the NUL, and is empty when the NUL comes first. The node goes behind the nodes of the lines after it. |
| `BookmarkC.Load` | bookmark.c:46-102 | A missing file gives the empty list. |
| `BookmarkC.LoadedEndsWithNewline` | bookmark.c:71-74 | A load succeeds only on an empty file or one ending with a newline. |
| `BookmarkC.LookupSpec` | bookmark.c:119-130 | The lookup is NULL exactly when no node has the letter. Otherwise it gives the first such node's command. |
| `BookmarkC.MissingFileLooksUpNothing` | bookmark.c:67-68 | Without a bookmark file every lookup is NULL. |
| `BookmarkC.ParseLine` | bookmark.c:71-89 | A stored line in front of more text reads as its node. |
| `BookmarkC.ParseRender` | bookmark.c:71-90 | Parsing rendered lines gives their nodes, last line at the head. |
| `BookmarkC.LookupLastWins` | bookmark.c:88-89 | Lookup on the list built from a file gives the command of the file's last line with that letter. |
| `BookmarkC.BlanksOverrun` | bookmark.c:71-78 | A command that fits, after enough blanks, still overruns the buffer. |
| `BookmarkCpp.PairsStorable` | bookmark.cpp:40-41 | Every extracted pair has a non-blank letter and a non-empty, blank-free word. |
| `BookmarkCpp.Load` | bookmark.cpp:34-42 | A missing file gives the empty map. |
| `BookmarkCpp.TableLastWins` | bookmark.cpp:40-41 | A letter is stored exactly when some pair has it. Its command is that of the last such pair. |
| `BookmarkCpp.LookupEmptyIff` | bookmark.cpp:49-57 | The lookup is empty exactly for a letter no pair has. |
| `BookmarkCpp.MissingFileLooksUpNothing` | bookmark.cpp:49-57 | Without a bookmark file every lookup is empty. |
| `BookmarkCpp.ReadPair` | bookmark.cpp:40-41 | Letter, blank and word before whitespace extract as one pair, and reading goes on after the word. |
| `BookmarkCpp.ReadAdjacent` | bookmark.cpp:40-41 | A word directly after its letter, with no blank between, is also read as that letter's command. |
| `BookmarkCpp.LastPair` | bookmark.cpp:40-41 | A letter and a word at the very end of the text are read as one last pair. |
| `BookmarkCpp.XtermExample` | bookmark.cpp:40-41 | The line `a xterm -e top` gives three bookmarks: `a` runs `xterm`, `-` runs `e`, and `t` runs `op`. |
| `BookmarkCpp.PairsRender` | bookmark.cpp:40-41 | Extracting from rendered storable pairs gives the pairs back. |
| `Keys.Effective` | thingylaunch.c:309-337 | A key inserts text exactly when its keysym is printable and it is not Control-k or Control-w. |
| `Keys.EditingKeysDoNotInsert` | thingylaunch.c:336-337 | None of the editing keysyms is in the printable ranges. |
| `LauncherC.EraseWordSpec` | thingylaunch.c:318-330 | The Control-w loop fails exactly when no blank precedes the character left of the cursor. Otherwise it removes the text after the last such blank up to the cursor. |
| `LauncherC.Handle` | thingylaunch.c:237-334 | Every case of the `switch` that continues keeps the editor valid. |
| `LauncherC.Recall` | thingylaunch.c:263-281 | Up and Down always continue, with a command within the buffer. |
| `LauncherC.CompleteTab` | thingylaunch.c:298-307 | Tab, when it continues, keeps the editor valid. |
| `LauncherC.Insert` | thingylaunch.c:336-347 | The insertion keeps the command within the buffer and the cursor within the command. |
| `LauncherC.Step` | thingylaunch.c:224-350 | A key press exits exactly on Escape. A launch happens only on Return and runs a prefix of the command as long as the cursor position. |
| `LauncherC.InsertKey` | thingylaunch.c:309-347 | A printable key other than Control-k and Control-w only inserts. |
| `LauncherC.TypeInserts` | thingylaunch.c:336-347 | A printable key puts its character at the cursor and shifts the rest right. The cursor moves past it and the hint is forgotten. On a full buffer the key changes nothing. |
| `LauncherC.StepFaultIff` | thingylaunch.c:244-330 | A key press is undefined exactly for: Backspace on a full buffer; Control-w on a full buffer or inside the first word; Return one entry below the history cap. |
| `LauncherC.TabNeverFaults` | thingylaunch.c:298-307 | Every indexed path has a slash, so Tab never reaches a NULL `strrchr`. |
| `LauncherC.TabYieldsFileName` | thingylaunch.c:298-307 | Tab puts the completed entry's file name in the command, with the cursor after it. |
| `LauncherC.TabWithoutMatch` | thingylaunch.c:298-303 | Tab with no matching entry keeps the command and the cursor. Only the completion state moves. |
| `LauncherC.BackspaceKey` | thingylaunch.c:244-249 | Backspace removes the character left of the cursor, and faults on a full buffer. |
| `LauncherC.TypeThenBackspace` | thingylaunch.c:244-347 | A printable key then Backspace restores the command and the cursor, while the buffer does not fill. |
| `LauncherC.TypeToFullThenBackspaceFaults` | thingylaunch.c:244-347 | Backspace right after a key that filled the buffer reads past it. |
| `LauncherC.ReturnRunsPrefix` | thingylaunch.c:293-296 | Return saves the whole command and runs the text up to the cursor. |
| `LauncherC.TypeAppends` | thingylaunch.c:336-347 | Typed printable text that fits becomes the command, with the cursor after it and the history untouched. |
| `LauncherC.TypeAndLaunch` | thingylaunch.c:293-296 | From the start, typing a command and pressing Return launches and saves exactly that command. |
| `LauncherC.UpRecallsNewest` | thingylaunch.c:263-271 | The first Up press recalls the newest history line, cut to the buffer. |
| `LauncherC.RecallKeys` | thingylaunch.c:263-281 | Up and Down step the history and show the entry reached, cut to `MAX_CMD_LEN - 1` characters. At the NULL sentinel they show the empty command. The cursor goes to the end and completion is untouched. |
| `LauncherC.ControlKClears` | thingylaunch.c:309-316 | Control-k empties the command, moves the cursor to 0 and forgets the completion hint. |
| `LauncherC.CursorKeysKeepCommand` | thingylaunch.c:251-291 | The cursor keys keep the command, and Home and End go to its ends. |
| `LauncherC.ControlWErases` | thingylaunch.c:318-330 | Control-w keeps the text up to and including the last blank before the character left of the cursor. |
| `LauncherC.ControlWExamples` | thingylaunch.c:318-330 | `foo bar` with the cursor at the end becomes `foo `. With the cursor inside `foo` it faults. ` foo` becomes ` `: the leading blank is kept. |
| `LauncherCpp.ScanBackIsLastSpace` | thingylaunch.cpp:393-398 | The backward scan stops on the last blank before its start, or at the beginning. |
| `LauncherCpp.WordStartSpec` | thingylaunch.cpp:391-406 | Control-w erases from after the last blank, or from the beginning when that blank is the first character or there is none. |
| `LauncherCpp.Dispatch` | thingylaunch.cpp:325-425 | Every continuing case keeps the cursor, taken as an offset, within the command. |
| `LauncherCpp.Edit` | thingylaunch.cpp:330-389 | The editing cases keep the cursor within the command and the iterators valid. |
| `LauncherCpp.Insert` | thingylaunch.cpp:415-425 | Insertion keeps the editor valid, with the cursor taken as an offset. |
| `LauncherCpp.Step` | thingylaunch.cpp:307-429 | A key press exits exactly on Escape, unless Alt launched a bookmark. |
| `LauncherCpp.StepFaultIff` | thingylaunch.cpp:295-429 | With the cursor taken as an offset, a key press is undefined exactly in two cases. One is Alt with no bookmark while the cursor is off the start, on a key that reads the cursor before assigning it. The other is Control-w at the start. |
| `LauncherCpp.AltWithoutBookmark` | thingylaunch.cpp:315-389 | Alt with no bookmark, on Escape, Return, Up, Down, Home, End, Tab or Control-k, acts as that key on the empty command, whatever the command and cursor were. |
| `LauncherCpp.LaunchIff` | thingylaunch.cpp:315-374 | A launch happens exactly for Alt with a bookmark, or for Return. Alt saves the bookmark; Return saves the whole command, or the empty command after Alt found no bookmark. The shell gets the saved text up to its first NUL, since `execcmd` passes `c_str()` (thingylaunch.cpp:451). |
| `LauncherCpp.ControlSpaceCutsRun` | thingylaunch.cpp:415-451 | Control-space inserts a NUL at the cursor. Return then saves the whole command but runs only the text before the NUL. |
| `LauncherCpp.TypeThenBackspace` | thingylaunch.cpp:330-425 | A printable key then Backspace restores the command and the cursor, with the cursor taken as an offset. |
| `LauncherCpp.TypeInserts` | thingylaunch.cpp:415-425 | A printable key without Alt puts its character at the cursor and shifts the rest right. The model sets no length limit, since it takes the cursor as an offset; the code is undefined once the insertion reallocates. The completion is reset. |
| `LauncherCpp.BackspaceKey` | thingylaunch.cpp:330-334 | Backspace removes the character left of the cursor. At the start it removes nothing. The completion is reset either way. |
| `LauncherCpp.ControlKClears` | thingylaunch.cpp:382-389 | Control-k empties the command, moves the cursor to the start and resets the completion. |
| `LauncherCpp.RecallKeys` | thingylaunch.cpp:348-358 | Up and Down step the history and show the whole entry reached, with the cursor at its end. |
| `LauncherCpp.ControlWErases` | thingylaunch.cpp:391-409 | Control-w erases from the computed word start to the cursor. |
| `LauncherCpp.ControlWExamples` | thingylaunch.cpp:391-409 | `foo bar` becomes `foo `. ` foo` becomes the empty command. |
| `LauncherCpp.TabCompletes` | thingylaunch.cpp:376-380 | Tab puts a listed name starting with the latched prefix in the command, or keeps the command when nothing matches. The cursor goes to the end. |
| `LauncherCpp.UpRecallsNewest` | thingylaunch.cpp:348-352 | The first Up press after start-up recalls the newest history entry. |
| `Generations.ControlWAgreement` | thingylaunch.cpp:391-409 | The C and C++ Control-w agree exactly when the last blank before the cursor is not the first character. Where no blank exists, C faults and C++ erases to the start. |

## Left out

- The X11 side is not modelled: the window, fonts, drawing (`redraw`), the event loop and `XLookupString`. A key press is given as keysym, text character and modifier bits.
- `execcmd` is not modelled beyond its truncation at the cursor: destroying the window, `fork` and `exec` of the shell.
- The C `hist_init` and `book_init` paths and the C++ file names built from `HOME` are not modelled. File contents, and whether a file opens, are parameters.
- Allocation failures (`malloc`, `realloc`, `strdup`) are not modelled. Those paths only return NULL after freeing.
- The cleanup and debug functions (`comp_cleanup`, `hist_cleanup`, `book_cleanup`, `comp_dump`, `hist_dump`) are not modelled: they release memory or print.
- Write errors while saving the history are not modelled. The C++ `History::save` opening no file, which writes nothing, is not modelled either.
- `comp_init` runs `stat` on the path truncated to the buffer. The model takes the `stat` result from the directory listing instead.
- `CompletionC.Init`: requires every openable directory to be at least two characters shorter than `MAX_CMD_LEN`. Otherwise the file name pointer would start past the truncated full path.
- `CompletionC.SortByName` is a stable insertion sort. `qsort` is not stable, but all properties depend only on sortedness and permutation.
- `HistoryC.LoadSpec`: assumes the file has fewer than 2^64 lines.
- `HistoryC.NextCycles`: covers only press counts that do not wrap the `size_t` cursor. `HistoryC.PrevWrap` covers the wrap.
- `LauncherC.Step`: excludes a printable key whose lookup yields the NUL character. That would put a terminator inside the command and leave bytes behind it that later edits can bring back.
- `LauncherC.TypeAppends`: covers only text of printable, non-NUL characters that fits the buffer. `LauncherC.StepFaultIff` and `LauncherC.TypeInserts` cover a full buffer.
- `LauncherCpp.Step`: after an Alt key with no bookmark, the model takes the cursor as the start of the new empty command in two cases. One is when the cursor was at the start; the other is when the key assigns the cursor before anything reads it. The invalidation of the iterator by the assignment is not modelled.
- `LauncherCpp.Step`: Control-w at the start forms `m_cursorPos - 1` before `begin()` (thingylaunch.cpp:393). That is undefined, so the model answers `Fault`. In practice the `++i` at thingylaunch.cpp:400-402 returns it to `begin()` and nothing is erased.
- `HistoryCpp.Load`: `m_elements.begin() - 1` at history.cpp:46 and :59 is undefined for a vector iterator. The model takes it as index -1, which is how the following `++m_iter` uses it in practice.
- `LauncherCpp.Insert`: takes `m_cursorPos` as an offset that survives `push_back` and `insert` (thingylaunch.cpp:418-423). That holds only while the string is not reallocated. When the string grows past its capacity (the 16th character typed into an empty command with a 15-character small-string buffer), the `++m_cursorPos` and the next `redraw` (thingylaunch.cpp:297) use a dangling iterator. The model does not promise a `Fault` there, because when a reallocation happens depends on the library's capacity policy.
- `LauncherCpp.Dispatch`: uses the same offset reading across `erase` (thingylaunch.cpp:333, :404) and the inserts above. `LauncherCpp.StepFaultIff`, `LauncherCpp.TypeInserts` and `LauncherCpp.TypeThenBackspace` hold within that reading only.
- `HistoryC.SaveLoad` and `HistoryC.SaveEmptyLoad`: require non-empty entries. A load can produce an empty entry from a line that starts with a NUL; `HistoryC.SaveLoadSkipsEmpty` covers that case.
- The C++ `charPressed` is left uninitialised when `XLookupString` produces no character. The model always has a text character.
- `HistoryCpp.Save` has no contract of its own. Its meaning is stated by `HistoryCpp.SaveLoad` and `HistoryCpp.SaveEmptyLoad`.
- `BookmarkC.Lookup` and `BookmarkCpp.Lookup` have no contract of their own. Their meaning is stated by `BookmarkC.LookupSpec` and `BookmarkCpp.LookupEmptyIff`.

=== FILE: base.dfy ===
/** Shared vocabulary of the launcher model: the optional value used for the
    C generation's NULL returns, and the build-time limits that both
    generations take from headers this model does not see. */
module Base {

  /** A value or nothing; `None` stands for a C `NULL` pointer result. */
  datatype Option<+T> = None | Some(value: T)

  type Positive = n: nat | n > 0 witness 1

  /** `MAX_CMD_LEN`: the command buffer holds at most this many characters.
      Its value is fixed by a header outside the model, so it stays symbolic. */
  const MaxCmdLen: Positive

  /** A positive value of C's `int`. */
  type PositiveInt = n: nat | 0 < n < 0x8000_0000 witness 1

  /** `MAX_HISTORY_LINES`: the cap the C history applies when saving. It is
      compared with `size_t` counts, so its `int` range matters. */
  const MaxHistoryLines: PositiveInt

  /** `size_t` arithmetic wraps modulo this (a 64-bit platform). */
  const SizeModulus: nat := 0x1_0000_0000_0000_0000

  /** Division with remainder is unique. */
  lemma DivModUnique(x: int, w: int, q: int, r: int)
    requires w > 0 && 0 <= r < w && x == q * w + r
    ensures x % w == r && x / w == q
  {
    var q0, r0 := x / w, x % w;
    assert x == q0 * w + r0;
    var d := q - q0;
    assert d * w == r0 - r by {
      assert d * w == q * w - q0 * w;
    }
  }

  /** An integer converted to `size_t`. */
  function SizeT(x: int): (r: nat)
    ensures r < SizeModulus
  {
    x % SizeModulus
  }

  /** A value in range converts to itself. */
  lemma SmallMod(x: int)
    requires 0 <= x < SizeModulus
    ensures SizeT(x) == x
  {
    DivModUnique(x, SizeModulus, 0, x);
  }

  /** A value just below 0 or just past the top wraps around once. */
  lemma WrapMod(x: int)
    requires (x < 0 && 0 <= x + SizeModulus) || (SizeModulus <= x < 2 * SizeModulus)
    ensures SizeT(x) == if x < 0 then x + SizeModulus else x - SizeModulus
  {
    if x < 0 {
      DivModUnique(x, SizeModulus, -1, x + SizeModulus);
    } else {
      DivModUnique(x, SizeModulus, 1, x - SizeModulus);
    }
  }

  /** Adding the modulus does not change a remainder. */
  lemma ModShift(t: nat, n: nat)
    requires n > 0
    ensures (n + t) % n == t % n
  {
    var q, r := t / n, t % n;
    assert t == q * n + r;
    assert n + t == (q + 1) * n + r;
    DivModUnique(n + t, n, q + 1, r);
  }

  /** One step of a counter taken modulo `w`: the remainder of `b = a + 1`
      is one more than that of `a`, or 0 when that reaches `w`. */
  lemma ModSucc(a: nat, b: nat, w: nat)
    requires w > 0 && b == a + 1
    ensures b % w == if a % w + 1 < w then a % w + 1 else 0
  {
    var q, r := a / w, a % w;
    assert a == q * w + r;
    if r + 1 < w {
      DivModUnique(b, w, q, r + 1);
    } else {
      assert b == (q + 1) * w + 0;
      DivModUnique(b, w, q + 1, 0);
    }
  }

  /** Where a cursor that starts at 0 and moves one on per call, wrapping
      back to 0 after `w - 1`, stands after `j` moves; counted by stepping
      rather than by division. */
  function Lap(j: nat, w: nat): (m: nat)
    requires w > 0
    ensures m < w
  {
    if j == 0 then 0
    else
      var p := Lap(j - 1, w);
      if p + 1 < w then p + 1 else 0
  }

  /** The stepping count agrees with the remainder. */
  lemma {:induction false} LapIsMod(j: nat, w: nat)
    requires w > 0
    ensures Lap(j, w) == j % w
  {
    if j > 0 {
      LapIsMod(j - 1, w);
      ModSucc(j - 1, j, w);
    }
  }
}

=== FILE: bookmark_c.dfy ===
/** The C generation's bookmark table (bookmark.c): lines of the form
    letter, blanks, command, read with `fscanf("%c %MAX[^\n]%n")`, each
    pushed on the front of a linked list, and a lookup that returns the
    first node with the letter. */
module BookmarkC {
  import opened Base
  import opened Text

  /** One `book_elem_t`. */
  datatype Node = Node(letter: char, command: string)

  /** What `book_init` produced. */
  datatype LoadOutcome =
    | Loaded(nodes: seq<Node>)   // the list from its head
    | Failed                     // the NULL return: a line without its newline
    | Overrun                    // `command[nof_chars]` written past the buffer

  /** What a stored command looks like: within one line and within the
      buffer, and free of NUL since `strdup` copies only up to the first
      one. It starts with a non-blank unless it is empty, which it is when
      the text read for it starts with a NUL. */
  predicate Command(c: string)
  {
    (c == "" || !IsSpace(c[0])) && '\n' !in c && '\0' !in c && |c| <= MaxCmdLen
  }

  /** What `%MAX[^\n]` reads after the blanks: non-empty, starting with a
      non-blank, within one line and within the buffer. */
  predicate Scanned(c: string)
  {
    c != "" && !IsSpace(c[0]) && '\n' !in c && |c| <= MaxCmdLen
  }

  /** The copy `strdup` makes of a scanned command is a stored command. */
  lemma CopyIsCommand(c: string)
    requires Scanned(c)
    ensures Command(BeforeNul(c))
  {
    var r := BeforeNul(c);
    if r != "" {
      assert r[0] == c[0];
    }
    assert forall i :: 0 <= i < |r| ==> r[i] == c[i];
  }

  /** One round of the read loop. */
  datatype Round =
    | Eof                          // `fscanf` returned EOF: the loop ends
    | NoNewline                    // the character after the command is not a newline
    | PastBuffer                   // the NUL goes to `command[nof_chars]` past the buffer
    | Got(node: Node, rest: string)

  /** One round over the rest of the file: one character as the letter,
      blanks skipped (newlines included), up to `MAX_CMD_LEN` characters
      short of a newline, then a newline. `%n` counts every character the
      round consumed, so a command after many blanks puts the terminating
      NUL past the buffer. The node keeps the `strdup` copy of the
      command, which ends at its first NUL. */
  function ReadRound(s: string): (r: Round)
    ensures r.Eof? <==> |s| == 0
    ensures r.Got? ==> |r.rest| < |s| && Command(r.node.command)
  {
    if |s| == 0 then Eof
    else
      var rest := SkipSpace(s[1..]);
      var command := LinePrefix(rest, MaxCmdLen);
      var after := rest[|command|..];
      if |after| == 0 || after[0] != '\n' then NoNewline
      else if 1 + (|s| - 1 - |rest|) + |command| > MaxCmdLen then PastBuffer
      else
        RoundSuffix(s, rest, command);
        CopyIsCommand(command);
        Got(Node(s[0], BeforeNul(command)), after[1..])
  }

  /** A round that reads a line leaves the text after that line's newline. */
  lemma RoundEndsLine(s: string)
    requires ReadRound(s).Got?
    ensures var rest := ReadRound(s).rest;
            |rest| < |s| && rest == s[|s| - |rest|..] && s[|s| - |rest| - 1] == '\n'
  {
    var rest := SkipSpace(s[1..]);
    RoundSuffix(s, rest, LinePrefix(rest, MaxCmdLen));
  }

  lemma RoundSuffix(s: string, rest: string, command: string)
    requires |s| > 0 && rest == SkipSpace(s[1..]) && command == LinePrefix(rest, MaxCmdLen)
    requires |command| < |rest| && rest[|command|] == '\n'
    ensures var tail := rest[|command| + 1..];
            |tail| < |s| && tail == s[|s| - |tail|..] && s[|s| - |tail| - 1] == '\n'
    ensures Scanned(command)
  {
    var after := rest[|command|..];
    assert rest == s[1..][|s| - 1 - |rest|..];
    assert after == s[|s| - |after|..];
    assert after[1..] == rest[|command| + 1..];
  }

  /** The read loop: rounds until EOF, each node going behind the nodes of
      the lines after it (the front of the list is the last line read). */
  function Parse(s: string): (r: LoadOutcome)
    ensures r.Loaded? ==> forall n :: n in r.nodes ==> Command(n.command)
    decreases |s|
  {
    match ReadRound(s)
    case Eof => Loaded([])
    case NoNewline => Failed
    case PastBuffer => Overrun
    case Got(node, rest) =>
      match Parse(rest)
      case Loaded(nodes) => Loaded(nodes + [node])
      case other => other
  }

  /** `book_init`: a file that does not open gives the empty list. */
  function Load(file: Option<string>): (r: LoadOutcome)
    ensures file.None? ==> r == Loaded([])
  {
    if file.None? then Loaded([]) else Parse(file.value)
  }

  /** A load succeeds only on a file that is empty or ends with a newline. */
  lemma {:induction false} LoadedEndsWithNewline(s: string)
    requires Parse(s).Loaded?
    ensures |s| == 0 || s[|s| - 1] == '\n'
    decreases |s|
  {
    if |s| > 0 {
      var rest := ReadRound(s).rest;
      RoundEndsLine(s);
      LoadedEndsWithNewline(rest);
      if |rest| > 0 {
        assert rest[|rest| - 1] == s[|s| - 1];
      }
    }
  }

  /** `book_lookup`: the command of the first node with the letter, or NULL
      (`None`). The list is not changed. */
  function Lookup(nodes: seq<Node>, letter: char): (r: Option<string>)
    decreases |nodes|
  {
    if |nodes| == 0 then None
    else if nodes[0].letter == letter then Some(nodes[0].command)
    else Lookup(nodes[1..], letter)
  }

  /** The lookup finds nothing exactly when no node has the letter, and
      otherwise returns the command of the first node that has it. */
  lemma {:induction false} LookupSpec(nodes: seq<Node>, letter: char)
    ensures Lookup(nodes, letter).None? <==> forall i :: 0 <= i < |nodes| ==> nodes[i].letter != letter
    ensures Lookup(nodes, letter).Some? ==>
              exists i :: && 0 <= i < |nodes| && nodes[i] == Node(letter, Lookup(nodes, letter).value)
                          && forall j :: 0 <= j < i ==> nodes[j].letter != letter
    decreases |nodes|
  {
    if |nodes| > 0 && nodes[0].letter != letter {
      LookupSpec(nodes[1..], letter);
      if Lookup(nodes, letter).Some? {
        var i :| && 0 <= i < |nodes[1..]| && nodes[1..][i] == Node(letter, Lookup(nodes, letter).value)
                 && forall j :: 0 <= j < i ==> nodes[1..][j].letter != letter;
        assert nodes[i + 1] == nodes[1..][i];
        assert forall j :: 0 <= j < i + 1 ==> nodes[j].letter != letter by {
          forall j | 0 <= j < i + 1
            ensures nodes[j].letter != letter
          {
            if j > 0 {
              assert nodes[j] == nodes[1..][j - 1];
            }
          }
        }
      } else {
        forall i | 0 <= i < |nodes|
          ensures nodes[i].letter != letter
        {
          if i > 0 {
            assert nodes[i] == nodes[1..][i - 1];
          }
        }
      }
    }
  }

  /** With no bookmark file every lookup is NULL. */
  lemma MissingFileLooksUpNothing(letter: char)
    ensures Load(None).Loaded? && Lookup(Load(None).nodes, letter) == None
  {
  }

  /** A bookmark line as the file holds it: letter, one blank, command. */
  function Line(n: Node): string
  {
    [n.letter] + " " + n.command + "\n"
  }

  /** The file holding the lines in order. */
  function Render(lines: seq<Node>): string
    decreases |lines|
  {
    if |lines| == 0 then "" else Line(lines[0]) + Render(lines[1..])
  }

  /** A line the parser reads back unchanged: the command is non-empty,
      starts with a non-blank, holds no newline and no NUL, and letter,
      blank and command fit the `%n` count. */
  predicate Storable(n: Node)
  {
    && n.command != "" && !IsSpace(n.command[0]) && '\n' !in n.command && '\0' !in n.command
    && |n.command| + 2 <= MaxCmdLen
  }

  function Reverse(s: seq<Node>): (r: seq<Node>)
    ensures |r| == |s|
    decreases |s|
  {
    if |s| == 0 then [] else Reverse(s[1..]) + [s[0]]
  }

  /** Round trip: parsing rendered lines gives their nodes with the last
      line at the head of the list. */
  lemma {:induction false} ParseRender(lines: seq<Node>)
    requires forall i :: 0 <= i < |lines| ==> Storable(lines[i])
    ensures Parse(Render(lines)) == Loaded(Reverse(lines))
    decreases |lines|
  {
    if |lines| > 0 {
      var n := lines[0];
      var tail := Render(lines[1..]);
      ParseLine(n, tail);
      ParseRender(lines[1..]);
    }
  }

  /** One stored line in front of more text reads as its node. */
  lemma ParseLine(n: Node, tail: string)
    requires Storable(n)
    ensures ReadRound(Line(n) + tail) == Got(n, tail)
  {
    var s := Line(n) + tail;
    assert s[1..] == " " + (n.command + "\n" + tail);
    assert (" " + (n.command + "\n" + tail))[1..] == n.command + "\n" + tail;
    assert SkipSpace(s[1..]) == SkipSpace(n.command + "\n" + tail);
    LineRead(n.command, "\n" + tail, MaxCmdLen);
    BeforeNulWhole(n.command);
    assert n.command + "\n" + tail == n.command + ("\n" + tail);
    assert (n.command + "\n" + tail)[|n.command|..] == "\n" + tail;
  }

  /** A line whose command holds a NUL stores only the part before it, and
      an empty command when the NUL comes first. */
  lemma NulCutsCommand(letter: char, head: string, tail: string, rest: string)
    requires (head == "" || !IsSpace(head[0])) && '\n' !in head && '\0' !in head && '\n' !in tail
    requires 2 + |head| + 1 + |tail| <= MaxCmdLen
    ensures var s := [letter] + " " + (head + ['\0'] + tail) + "\n" + rest;
            && ReadRound(s) == Got(Node(letter, head), rest)
            && (Parse(rest).Loaded? ==> Parse(s) == Loaded(Parse(rest).nodes + [Node(letter, head)]))
  {
    var command := CutCommand(head, tail);
    ReadScanned(letter, command, rest);
    BeforeNulCut(head, tail);
    ParseAfterRound([letter] + " " + command + "\n" + rest);
  }

  /** A round that reads a node puts it behind the nodes of the rest. */
  lemma ParseAfterRound(s: string)
    requires ReadRound(s).Got?
    ensures var round := ReadRound(s);
            Parse(round.rest).Loaded? ==> Parse(s) == Loaded(Parse(round.rest).nodes + [round.node])
  {
  }

  lemma CutCommand(head: string, tail: string) returns (command: string)
    requires (head == "" || !IsSpace(head[0])) && '\n' !in head && '\0' !in head && '\n' !in tail
    requires 2 + |head| + 1 + |tail| <= MaxCmdLen
    ensures command == head + ['\0'] + tail && Scanned(command) && |command| + 2 <= MaxCmdLen
  {
    command := head + ['\0'] + tail;
    assert command[|head|] == '\0';
    assert '\n' !in command;
  }

  /** A letter, one blank and a scanned command on a line of their own
      read as the letter and the copy of the command. */
  lemma ReadScanned(letter: char, command: string, rest: string)
    requires Scanned(command) && |command| + 2 <= MaxCmdLen
    ensures ReadRound([letter] + " " + command + "\n" + rest) == Got(Node(letter, BeforeNul(command)), rest)
  {
    var s, t := ScannedLine(letter, command, rest);
    LineRead(command, "\n" + rest, MaxCmdLen);
    RoundGot(s, t, command);
  }

  lemma ScannedLine(letter: char, command: string, rest: string) returns (s: string, t: string)
    requires Scanned(command)
    ensures s == [letter] + " " + command + "\n" + rest && t == command + ("\n" + rest)
    ensures |s| == |t| + 2 && s[0] == letter && SkipSpace(s[1..]) == t
    ensures t[|command|..] == "\n" + rest && t[|command| + 1..] == rest
  {
    s := [letter] + " " + command + "\n" + rest;
    t := command + ("\n" + rest);
    assert s[1..] == " " + t;
    assert (" " + t)[1..] == t;
    assert t[|command|..] == "\n" + rest;
  }

  /** The round on text whose scanned line fits the `%n` count. */
  lemma RoundGot(s: string, t: string, command: string)
    requires |s| > 0 && t == SkipSpace(s[1..]) && command == LinePrefix(t, MaxCmdLen)
    requires |command| < |t| && t[|command|] == '\n'
    requires 1 + (|s| - 1 - |t|) + |command| <= MaxCmdLen
    ensures ReadRound(s) == Got(Node(s[0], BeforeNul(command)), t[|command| + 1..])
  {
  }

  /** The command of the last line with the letter, scanning the file from
      its end. */
  function LastFor(lines: seq<Node>, letter: char): Option<string>
    decreases |lines|
  {
    if |lines| == 0 then None
    else if lines[|lines| - 1].letter == letter then Some(lines[|lines| - 1].command)
    else LastFor(lines[..|lines| - 1], letter)
  }

  /** Last line wins: looking a letter up in the list built from a file
      gives the command of the file's last line with that letter. */
  lemma {:induction false} LookupLastWins(lines: seq<Node>, letter: char)
    ensures Lookup(Reverse(lines), letter) == LastFor(lines, letter)
    decreases |lines|
  {
    if |lines| > 0 {
      var last := lines[|lines| - 1];
      var init := lines[..|lines| - 1];
      ReverseSnoc(init, last);
      assert lines == init + [last];
      assert Reverse(lines)[1..] == Reverse(init);
      LookupLastWins(init, letter);
    }
  }

  lemma {:induction false} ReverseSnoc(s: seq<Node>, x: Node)
    ensures Reverse(s + [x]) == [x] + Reverse(s)
    decreases |s|
  {
    if |s| > 0 {
      assert (s + [x])[1..] == s[1..] + [x];
      ReverseSnoc(s[1..], x);
    } else {
      assert s + [x] == [x];
    }
  }

  /** The blanks before the command count towards `%n`: a command that fits
      the buffer still overruns it when enough blanks precede it. */
  lemma BlanksOverrun(letter: char, blanks: nat, command: string)
    requires command != "" && !IsSpace(command[0]) && '\n' !in command && |command| <= MaxCmdLen
    requires 1 + blanks + |command| > MaxCmdLen
    ensures Parse([letter] + Spaces(blanks) + command + "\n") == Overrun
  {
    BlanksRound(letter, blanks, command);
  }

  lemma BlanksRound(letter: char, blanks: nat, command: string)
    requires command != "" && !IsSpace(command[0]) && '\n' !in command && |command| <= MaxCmdLen
    requires 1 + blanks + |command| > MaxCmdLen
    ensures ReadRound([letter] + Spaces(blanks) + command + "\n") == PastBuffer
  {
    var s := [letter] + Spaces(blanks) + command + "\n";
    var t := command + "\n";
    assert s[1..] == Spaces(blanks) + t;
    SkipSpaces(blanks, t);
    LineRead(command, "\n", MaxCmdLen);
    assert t[|command|..] == "\n";
  }

  function Spaces(k: nat): (r: string)
    ensures |r| == k && forall i :: 0 <= i < k ==> r[i] == ' '
  {
    seq(k, i => ' ')
  }

  lemma {:induction false} SkipSpaces(k: nat, t: string)
    requires |t| > 0 && !IsSpace(t[0])
    ensures SkipSpace(Spaces(k) + t) == t
    decreases k
  {
    if k > 0 {
      assert (Spaces(k) + t)[1..] == Spaces(k - 1) + t;
      SkipSpaces(k - 1, t);
    } else {
      assert Spaces(0) + t == t;
    }
  }
}

=== FILE: bookmark_cpp.dfy ===
/** The C++ generation's bookmark table (bookmark.cpp): the file read as a
    stream of `char` then `string` extractions, each pair stored in a map
    under its letter, and a lookup that returns the empty string for a
    letter with no bookmark. */
module BookmarkCpp {
  import opened Base
  import opened Text

  /** One `inFile >> c >> command` pair. */
  datatype Pair = Pair(letter: char, command: string)

  /** A pair the extractions can produce, and read back unchanged: a
      non-blank letter and a non-empty word. */
  predicate Storable(p: Pair)
  {
    !IsSpace(p.letter) && p.command != "" && NoSpace(p.command)
  }

  /** One turn of the constructor's loop: `>> c` skips whitespace and
      takes one character, `>> command` skips whitespace and takes one word.
      Either extraction fails only at the end of the text (`None`); a letter
      without a word after it is not stored. */
  function Extract(s: string): (r: Option<(Pair, string)>)
    ensures r.Some? ==> |r.value.1| < |s|
  {
    var t := SkipSpace(s);
    if |t| == 0 then None
    else
      var u := SkipSpace(t[1..]);
      if |u| == 0 then None
      else
        var w := Word(u);
        Some((Pair(t[0], w), u[|w|..]))
  }

  /** The loop: pairs in file order until an extraction fails. */
  function Pairs(s: string): seq<Pair>
    decreases |s|
  {
    match Extract(s)
    case None => []
    case Some((p, rest)) => [p] + Pairs(rest)
  }

  /** Every extracted pair has a non-blank letter and a non-empty word. */
  lemma {:induction false} PairsStorable(s: string)
    ensures forall p :: p in Pairs(s) ==> Storable(p)
    decreases |s|
  {
    var r := Extract(s);
    if r.Some? {
      PairsStorable(r.value.1);
      var t := SkipSpace(s);
      var u := SkipSpace(t[1..]);
      assert Storable(Pair(t[0], Word(u)));
    }
  }

  /** `m_bookmarks[c] = command` for each pair in order. */
  function Table(ps: seq<Pair>): map<char, string>
    decreases |ps|
  {
    if |ps| == 0 then map[]
    else
      var last := ps[|ps| - 1];
      Table(ps[..|ps| - 1])[last.letter := last.command]
  }

  /** The constructor: a file that does not open gives the empty table. */
  function Load(file: Option<string>): (m: map<char, string>)
    ensures file.None? ==> m == map[]
  {
    if file.None? then map[] else Table(Pairs(file.value))
  }

  /** `Bookmark::lookup`: the stored command, or the empty string. */
  function Lookup(m: map<char, string>, letter: char): string
  {
    if letter in m then m[letter] else ""
  }

  /** The table holds a letter exactly when some pair has it, and then the
      command of the last such pair: a later line overrides an earlier one. */
  lemma {:induction false} TableLastWins(ps: seq<Pair>, letter: char)
    ensures letter in Table(ps) <==> exists i :: 0 <= i < |ps| && ps[i].letter == letter
    ensures letter in Table(ps) ==>
              exists i :: && 0 <= i < |ps| && ps[i] == Pair(letter, Table(ps)[letter])
                          && forall j :: i < j < |ps| ==> ps[j].letter != letter
    decreases |ps|
  {
    if |ps| > 0 {
      var init := ps[..|ps| - 1];
      var last := ps[|ps| - 1];
      TableLastWins(init, letter);
      if last.letter != letter {
        if letter in Table(ps) {
          var i :| && 0 <= i < |init| && init[i] == Pair(letter, Table(init)[letter])
                   && forall j :: i < j < |init| ==> init[j].letter != letter;
          assert ps[i] == init[i];
        }
        if exists i :: 0 <= i < |ps| && ps[i].letter == letter {
          var i :| 0 <= i < |ps| && ps[i].letter == letter;
          assert init[i] == ps[i];
        }
      } else {
        assert ps[|ps| - 1] == Pair(letter, Table(ps)[letter]);
      }
    }
  }

  /** The lookup is empty exactly for a letter no pair has, since every
      stored command is a non-empty word. */
  lemma LookupEmptyIff(s: string, letter: char)
    ensures Lookup(Load(Some(s)), letter) == "" <==> forall p :: p in Pairs(s) ==> p.letter != letter
  {
    var ps := Pairs(s);
    PairsStorable(s);
    TableLastWins(ps, letter);
    if letter in Table(ps) {
      var i :| 0 <= i < |ps| && ps[i] == Pair(letter, Table(ps)[letter]);
      assert ps[i] in ps;
    } else {
      forall p | p in ps
        ensures p.letter != letter
      {
        var i :| 0 <= i < |ps| && ps[i] == p;
      }
    }
  }

  /** With no bookmark file every lookup is empty. */
  lemma MissingFileLooksUpNothing(letter: char)
    ensures Lookup(Load(None), letter) == ""
  {
  }

  /** The file holding the pairs one per line: letter, one blank, command. */
  function Render(ps: seq<Pair>): string
    decreases |ps|
  {
    if |ps| == 0 then "" else [ps[0].letter] + (" " + (ps[0].command + ("\n" + Render(ps[1..]))))
  }

  /** Round trip: extracting from rendered pairs gives the pairs back. */
  lemma {:induction false} PairsRender(ps: seq<Pair>)
    requires forall i :: 0 <= i < |ps| ==> Storable(ps[i])
    ensures Pairs(Render(ps)) == ps
    decreases |ps|
  {
    if |ps| > 0 {
      PairsRender(ps[1..]);
      RenderStep(ps);
    }
  }

  lemma RenderStep(ps: seq<Pair>)
    requires |ps| > 0 && Storable(ps[0]) && Pairs(Render(ps[1..])) == ps[1..]
    ensures Pairs(Render(ps)) == ps
  {
    RenderHead(ps);
    assert [ps[0]] + ps[1..] == ps;
  }

  /** The first rendered pair is read back and the rest is read on. */
  lemma RenderHead(ps: seq<Pair>)
    requires |ps| > 0 && Storable(ps[0])
    ensures Pairs(Render(ps)) == [ps[0]] + Pairs(Render(ps[1..]))
  {
    var tail := Render(ps[1..]);
    ReadPair(ps[0], "\n" + tail);
    BlankSkipped('\n', tail);
  }

  /** Whitespace in front of the text changes nothing that is extracted. */
  lemma BlankSkipped(c: char, t: string)
    requires IsSpace(c)
    ensures Pairs([c] + t) == Pairs(t)
  {
    assert ([c] + t)[1..] == t;
  }

  /** A letter, a blank and a word in front of text that starts with
      whitespace are extracted as one pair, and the text after the word is
      read on as further pairs: of a command with arguments only the first
      word is stored, and each later word gives a letter of its own. */
  lemma ReadPair(p: Pair, rest: string)
    requires Storable(p) && |rest| > 0 && IsSpace(rest[0])
    ensures Extract([p.letter] + (" " + (p.command + rest))) == Some((p, rest))
    ensures Pairs([p.letter] + (" " + (p.command + rest))) == [p] + Pairs(rest)
  {
    var u := p.command + rest;
    var s := [p.letter] + (" " + u);
    assert s[1..] == " " + u;
    assert (" " + u)[1..] == u;
    assert u[0] == p.command[0];
    WordOf(p.command, rest);
    assert u[|p.command|..] == rest;
    PairsStep(s, u);
  }

  /** A word may also follow its letter directly: `>> command` skips no
      whitespace then. */
  lemma ReadAdjacent(p: Pair, rest: string)
    requires Storable(p) && |rest| > 0 && IsSpace(rest[0])
    ensures Pairs([p.letter] + (p.command + rest)) == [p] + Pairs(rest)
  {
    var u := p.command + rest;
    var s := [p.letter] + u;
    assert s[1..] == u;
    assert u[0] == p.command[0];
    WordOf(p.command, rest);
    assert u[|p.command|..] == rest;
    PairsStep(s, u);
  }

  /** The line `a xterm -e top` gives three bookmarks: `a` runs `xterm`,
      `-` runs `e` and `t` runs `op`. */
  lemma XtermExample(line: string)
    requires line == "a xterm -e top"
    ensures Pairs(line) == [Pair('a', "xterm"), Pair('-', "e"), Pair('t', "op")]
  {
    var second, third := XtermSplit(line);
    var a, dash, t := XtermPairs();
    assert [a] + ([dash] + [t]) == [a, dash, t];
    ReadPair(a, [' '] + second);
    BlankSkipped(' ', second);
    ReadAdjacent(dash, [' '] + third);
    BlankSkipped(' ', third);
    LastPair(t);
  }

  lemma XtermPairs() returns (a: Pair, dash: Pair, t: Pair)
    ensures a == Pair('a', "xterm") && dash == Pair('-', "e") && t == Pair('t', "op")
    ensures Storable(a) && Storable(dash) && Storable(t)
  {
    a, dash, t := Pair('a', "xterm"), Pair('-', "e"), Pair('t', "op");
  }

  lemma XtermSplit(line: string) returns (second: string, third: string)
    requires line == "a xterm -e top"
    ensures line == ['a'] + (" " + ("xterm" + ([' '] + second)))
    ensures second == ['-'] + ("e" + ([' '] + third))
    ensures third == ['t'] + "op"
  {
    second := line[8..];
    third := line[11..];
    assert line[..8] == "a xterm ";
    assert line == line[..8] + second;
    assert second == second[..3] + third;
    assert second[..3] == "-e ";
  }

  /** A letter followed directly by a word at the end of the text is read
      as one last pair. */
  lemma LastPair(p: Pair)
    requires Storable(p)
    ensures Pairs([p.letter] + p.command) == [p]
  {
    var s := [p.letter] + p.command;
    assert s[1..] == p.command;
    WordAll(p.command);
    assert p.command[|p.command|..] == "";
    PairsStep(s, p.command);
  }

  lemma {:induction false} WordAll(w: string)
    requires NoSpace(w)
    ensures Word(w) == w
    decreases |w|
  {
    if |w| > 0 {
      WordAll(w[1..]);
      assert [w[0]] + w[1..] == w;
    }
  }

  /** One turn of the loop on text that starts with the letter. */
  lemma PairsStep(s: string, u: string)
    requires |s| > 0 && !IsSpace(s[0]) && u == SkipSpace(s[1..]) && |u| > 0
    ensures Extract(s) == Some((Pair(s[0], Word(u)), u[|Word(u)|..]))
  {
  }

  lemma {:induction false} WordOf(w: string, rest: string)
    requires NoSpace(w) && |rest| > 0 && IsSpace(rest[0])
    ensures Word(w + rest) == w
    decreases |w|
  {
    if |w| > 0 {
      assert (w + rest)[1..] == w[1..] + rest;
      WordOf(w[1..], rest);
    } else {
      assert w + rest == rest;
    }
  }
}

=== FILE: completion_c.dfy ===
/** The C generation's executable index and completion cursor
    (completion.c). The index is built once from the `PATH` scan and sorted
    by file name; the cursor latches a hint and steps through the entries
    whose file names start with it. */
module CompletionC {
  import opened Base
  import opened Text
  import opened PathScan

  /** `exec_elem_t`: the `PATH` element, the file name and the full path. */
  datatype Entry = Entry(dir: string, filename: string, fullpath: string)

  /** `struct comp_` without its allocation bookkeeping: the sorted index,
      the latched hint (`last_hint`, `None` for `NULL`) and the current
      position (`curr_elem`, `None` for `NULL`). */
  datatype Comp = Comp(index: seq<Entry>, hint: Option<string>, curr: Option<nat>)

  /** `curr_elem` only ever points into `exec_elem`. */
  predicate Valid(c: Comp)
  {
    c.curr.Some? ==> c.curr.value < |c.index|
  }

  /** An entry as `comp_init` stores it: the full path names the file inside
      its directory and fits the `MAX_CMD_LEN` buffer. */
  predicate WellFormedEntry(e: Entry)
  {
    && e.fullpath == e.dir + "/" + e.filename
    && |e.fullpath| <= MaxCmdLen - 1
  }

  predicate WellFormedIndex(index: seq<Entry>)
  {
    forall i :: 0 <= i < |index| ==> WellFormedEntry(index[i])
  }

  /** Sorted ascending by `strcmp` on the file name, as `qsort` with
      `comp_compare` leaves the index. */
  predicate SortedByName(index: seq<Entry>)
  {
    forall i, j {:trigger StrLe(index[i].filename, index[j].filename)} ::
      0 <= i < j < |index| ==> StrLe(index[i].filename, index[j].filename)
  }

  /** No `PATH` directory is so long that the file name would start past the
      `MAX_CMD_LEN - 1` characters `snprintf` keeps of the full path. */
  predicate DirsFit(fs: FileSystem)
  {
    forall d | d in fs :: |d| + 2 <= MaxCmdLen
  }

  /** How `comp_init` turns a scanned entry into an index element: the full
      path is `dir + "/" + name` cut to the buffer, and the file name is what
      follows the directory and its slash. */
  function MakeEntry(f: Found): (e: Entry)
    requires |f.dir| + 2 <= MaxCmdLen
    ensures e.dir == f.dir && WellFormedEntry(e)
    ensures e.filename <= f.entry.name
    ensures |f.dir| + 1 + |f.entry.name| <= MaxCmdLen - 1 ==> e.filename == f.entry.name
  {
    var joined := f.dir + "/" + f.entry.name;
    var full := Truncate(joined, MaxCmdLen - 1);
    assert full[..|f.dir| + 1] == joined[..|f.dir| + 1] == f.dir + "/";
    assert full == full[..|f.dir| + 1] + full[|f.dir| + 1..];
    Entry(f.dir, full[|f.dir| + 1..], full)
  }

  /** `MakeEntry` over every scanned entry, in scan order. */
  function MakeEntries(xs: seq<Found>): (r: seq<Entry>)
    requires forall i :: 0 <= i < |xs| ==> |xs[i].dir| + 2 <= MaxCmdLen
    ensures |r| == |xs| && forall i :: 0 <= i < |r| ==> r[i] == MakeEntry(xs[i])
  {
    seq(|xs|, i requires 0 <= i < |xs| => MakeEntry(xs[i]))
  }

  /** One insertion step of the sort. */
  function Insert(e: Entry, s: seq<Entry>): seq<Entry>
    decreases |s|
  {
    if |s| == 0 then [e]
    else if StrLe(e.filename, s[0].filename) then [e] + s
    else [s[0]] + Insert(e, s[1..])
  }

  lemma {:induction false} InsertPermutes(e: Entry, s: seq<Entry>)
    ensures multiset(Insert(e, s)) == multiset(s) + multiset{e}
    decreases |s|
  {
    if |s| > 0 && !StrLe(e.filename, s[0].filename) {
      InsertPermutes(e, s[1..]);
      assert s == [s[0]] + s[1..];
    }
  }

  /** An entry no greater than every element of a sorted sequence can go in
      front of it. */
  lemma SortedCons(e: Entry, t: seq<Entry>)
    requires SortedByName(t)
    requires forall k :: 0 <= k < |t| ==> StrLe(e.filename, t[k].filename)
    ensures SortedByName([e] + t)
  {
    var r := [e] + t;
    forall i, j | 0 <= i < j < |r|
      ensures StrLe(r[i].filename, r[j].filename)
    {
      assert r[j] == t[j - 1];
      if i > 0 {
        assert r[i] == t[i - 1];
      }
    }
  }

  /** A lower bound of `e` and of every element of `s` bounds every element
      of `Insert(e, s)`. */
  lemma InsertBound(x: string, e: Entry, s: seq<Entry>)
    requires StrLe(x, e.filename)
    requires forall k :: 0 <= k < |s| ==> StrLe(x, s[k].filename)
    ensures forall k :: 0 <= k < |Insert(e, s)| ==> StrLe(x, Insert(e, s)[k].filename)
  {
    var t := Insert(e, s);
    InsertPermutes(e, s);
    forall k | 0 <= k < |t|
      ensures StrLe(x, t[k].filename)
    {
      assert t[k] in multiset(s) + multiset{e};
      if t[k] != e {
        assert t[k] in s;
      }
    }
  }

  lemma {:induction false} InsertSorted(e: Entry, s: seq<Entry>)
    requires SortedByName(s)
    ensures SortedByName(Insert(e, s))
    decreases |s|
  {
    if |s| == 0 {
    } else if StrLe(e.filename, s[0].filename) {
      forall k | 0 <= k < |s|
        ensures StrLe(e.filename, s[k].filename)
      {
        if k > 0 {
          StrLeTransitive(e.filename, s[0].filename, s[k].filename);
        }
      }
      SortedCons(e, s);
    } else {
      var tail := s[1..];
      assert SortedByName(tail) by {
        forall i, j | 0 <= i < j < |tail|
          ensures StrLe(tail[i].filename, tail[j].filename)
        {
          assert tail[i] == s[i + 1] && tail[j] == s[j + 1];
        }
      }
      InsertSorted(e, tail);
      StrLeTotal(e.filename, s[0].filename);
      forall k | 0 <= k < |tail|
        ensures StrLe(s[0].filename, tail[k].filename)
      {
        assert tail[k] == s[k + 1];
      }
      InsertBound(s[0].filename, e, tail);
      SortedCons(s[0], Insert(e, tail));
    }
  }

  /** The sort `comp_init` applies. `qsort` is not stable, so entries with
      equal file names may come out in any order; this sort keeps scan
      order among them, which is one of the orders `qsort` may produce. */
  function SortByName(s: seq<Entry>): seq<Entry>
    decreases |s|
  {
    if |s| == 0 then [] else Insert(s[0], SortByName(s[1..]))
  }

  lemma {:induction false} SortByNameSorted(s: seq<Entry>)
    ensures SortedByName(SortByName(s))
    decreases |s|
  {
    if |s| > 0 {
      SortByNameSorted(s[1..]);
      InsertSorted(s[0], SortByName(s[1..]));
    }
  }

  lemma {:induction false} SortByNamePermutes(s: seq<Entry>)
    ensures multiset(SortByName(s)) == multiset(s)
    decreases |s|
  {
    if |s| > 0 {
      SortByNamePermutes(s[1..]);
      InsertPermutes(s[0], SortByName(s[1..]));
      assert s == [s[0]] + s[1..];
    }
  }

  /** The index `comp_init` builds from the scanned entries. */
  function BuildIndex(found: seq<Found>): (index: seq<Entry>)
    requires forall i :: 0 <= i < |found| ==> |found[i].dir| + 2 <= MaxCmdLen
    ensures SortedByName(index) && WellFormedIndex(index)
    ensures multiset(index) == multiset(MakeEntries(found))
  {
    var entries := MakeEntries(found);
    SortByNameSorted(entries);
    SortByNamePermutes(entries);
    var index := SortByName(entries);
    assert WellFormedIndex(index) by {
      forall i | 0 <= i < |index|
        ensures WellFormedEntry(index[i])
      {
        assert index[i] in multiset(entries);
      }
    }
    index
  }

  /** The completion state before the first `comp_next`. */
  function Fresh(index: seq<Entry>): Comp
  {
    Comp(index, None, None)
  }

  /** What `comp_init` gives back. */
  datatype InitOutcome =
    | Ready(comp: Comp)
    | Fault   // undefined behaviour

  /** `comp_init`: scan `PATH`, keep the accepted entries, sort them by file
      name. An unset `PATH` hands NULL to `strdup`, which is undefined. */
  function Init(pathVar: Option<string>, fs: FileSystem, uid: nat, gid: nat): (r: InitOutcome)
    requires DirsFit(fs)
    ensures r.Fault? <==> pathVar.None?
    ensures r.Ready? ==> r.comp == Fresh(r.comp.index)
    ensures r.Ready? ==> SortedByName(r.comp.index) && WellFormedIndex(r.comp.index)
    ensures r.Ready? ==> forall i :: 0 <= i < |Candidates(pathVar.value, fs, uid, gid)| ==>
                           Candidates(pathVar.value, fs, uid, gid)[i].dir in fs
    ensures r.Ready? ==> multiset(r.comp.index) == multiset(MakeEntries(Candidates(pathVar.value, fs, uid, gid)))
  {
    if pathVar.None? then Fault
    else
      var found := Candidates(pathVar.value, fs, uid, gid);
      assert forall i :: 0 <= i < |found| ==> found[i].dir in fs by {
        forall i | 0 <= i < |found|
          ensures found[i].dir in fs
        {
          CandidateIff(pathVar.value, fs, uid, gid, found[i]);
        }
      }
      Ready(Fresh(BuildIndex(found)))
  }

  /** The index keeps a prefix of each scanned name, so scanned names free
      of slashes give file names free of slashes. */
  lemma IndexNamesFromScan(found: seq<Found>)
    requires forall i :: 0 <= i < |found| ==> |found[i].dir| + 2 <= MaxCmdLen
    requires forall k :: 0 <= k < |found| ==> '/' !in found[k].entry.name
    ensures forall i :: 0 <= i < |BuildIndex(found)| ==> '/' !in BuildIndex(found)[i].filename
  {
    var entries := MakeEntries(found);
    var index := BuildIndex(found);
    forall k | 0 <= k < |entries|
      ensures '/' !in entries[k].filename
    {
      assert entries[k].filename <= found[k].entry.name;
    }
    forall i | 0 <= i < |index|
      ensures '/' !in index[i].filename
    {
      assert index[i] in multiset(entries);
      assert index[i] in entries;
    }
  }

  /** A file name from a `PATH` directory never holds a slash, and the index
      keeps a prefix of it. */
  lemma FileNamesSlashFree(pathVar: string, fs: FileSystem, uid: nat, gid: nat)
    requires DirsFit(fs)
    requires forall d, e | d in fs && e in fs[d] :: '/' !in e.name
    ensures forall i :: 0 <= i < |Init(Some(pathVar), fs, uid, gid).comp.index| ==>
              '/' !in Init(Some(pathVar), fs, uid, gid).comp.index[i].filename
  {
    var found := Candidates(pathVar, fs, uid, gid);
    forall k | 0 <= k < |found|
      ensures found[k].dir in fs && '/' !in found[k].entry.name
    {
      CandidateIff(pathVar, fs, uid, gid, found[k]);
    }
    IndexNamesFromScan(found);
    assert Init(Some(pathVar), fs, uid, gid).comp.index == BuildIndex(found);
  }

  /** `strncmp(filename, hint, strlen(hint)) == 0`. */
  predicate Matches(e: Entry, hint: string)
  {
    hint <= e.filename
  }

  /** The first position at or after `from` whose entry matches `hint`, or
      `|index|` when there is none: the "start over" loop. */
  function FirstMatch(index: seq<Entry>, hint: string, from: nat): (k: nat)
    requires from <= |index|
    ensures from <= k <= |index|
    ensures k < |index| ==> Matches(index[k], hint)
    ensures forall i :: from <= i < k ==> !Matches(index[i], hint)
    decreases |index| - from
  {
    if from == |index| then from
    else if Matches(index[from], hint) then from
    else FirstMatch(index, hint, from + 1)
  }

  /** Where `comp_next` moves the current position for the hint `h`: to the
      next entry when there is a current one that is not the last and the
      next entry matches, otherwise to the first match, or nowhere. */
  function Advance(index: seq<Entry>, h: string, curr: Option<nat>): (r: Option<nat>)
    requires curr.Some? ==> curr.value < |index|
    ensures r.Some? ==> r.value < |index|
  {
    if curr.Some? && curr.value + 1 < |index| && Matches(index[curr.value + 1], h) then Some(curr.value + 1)
    else
      var k := FirstMatch(index, h, 0);
      if k < |index| then Some(k) else None
  }

  /** `comp_next`: latch the hint if none is latched; if the entry after the
      current one matches the latched hint return it, otherwise start over
      at the first match. `None` is the `NULL` return. */
  function Next(c: Comp, hint: string): (r: (Comp, Option<string>))
    requires Valid(c)
    ensures Valid(r.0) && r.0.index == c.index
  {
    var pos := Advance(c.index, Latch(c, hint), c.curr);
    (Comp(c.index, Some(Latch(c, hint)), pos), if pos.Some? then Some(c.index[pos.value].fullpath) else None)
  }

  /** The hint a `comp_next` call works with: the latched one, or the given
      one when none is latched. */
  function Latch(c: Comp, hint: string): string
  {
    if c.hint.None? then hint else c.hint.value
  }

  /** What one `comp_next` call promises: the hint is latched; an entry is
      returned exactly when some entry matches the latched hint, and then it
      is a matching entry and the current position points at it; `NULL`
      leaves no current position. */
  lemma NextSpec(c: Comp, hint: string)
    requires Valid(c)
    ensures Next(c, hint).0.hint == Some(Latch(c, hint))
    ensures Next(c, hint).1.Some? <==> exists i :: 0 <= i < |c.index| && Matches(c.index[i], Latch(c, hint))
    ensures Next(c, hint).1.Some? ==>
              && Next(c, hint).0.curr.Some?
              && Next(c, hint).1.value == c.index[Next(c, hint).0.curr.value].fullpath
              && Matches(c.index[Next(c, hint).0.curr.value], Latch(c, hint))
    ensures Next(c, hint).1.None? ==> Next(c, hint).0.curr.None?
  {
  }

  /** Once a hint is latched, the hint passed to `comp_next` makes no
      difference until `comp_reset`. */
  lemma LatchedHintIgnored(c: Comp, hint1: string, hint2: string)
    requires Valid(c) && c.hint.Some?
    ensures Next(c, hint1) == Next(c, hint2)
  {
  }

  /** `comp_reset`: forget the latched hint. The current position is kept. */
  function Reset(c: Comp): (r: Comp)
    requires Valid(c)
    ensures Valid(r) && r.hint.None?
    ensures r.index == c.index && r.curr == c.curr
  {
    c.(hint := None)
  }

  /** The state after `t` successive `comp_next` calls with the same hint,
      starting from a fresh index. */
  function After(index: seq<Entry>, hint: string, t: nat): (r: Comp)
    ensures Valid(r) && r.index == index
    decreases t
  {
    if t == 0 then Fresh(index) else Next(After(index, hint, t - 1), hint).0
  }

  /** What call `t` (from 0) of such a sequence returns. */
  function Result(index: seq<Entry>, hint: string, t: nat): Option<string>
  {
    Next(After(index, hint, t), hint).1
  }

  /** The matches of `hint` are exactly the positions `lo .. hi - 1`. */
  predicate Block(index: seq<Entry>, hint: string, lo: nat, hi: nat)
  {
    && lo < hi <= |index|
    && forall i {:trigger Matches(index[i], hint)} :: 0 <= i < |index| ==> (Matches(index[i], hint) <==> lo <= i < hi)
  }

  /** From a fresh state the first call lands on the first match. */
  lemma FirstStepInBlock(index: seq<Entry>, hint: string, lo: nat, hi: nat)
    requires Block(index, hint, lo, hi)
    ensures Advance(index, hint, None) == Some(lo)
  {
    var k := FirstMatch(index, hint, 0);
    assert Matches(index[lo], hint);
    assert k <= lo;
    assert Matches(index[k], hint);
  }

  /** Inside the block a call moves one entry on, and from the block's last
      entry it starts over at the first: from where call `t` left it, the
      position moves to where call `t + 1` should leave it. */
  lemma StepInBlock(index: seq<Entry>, hint: string, lo: nat, hi: nat, t: nat)
    requires Block(index, hint, lo, hi)
    ensures Advance(index, hint, Some(lo + Lap(t, hi - lo))) == Some(lo + Lap(t + 1, hi - lo))
  {
    var m := Lap(t, hi - lo);
    if m + 1 < hi - lo {
      assert Matches(index[lo + m + 1], hint);
    } else {
      assert hi < |index| ==> !Matches(index[hi], hint);
      FirstStepInBlock(index, hint, lo, hi);
    }
  }

  /** The position after `t` calls with one hint from a fresh state,
      followed through `Advance` alone. */
  function Position(index: seq<Entry>, hint: string, t: nat): (r: Option<nat>)
    ensures r.Some? ==> r.value < |index|
    decreases t
  {
    if t == 0 then None else Advance(index, hint, Position(index, hint, t - 1))
  }

  /** After at least one call the hint is latched and the position is the
      one `Position` follows; call `t` returns the entry at position
      `t + 1`. */
  lemma {:induction false} AfterIsPosition(index: seq<Entry>, hint: string, t: nat)
    ensures After(index, hint, t + 1) == Comp(index, Some(hint), Position(index, hint, t + 1))
    ensures var p := Position(index, hint, t + 1);
            Result(index, hint, t) == if p.Some? then Some(index[p.value].fullpath) else None
    decreases t
  {
    if t > 0 {
      AfterIsPosition(index, hint, t - 1);
    }
  }

  /** The position after call `t` (from 0) of a fixed-hint sequence over a
      block is `Lap(t, hi - lo)` into the block. */
  lemma {:induction false} CycleState(index: seq<Entry>, hint: string, lo: nat, hi: nat, t: nat)
    requires Block(index, hint, lo, hi)
    ensures Position(index, hint, t + 1) == Some(lo + Lap(t, hi - lo))
    decreases t
  {
    if t == 0 {
      FirstStepInBlock(index, hint, lo, hi);
    } else {
      CycleState(index, hint, lo, hi, t - 1);
      StepInBlock(index, hint, lo, hi, t - 1);
    }
  }

  /** What call `t` (from 0) of a fixed-hint sequence over a block returns. */
  lemma CycleLast(index: seq<Entry>, hint: string, lo: nat, hi: nat, t: nat)
    requires Block(index, hint, lo, hi)
    ensures Result(index, hint, t) == Some(index[lo + Lap(t, hi - lo)].fullpath)
  {
    CycleState(index, hint, lo, hi, t);
    AfterIsPosition(index, hint, t);
  }

  /** When the matches form one contiguous run, repeated `comp_next` calls
      from a fresh state cycle through it in index order: call `t` (from 0)
      returns entry `lo + t mod (hi - lo)`. */
  lemma CycleOverBlock(index: seq<Entry>, hint: string, lo: nat, hi: nat, t: nat)
    requires Block(index, hint, lo, hi)
    ensures Result(index, hint, t) == Some(index[lo + t % (hi - lo)].fullpath)
  {
    CycleLast(index, hint, lo, hi, t);
    LapIsMod(t, hi - lo);
  }

  /** On a name-sorted index the matches of any hint are contiguous. */
  lemma SortedMatchesContiguous(index: seq<Entry>, hint: string, i: nat, j: nat, k: nat)
    requires SortedByName(index) && i < j < k < |index|
    requires Matches(index[i], hint) && Matches(index[k], hint)
    ensures Matches(index[j], hint)
  {
    PrefixBetween(hint, index[i].filename, index[j].filename, index[k].filename);
  }

  /** The end of the run of matches that starts at `from`. */
  function RunEnd(index: seq<Entry>, hint: string, from: nat): (k: nat)
    requires from <= |index|
    ensures from <= k <= |index|
    ensures forall i :: from <= i < k ==> Matches(index[i], hint)
    ensures k < |index| ==> !Matches(index[k], hint)
    decreases |index| - from
  {
    if from == |index| || !Matches(index[from], hint) then from
    else RunEnd(index, hint, from + 1)
  }

  /** On a name-sorted index with at least one match, the matches are the
      block from the first match to the end of its run. */
  lemma SortedBlock(index: seq<Entry>, hint: string)
    requires SortedByName(index)
    requires exists i :: 0 <= i < |index| && Matches(index[i], hint)
    ensures Block(index, hint, FirstMatch(index, hint, 0), RunEnd(index, hint, FirstMatch(index, hint, 0)))
  {
    var lo := FirstMatch(index, hint, 0);
    var hi := RunEnd(index, hint, lo);
    forall i | 0 <= i < |index| && Matches(index[i], hint)
      ensures lo <= i < hi
    {
      if i >= hi {
        SortedMatchesContiguous(index, hint, lo, hi, i);
      }
    }
  }

  /** On a name-sorted index, repeated Tab presses with one hint cycle
      through exactly the block of matches, in index order. */
  lemma CycleSorted(index: seq<Entry>, hint: string, lo: nat, hi: nat, t: nat)
    requires SortedByName(index)
    requires lo == FirstMatch(index, hint, 0) < |index|
    requires hi == RunEnd(index, hint, lo)
    ensures lo < hi
    ensures Result(index, hint, t) == Some(index[lo + t % (hi - lo)].fullpath)
  {
    SortedBlock(index, hint);
    CycleOverBlock(index, hint, lo, hi, t);
  }

  /** An empty hint has length 0 and matches every entry, so Tab on an empty
      buffer cycles the whole index. */
  lemma EmptyHintCyclesAll(index: seq<Entry>, t: nat)
    requires |index| > 0
    ensures Result(index, "", t) == Some(index[t % |index|].fullpath)
  {
    assert Block(index, "", 0, |index|);
    CycleOverBlock(index, "", 0, |index|, t);
  }

  /** `comp_reset` keeps `curr_elem`: when the entry after the old position
      matches the new hint, the first call after a reset returns that entry,
      not the first match a fresh state returns. */
  lemma ResetResumesAfterOldPosition(c: Comp, hint: string)
    requires Valid(c) && c.curr.Some? && c.curr.value + 1 < |c.index|
    requires Matches(c.index[c.curr.value + 1], hint)
    ensures Next(Reset(c), hint).1 == Some(c.index[c.curr.value + 1].fullpath)
    ensures Next(Reset(c), hint).0.curr == Some(c.curr.value + 1)
  {
  }

  /** With the index `[ab, ac]`: Tab on "a" returns `ab`; after a reset, Tab on
      "a" returns `ac` where a fresh cursor would return `ab` again. */
  lemma ResetStaleExample()
    ensures var index := [Entry("/bin", "ab", "/bin/ab"), Entry("/bin", "ac", "/bin/ac")];
            var first := Next(Fresh(index), "a");
            && first.1 == Some("/bin/ab")
            && Next(Reset(first.0), "a").1 == Some("/bin/ac")
  {
    var index := [Entry("/bin", "ab", "/bin/ab"), Entry("/bin", "ac", "/bin/ac")];
    assert Matches(index[0], "a");
    assert Matches(index[1], "a");
  }

  /** A reset from a state with no current position is a fresh start. */
  lemma ResetWithoutPositionIsFresh(c: Comp, hint: string)
    requires Valid(c) && c.curr.None?
    ensures Next(Reset(c), hint) == Next(Fresh(c.index), hint)
  {
  }
}

=== FILE: completion_cpp.dfy ===
/** The C++ generation's completion list and cursor (completion.cpp). The
    list holds bare file names in scan order; `next` latches a prefix when
    none is latched and returns the first match at or after the iterator,
    starting over from the beginning when there is none. */
module CompletionCpp {
  import opened Base
  import opened Text
  import opened PathScan

  /** `Completion` without its allocation details: the names, the latched
      prefix (`m_prefix`, empty when none is latched) and the iterator
      (`m_iter`) as a position, `|elements|` being `end()`. */
  datatype Comp = Comp(elements: seq<string>, prefix: string, iter: nat)

  /** `m_iter` always points into the list or at its end. */
  predicate Valid(c: Comp)
  {
    c.iter <= |c.elements|
  }

  /** The state the constructor leaves and `reset` restores. */
  function Fresh(elements: seq<string>): (c: Comp)
    ensures Valid(c)
  {
    Comp(elements, "", 0)
  }

  /** The names of the scanned entries, in scan order. */
  function Names(found: seq<Found>): (r: seq<string>)
    ensures |r| == |found| && forall i :: 0 <= i < |r| ==> r[i] == found[i].entry.name
  {
    seq(|found|, i requires 0 <= i < |found| => found[i].entry.name)
  }

  /** The constructor: an unset `PATH` throws (`None`); otherwise every
      accepted entry's name, in `PATH` order and then `readdir` order, with
      no sorting. */
  function Init(pathVar: Option<string>, fs: FileSystem, uid: nat, gid: nat): (r: Option<Comp>)
    ensures r.None? <==> pathVar.None?
    ensures r.Some? ==> r.value == Fresh(r.value.elements)
    ensures r.Some? ==>
      var found := Candidates(pathVar.value, fs, uid, gid);
      && |r.value.elements| == |found|
      && forall i :: 0 <= i < |found| ==> r.value.elements[i] == found[i].entry.name
  {
    if pathVar.None? then None
    else Some(Fresh(Names(Candidates(pathVar.value, fs, uid, gid))))
  }

  /** A name is in the list exactly when some `PATH` directory that opens
      lists an accepted entry of that name. */
  lemma InitIff(pathVar: string, fs: FileSystem, uid: nat, gid: nat, name: string)
    ensures name in Init(Some(pathVar), fs, uid, gid).value.elements <==>
              exists d, e :: d in Split(pathVar, ':') && d in fs && e in fs[d] && e.name == name && Accepted(e, uid, gid)
  {
    if name in Init(Some(pathVar), fs, uid, gid).value.elements {
      InitSound(pathVar, fs, uid, gid, name);
    }
    if exists d, e :: d in Split(pathVar, ':') && d in fs && e in fs[d] && e.name == name && Accepted(e, uid, gid) {
      var d, e :| d in Split(pathVar, ':') && d in fs && e in fs[d] && e.name == name && Accepted(e, uid, gid);
      InitComplete(pathVar, fs, uid, gid, d, e);
    }
  }

  lemma InitSound(pathVar: string, fs: FileSystem, uid: nat, gid: nat, name: string)
    requires name in Init(Some(pathVar), fs, uid, gid).value.elements
    ensures exists d, e :: d in Split(pathVar, ':') && d in fs && e in fs[d] && e.name == name && Accepted(e, uid, gid)
  {
    var found := Candidates(pathVar, fs, uid, gid);
    var elements := Init(Some(pathVar), fs, uid, gid).value.elements;
    var i :| 0 <= i < |elements| && elements[i] == name;
    CandidateIff(pathVar, fs, uid, gid, found[i]);
    var x := found[i];
    assert x.dir in Split(pathVar, ':') && x.dir in fs && x.entry in fs[x.dir] && x.entry.name == name && Accepted(x.entry, uid, gid);
  }

  lemma InitComplete(pathVar: string, fs: FileSystem, uid: nat, gid: nat, d: string, e: DirEntry)
    requires d in Split(pathVar, ':') && d in fs && e in fs[d] && Accepted(e, uid, gid)
    ensures e.name in Init(Some(pathVar), fs, uid, gid).value.elements
  {
    var found := Candidates(pathVar, fs, uid, gid);
    CandidateIff(pathVar, fs, uid, gid, Found(d, e));
    var i :| 0 <= i < |found| && found[i] == Found(d, e);
    assert Init(Some(pathVar), fs, uid, gid).value.elements[i] == e.name;
  }

  /** `e.compare(0, m_prefix.size(), m_prefix) == 0`: the name starts with
      the prefix. */
  predicate Matches(name: string, prefix: string)
  {
    prefix <= name
  }

  /** `std::find_if(from, end(), matchPrefix)` as a position. */
  function FindFrom(elements: seq<string>, prefix: string, from: nat): (k: nat)
    requires from <= |elements|
    ensures from <= k <= |elements|
    ensures k < |elements| ==> Matches(elements[k], prefix)
    ensures forall i :: from <= i < k ==> !Matches(elements[i], prefix)
    decreases |elements| - from
  {
    if from == |elements| then from
    else if Matches(elements[from], prefix) then from
    else FindFrom(elements, prefix, from + 1)
  }

  /** The prefix a `next` call works with: the latched one, or the command
      when none is latched. */
  function Latch(c: Comp, command: string): string
  {
    if c.prefix == "" then command else c.prefix
  }

  /** Where `next` leaves the iterator for prefix `p`: just past the first
      match at or after `iter`, else just past the first match overall, else
      at the beginning (no name matches). */
  function Seek(elements: seq<string>, p: string, iter: nat): (r: nat)
    requires iter <= |elements|
    ensures r <= |elements|
  {
    var k1 := FindFrom(elements, p, iter);
    if k1 < |elements| then k1 + 1
    else
      var k2 := FindFrom(elements, p, 0);
      if k2 < |elements| then k2 + 1 else 0
  }

  /** `Completion::next`: latch `command` as the prefix if none is latched,
      then return the first match at or after the iterator, else the first
      match overall, else `command` itself. The iterator ends up just past
      the returned match, or at the beginning. */
  function Next(c: Comp, command: string): (r: (Comp, string))
    requires Valid(c)
    ensures Valid(r.0) && r.0.elements == c.elements
  {
    var p := Latch(c, command);
    var i := Seek(c.elements, p, c.iter);
    (Comp(c.elements, p, i), if i > 0 then c.elements[i - 1] else command)
  }

  /** What one `next` call promises: the prefix is latched; a match is
      returned with the iterator just past it exactly when some name
      matches; otherwise the command comes back and the iterator rewinds. */
  lemma NextSpec(c: Comp, command: string)
    requires Valid(c)
    ensures Next(c, command).0.prefix == Latch(c, command)
    ensures Next(c, command).0.iter > 0 ==>
              && Next(c, command).1 == c.elements[Next(c, command).0.iter - 1]
              && Matches(Next(c, command).1, Latch(c, command))
    ensures Next(c, command).0.iter == 0 <==> forall i :: 0 <= i < |c.elements| ==> !Matches(c.elements[i], Latch(c, command))
    ensures Next(c, command).0.iter == 0 ==> Next(c, command).1 == command
  {
  }

  /** `Completion::reset`: clear the prefix and rewind the iterator, which is
      exactly the freshly built state. */
  function Reset(c: Comp): (r: Comp)
    ensures r == Fresh(c.elements)
  {
    c.(prefix := "", iter := 0)
  }

  /** The positions from `from` on whose names match `prefix`, ascending. */
  function MatchesFrom(elements: seq<string>, prefix: string, from: nat): (ms: seq<nat>)
    requires from <= |elements|
    ensures forall a :: 0 <= a < |ms| ==> from <= ms[a] < |elements|
    decreases |elements| - from
  {
    if from == |elements| then []
    else
      var rest := MatchesFrom(elements, prefix, from + 1);
      if Matches(elements[from], prefix) then [from] + rest else rest
  }

  /** Every matching position, ascending. */
  function AllMatches(elements: seq<string>, prefix: string): seq<nat>
  {
    MatchesFrom(elements, prefix, 0)
  }

  /** Every position `MatchesFrom` lists matches. */
  lemma {:induction false} MatchesFromSound(elements: seq<string>, prefix: string, from: nat)
    requires from <= |elements|
    ensures forall a :: 0 <= a < |MatchesFrom(elements, prefix, from)| ==>
              Matches(elements[MatchesFrom(elements, prefix, from)[a]], prefix)
    decreases |elements| - from
  {
    if from < |elements| {
      MatchesFromSound(elements, prefix, from + 1);
      var rest := MatchesFrom(elements, prefix, from + 1);
      if Matches(elements[from], prefix) {
        var ms := [from] + rest;
        forall a | 0 <= a < |ms|
          ensures Matches(elements[ms[a]], prefix)
        {
          if a > 0 {
            assert ms[a] == rest[a - 1];
          }
        }
      }
    }
  }

  /** `MatchesFrom` lists positions in strictly ascending order. */
  lemma {:induction false} MatchesFromAscending(elements: seq<string>, prefix: string, from: nat)
    requires from <= |elements|
    ensures forall a, b :: 0 <= a < b < |MatchesFrom(elements, prefix, from)| ==>
              MatchesFrom(elements, prefix, from)[a] < MatchesFrom(elements, prefix, from)[b]
    decreases |elements| - from
  {
    if from < |elements| {
      MatchesFromAscending(elements, prefix, from + 1);
      var rest := MatchesFrom(elements, prefix, from + 1);
      if Matches(elements[from], prefix) {
        var ms := [from] + rest;
        forall a, b | 0 <= a < b < |ms|
          ensures ms[a] < ms[b]
        {
          assert ms[b] == rest[b - 1];
          if a > 0 {
            assert ms[a] == rest[a - 1];
          }
        }
      }
    }
  }

  /** `MatchesFrom` misses no matching position from `from` on. */
  lemma {:induction false} MatchesFromComplete(elements: seq<string>, prefix: string, from: nat)
    requires from <= |elements|
    ensures forall i :: from <= i < |elements| && Matches(elements[i], prefix) ==> i in MatchesFrom(elements, prefix, from)
    decreases |elements| - from
  {
    if from < |elements| {
      MatchesFromComplete(elements, prefix, from + 1);
    }
  }

  /** `AllMatches` lists, in strictly ascending order, exactly the matching
      positions. */
  lemma AllMatchesSpec(elements: seq<string>, prefix: string)
    ensures forall a :: 0 <= a < |AllMatches(elements, prefix)| ==>
              Matches(elements[AllMatches(elements, prefix)[a]], prefix)
    ensures forall a, b :: 0 <= a < b < |AllMatches(elements, prefix)| ==>
              AllMatches(elements, prefix)[a] < AllMatches(elements, prefix)[b]
    ensures forall i :: 0 <= i < |elements| && Matches(elements[i], prefix) ==> i in AllMatches(elements, prefix)
  {
    MatchesFromSound(elements, prefix, 0);
    MatchesFromAscending(elements, prefix, 0);
    MatchesFromComplete(elements, prefix, 0);
  }

  /** Just past one match, the search finds the next one, or nothing after
      the last. */
  lemma FindAfterMatch(elements: seq<string>, prefix: string, m: nat)
    requires m < |AllMatches(elements, prefix)|
    ensures var ms := AllMatches(elements, prefix);
            FindFrom(elements, prefix, ms[m] + 1) == if m + 1 < |ms| then ms[m + 1] else |elements|
  {
    var ms := AllMatches(elements, prefix);
    AllMatchesSpec(elements, prefix);
    var k := FindFrom(elements, prefix, ms[m] + 1);
    assert k < |elements| ==> k in ms;
    if m + 1 < |ms| {
      forall q | 0 <= q < |ms|
        ensures ms[q] <= ms[m] || ms[m + 1] <= ms[q]
      {
        if q < m {
          assert ms[q] < ms[m];
        } else if q > m + 1 {
          assert ms[m + 1] < ms[q];
        }
      }
      assert Matches(elements[ms[m + 1]], prefix);
    } else {
      forall q | 0 <= q < |ms|
        ensures ms[q] <= ms[m]
      {
        if q < m {
          assert ms[q] < ms[m];
        }
      }
    }
  }

  /** The state after `t` `next` calls passing the same command, from the
      freshly built state. */
  function After(elements: seq<string>, command: string, t: nat): (r: Comp)
    ensures Valid(r) && r.elements == elements
    decreases t
  {
    if t == 0 then Fresh(elements) else Next(After(elements, command, t - 1), command).0
  }

  /** What call `t` (from 0) of such a sequence returns. */
  function Result(elements: seq<string>, command: string, t: nat): string
  {
    Next(After(elements, command, t), command).1
  }

  /** The iterator after `t` calls with a latched prefix `p`, followed
      through `Seek` alone. */
  function Iter(elements: seq<string>, p: string, t: nat): (r: nat)
    ensures r <= |elements|
    decreases t
  {
    if t == 0 then 0 else Seek(elements, p, Iter(elements, p, t - 1))
  }

  /** With a non-empty command the prefix is latched by the first call and
      the iterator is the one `Iter` follows; call `t` returns the name just
      before iterator `t + 1`, or the command when nothing matches. */
  lemma {:induction false} AfterIsIter(elements: seq<string>, command: string, t: nat)
    requires command != ""
    ensures After(elements, command, t + 1) == Comp(elements, command, Iter(elements, command, t + 1))
    ensures Result(elements, command, t) ==
              if Iter(elements, command, t + 1) > 0 then elements[Iter(elements, command, t + 1) - 1] else command
    decreases t
  {
    if t > 0 {
      AfterIsIter(elements, command, t - 1);
    }
  }

  /** The search from the beginning finds the first match. */
  lemma FirstMatchIsHead(elements: seq<string>, prefix: string)
    requires |AllMatches(elements, prefix)| > 0
    ensures FindFrom(elements, prefix, 0) == AllMatches(elements, prefix)[0]
  {
    var ms := AllMatches(elements, prefix);
    AllMatchesSpec(elements, prefix);
    var k := FindFrom(elements, prefix, 0);
    assert Matches(elements[ms[0]], prefix);
    assert k in ms;
    forall q | 0 <= q < |ms|
      ensures ms[0] <= ms[q]
    {
      if q > 0 {
        assert ms[0] < ms[q];
      }
    }
  }

  /** From just past match `m` the iterator moves just past match `m + 1`,
      or just past the first match again after the last. */
  lemma StepMatch(elements: seq<string>, p: string, m: nat)
    requires m < |AllMatches(elements, p)|
    ensures Seek(elements, p, AllMatches(elements, p)[m] + 1)
              == AllMatches(elements, p)[if m + 1 < |AllMatches(elements, p)| then m + 1 else 0] + 1
  {
    FindAfterMatch(elements, p, m);
    FirstMatchIsHead(elements, p);
  }

  /** After call `t` (from 0) the iterator stands just past match number
      `Lap(t, ...)`. */
  lemma {:induction false} CycleState(elements: seq<string>, p: string, t: nat)
    requires |AllMatches(elements, p)| > 0
    ensures Iter(elements, p, t + 1) == AllMatches(elements, p)[Lap(t, |AllMatches(elements, p)|)] + 1
    decreases t
  {
    if t == 0 {
      FirstMatchIsHead(elements, p);
    } else {
      CycleState(elements, p, t - 1);
      StepMatch(elements, p, Lap(t - 1, |AllMatches(elements, p)|));
    }
  }

  /** Repeated Tab presses with a non-empty command visit the matches in
      list order and then start over: call `t` (from 0) returns match
      number `t mod` the number of matches. */
  lemma CycleMatches(elements: seq<string>, command: string, t: nat)
    requires command != "" && |AllMatches(elements, command)| > 0
    ensures Result(elements, command, t)
              == elements[AllMatches(elements, command)[t % |AllMatches(elements, command)|]]
  {
    CycleState(elements, command, t);
    AfterIsIter(elements, command, t);
    LapIsMod(t, |AllMatches(elements, command)|);
  }

  /** With a non-empty command that no name starts with, every call returns
      the command unchanged. */
  lemma NoMatchEchoes(elements: seq<string>, command: string, t: nat)
    requires command != "" && |AllMatches(elements, command)| == 0
    ensures Result(elements, command, t) == command
  {
    AfterIsIter(elements, command, t);
    AllMatchesSpec(elements, command);
  }

  /** An empty command latches nothing: Tab on an empty buffer returns the
      first name, and the next Tab latches that name as the prefix. With
      the list `[ls, cat]` the presses give `ls`, then `ls` again, and `cat`
      is never offered. */
  lemma EmptyCommandRelatches()
    ensures var c0 := Fresh(["ls", "cat"]);
            var first := Next(c0, "");
            var second := Next(first.0, first.1);
            var third := Next(second.0, second.1);
            && first.1 == "ls" && first.0.prefix == ""
            && second.1 == "ls" && second.0.prefix == "ls"
            && third.1 == "ls"
  {
    var elements := ["ls", "cat"];
    assert Matches(elements[0], "");
    assert Matches(elements[0], "ls");
    assert !Matches(elements[1], "ls") by {
      assert elements[1][0] != 'l';
    }
  }
}

=== FILE: generations.dfy ===
/** The two generations side by side: the same Control-w press on the same
    command and cursor. */
module Generations {
  import opened Base
  import opened Text
  import opened Keys
  import LauncherC
  import LauncherCpp

  /** Where a blank precedes the character left of the cursor, both
      generations keep the same text exactly when that blank is not the
      first character: the C++ scan then also drops the leading blank,
      which the C loop keeps. Where no blank precedes it, the C loop runs
      off the start of the buffer while the C++ editor erases everything
      before the cursor. */
  lemma ControlWAgreement(ec: LauncherC.Editor, ep: LauncherCpp.Editor, opens: bool)
    requires LauncherC.Valid(ec) && LauncherCpp.Valid(ep)
    requires ec.command == ep.command && ec.cursor == ep.cursor
    requires 0 < ec.cursor && |ec.command| < MaxCmdLen
    ensures var rc := LauncherC.Step(ec, KeyEvent(LetterW, '\U{0017}', true, false), opens);
            var rp := LauncherCpp.Step(ep, KeyEvent(LetterW, '\U{0017}', true, false));
            && rp.Continue?
            && (rc.Fault? <==> LastSpace(ec.command, ec.cursor - 1).None?)
            && (rc.Fault? ==> rp.editor.command == ec.command[ec.cursor..] && rp.editor.cursor == 0)
            && (rc.Continue? ==>
                  (rc.editor.command == rp.editor.command && rc.editor.cursor == rp.editor.cursor
                   <==> LastSpace(ec.command, ec.cursor - 1).value > 0))
  {
    var s := ec.command;
    var c := ec.cursor;
    var w := KeyEvent(LetterW, '\U{0017}', true, false);
    LauncherCpp.ControlWErases(ep);
    LauncherC.StepFaultIff(ec, w, opens);
    SpaceBeforeIff(s, c);
    if LastSpace(s, c - 1).Some? {
      var j := LastSpace(s, c - 1).value;
      LauncherC.ControlWErases(ec, opens);
      if j == 0 {
        assert |s[..j + 1] + s[c..]| != |s[..0] + s[c..]|;
      }
    } else {
      assert s[..0] + s[c..] == s[c..];
    }
  }

  /** A blank occurs before position `c - 1` exactly when the scan finds
      one. */
  lemma SpaceBeforeIff(s: string, c: nat)
    requires 0 < c <= |s|
    ensures ' ' in s[..c - 1] <==> LastSpace(s, c - 1).Some?
  {
    if LastSpace(s, c - 1).Some? {
      var j := LastSpace(s, c - 1).value;
      assert s[..c - 1][j] == ' ';
    } else {
      var p := s[..c - 1];
      assert forall k :: 0 <= k < |p| ==> p[k] == s[k];
    }
  }
}

=== FILE: history_c.dfy ===
/** The C generation's history log (history.c): the lines of the history
    file read with a bounded `fscanf`, a NULL sentinel after them, a `size_t`
    cursor taken modulo the number of entries, and a serialiser that caps
    the file at `MAX_HISTORY_LINES` lines. */
module HistoryC {
  import opened Base
  import opened Text

  /** `struct hist_`: the entries (`None` for the NULL sentinel) and
      `curr_elem`. */
  datatype Hist = Hist(elems: seq<Option<string>>, curr: nat)

  /** `curr_elem` is a `size_t`. */
  predicate Valid(h: Hist)
  {
    h.curr < SizeModulus
  }

  /** The read loop of `hist_init` over the rest of the file: each round
      reads up to `MAX_CMD_LEN` characters short of a newline and then needs
      a newline. An empty line is skipped; a line that is too long or not
      terminated fails the whole read (`None`). The entry is copied with
      `strncpy`, which stops at a NUL, so a line holding one is kept only
      up to it, and a line that starts with one becomes an empty entry. */
  function ReadLines(s: string): (r: Option<seq<string>>)
    ensures r.Some? ==> forall i :: 0 <= i < |r.value| ==>
              '\n' !in r.value[i] && '\0' !in r.value[i] && |r.value[i]| <= MaxCmdLen
    decreases |s|
  {
    if |s| == 0 then Some([])
    else
      var line := LinePrefix(s, MaxCmdLen);
      var rest := s[|line|..];
      if |rest| == 0 || rest[0] != '\n' then None
      else
        var tail := ReadLines(rest[1..]);
        if tail.None? then None
        else if line == "" then tail
        else Some([BeforeNul(line)] + tail.value)
  }

  /** The shape of a history file `hist_init` accepts: empty or ending in a
      newline, and no line longer than `MAX_CMD_LEN`. */
  predicate Readable(s: string)
  {
    && (|s| == 0 || s[|s| - 1] == '\n')
    && forall i :: 0 <= i < |Split(s, '\n')| ==> |Split(s, '\n')[i]| <= MaxCmdLen
  }

  /** A file reads exactly when it has that shape, and what it reads is its
      non-empty lines in order, each up to its first NUL. */
  lemma {:induction false} ReadLinesSpec(s: string)
    ensures ReadLines(s).Some? <==> Readable(s)
    ensures ReadLines(s).Some? ==> ReadLines(s).value == CStrings(NonEmpty(Split(s, '\n')))
    decreases |s|
  {
    if |s| > 0 {
      var line := LinePrefix(s, MaxCmdLen);
      var rest := s[|line|..];
      assert s == line + rest;
      if |rest| > 0 && rest[0] == '\n' {
        var after := rest[1..];
        assert s == line + "\n" + after;
        ReadLinesSpec(after);
        ReadLineStep(s, line, after);
      } else if |rest| == 0 {
        assert '\n' !in s && s[|s| - 1] != '\n';
      } else {
        LineTooLong(s, line, rest);
      }
    }
  }

  /** A line that fits, then a newline: the read goes on with the rest. */
  lemma ReadLineStep(s: string, line: string, after: string)
    requires s == line + "\n" + after && LinePrefix(s, MaxCmdLen) == line
    requires ReadLines(after).Some? <==> Readable(after)
    requires ReadLines(after).Some? ==> ReadLines(after).value == CStrings(NonEmpty(Split(after, '\n')))
    ensures ReadLines(s).Some? <==> Readable(s)
    ensures ReadLines(s).Some? ==> ReadLines(s).value == CStrings(NonEmpty(Split(s, '\n')))
  {
    ReadOneLine(s, line, after);
    SplitLine(line, after);
    ReadableStep(s, line, after);
    CopiesCons(line, Split(after, '\n'));
  }

  /** One round of the loop on a line that fits. */
  lemma ReadOneLine(s: string, line: string, after: string)
    requires s == line + "\n" + after && LinePrefix(s, MaxCmdLen) == line
    ensures ReadLines(s) ==
              if ReadLines(after).None? then None
              else if line == "" then ReadLines(after)
              else Some([BeforeNul(line)] + ReadLines(after).value)
  {
    assert s[|line|..] == "\n" + after;
    assert s[|line|..][1..] == after;
  }

  /** The copies of the non-empty pieces, one piece at a time. */
  lemma CopiesCons(line: string, pieces: seq<string>)
    ensures CStrings(NonEmpty([line] + pieces)) ==
              if line == "" then CStrings(NonEmpty(pieces))
              else [BeforeNul(line)] + CStrings(NonEmpty(pieces))
  {
    assert ([line] + pieces)[1..] == pieces;
    CStringsCons(line, NonEmpty(pieces));
  }

  /** The file after one fitting line has the accepted shape exactly when
      the whole file has. */
  lemma ReadableStep(s: string, line: string, after: string)
    requires s == line + "\n" + after && |line| <= MaxCmdLen
    requires Split(s, '\n') == [line] + Split(after, '\n')
    ensures Readable(s) <==> Readable(after)
  {
    var pieces := Split(s, '\n');
    var tail := Split(after, '\n');
    forall i | 0 <= i < |tail|
      ensures tail[i] == pieces[i + 1]
    {
    }
    if |after| > 0 {
      assert s[|s| - 1] == after[|after| - 1];
    }
  }

  /** A run of `MAX_CMD_LEN` characters with no newline after it: the first
      line is too long. */
  lemma LineTooLong(s: string, line: string, rest: string)
    requires line == LinePrefix(s, MaxCmdLen) && s == line + rest
    requires |rest| > 0 && rest[0] != '\n'
    ensures ReadLines(s).None? && !Readable(s)
  {
    assert |line| == MaxCmdLen;
    var head := line + [rest[0]];
    assert '\n' !in head;
    assert s == head + rest[1..];
    SplitPrefixFree(head, rest[1..], '\n');
    assert |Split(s, '\n')[0]| > MaxCmdLen;
  }

  /** The entries as pointers: every line, then the NULL sentinel. */
  function WithSentinel(lines: seq<string>): (r: seq<Option<string>>)
    ensures |r| == |lines| + 1 && r[|lines|] == None
    ensures forall i :: 0 <= i < |lines| ==> r[i] == Some(lines[i])
  {
    seq(|lines|, i requires 0 <= i < |lines| => Some(lines[i])) + [None]
  }

  /** `hist_init`: a file that does not open gives no entries and no
      sentinel; a file that reads gives its lines, the sentinel, and the
      cursor on the sentinel; a file that does not read is the NULL
      return (`None`). */
  function Load(file: Option<string>): (r: Option<Hist>)
    ensures r.Some? ==> Valid(r.value)
    ensures file.None? ==> r == Some(Hist([], 0))
  {
    if file.None? then Some(Hist([], 0))
    else
      match ReadLines(file.value)
      case None => None
      case Some(lines) => Some(Hist(WithSentinel(lines), SizeT(|lines|)))
  }

  /** What `hist_init` makes of an existing file: the NULL return exactly
      when a line is too long or the file does not end with a newline;
      otherwise the non-empty lines cut at their first NUL, the sentinel,
      and the cursor on it. */
  lemma LoadSpec(file: string)
    requires |Split(file, '\n')| < SizeModulus
    ensures Load(Some(file)).None? <==> !Readable(file)
    ensures Load(Some(file)).Some? ==>
              var h := Load(Some(file)).value;
              && h.elems == WithSentinel(CStrings(NonEmpty(Split(file, '\n'))))
              && h.curr == |h.elems| - 1
  {
    ReadLinesSpec(file);
    NonEmptyShorter(Split(file, '\n'));
    if ReadLines(file).Some? {
      SmallMod(|ReadLines(file).value|);
    }
  }

  lemma {:induction false} NonEmptyShorter(pieces: seq<string>)
    ensures |NonEmpty(pieces)| <= |pieces|
    decreases |pieces|
  {
    if |pieces| > 0 {
      NonEmptyShorter(pieces[1..]);
    }
  }

  /** `hist_next`: NULL with nothing changed when there are no entries;
      otherwise the `size_t` cursor goes one up, wrapping from `SIZE_MAX` to
      0, and
      the entry at the cursor modulo the count is returned. */
  function Next(h: Hist): (r: (Hist, Option<string>))
    requires Valid(h)
    ensures r.0.elems == h.elems && Valid(r.0)
    ensures |h.elems| == 0 ==> r.1 == None && r.0 == h
  {
    if |h.elems| == 0 then (h, None)
    else
      var c := if h.curr + 1 == SizeModulus then 0 else h.curr + 1;
      (Hist(h.elems, c), h.elems[c % |h.elems|])
  }

  /** `hist_prev`: the same with the cursor going one down, wrapping from 0
      to `SIZE_MAX`. */
  function Prev(h: Hist): (r: (Hist, Option<string>))
    requires Valid(h)
    ensures r.0.elems == h.elems && Valid(r.0)
    ensures |h.elems| == 0 ==> r.1 == None && r.0 == h
  {
    if |h.elems| == 0 then (h, None)
    else
      var c := if h.curr == 0 then SizeModulus - 1 else h.curr - 1;
      (Hist(h.elems, c), h.elems[c % |h.elems|])
  }

  /** With entries present, `hist_prev` undoes `hist_next` and the other way
      round. */
  lemma NextPrevInverse(h: Hist)
    requires Valid(h) && |h.elems| > 0
    ensures Prev(Next(h).0).0 == h
    ensures Next(Prev(h).0).0 == h
  {
  }

  /** The state after `t` `hist_next` calls. */
  function AfterNext(h: Hist, t: nat): (r: Hist)
    requires Valid(h)
    ensures r.elems == h.elems && Valid(r)
    decreases t
  {
    if t == 0 then h else Next(AfterNext(h, t - 1)).0
  }

  /** From a loaded history with `n` entries (sentinel included), Down
      press `t` (from 0) returns entry `t mod n`: the oldest line first,
      the sentinel after the newest, then around again, for as long as the
      cursor does not wrap at `SIZE_MAX`. */
  lemma NextCycles(lines: seq<string>, t: nat)
    requires |lines| + 1 + t < SizeModulus
    ensures var h := Hist(WithSentinel(lines), |lines|);
            Next(AfterNext(h, t)).1 == WithSentinel(lines)[t % (|lines| + 1)]
  {
    var h := Hist(WithSentinel(lines), |lines|);
    var n := |lines| + 1;
    NextCounts(h, t);
    ModShift(t, n);
  }

  /** Without wrap-around the cursor just counts `hist_next` calls. */
  lemma {:induction false} NextCounts(h: Hist, t: nat)
    requires Valid(h) && |h.elems| > 0 && h.curr + t < SizeModulus
    ensures AfterNext(h, t).curr == h.curr + t
    decreases t
  {
    if t > 0 {
      NextCounts(h, t - 1);
    }
  }

  /** Up presses from a loaded history walk back from the newest line to
      the oldest: press `t` (from 0), for `t` below the number of lines,
      returns line `m - 1 - t`. */
  lemma PrevWalksBack(lines: seq<string>, t: nat)
    requires t < |lines| < SizeModulus
    ensures Prev(AfterPrev(Hist(WithSentinel(lines), |lines|), t)).1 == Some(lines[|lines| - 1 - t])
  {
    var h := Hist(WithSentinel(lines), |lines|);
    var c := |lines| - 1 - t;
    PrevCounts(h, t);
    DivModUnique(c, |lines| + 1, 0, c);
  }

  /** The state after `t` `hist_prev` calls. */
  function AfterPrev(h: Hist, t: nat): (r: Hist)
    requires Valid(h)
    ensures r.elems == h.elems && Valid(r)
    decreases t
  {
    if t == 0 then h else Prev(AfterPrev(h, t - 1)).0
  }

  /** Without wrap-around the cursor counts `hist_prev` calls down. */
  lemma {:induction false} PrevCounts(h: Hist, t: nat)
    requires Valid(h) && |h.elems| > 0 && t <= h.curr
    ensures AfterPrev(h, t).curr == h.curr - t
    decreases t
  {
    if t > 0 {
      PrevCounts(h, t - 1);
    }
  }

  /** At cursor 0, `hist_prev` wraps the counter to `SIZE_MAX` and returns
      entry `SIZE_MAX mod n`; that is the last entry exactly when `n`
      divides 2^64. */
  lemma PrevWrap(h: Hist)
    requires |h.elems| > 0 && h.curr == 0
    ensures Prev(h).0.curr == SizeModulus - 1
    ensures Prev(h).1 == h.elems[(SizeModulus - 1) % |h.elems|]
    ensures (SizeModulus - 1) % |h.elems| == |h.elems| - 1 <==> SizeModulus % |h.elems| == 0
  {
    var n := |h.elems|;
    var q, r := (SizeModulus - 1) / n, (SizeModulus - 1) % n;
    assert SizeModulus - 1 == q * n + r;
    if r == n - 1 {
      DivModUnique(SizeModulus, n, q + 1, 0);
    }
    if SizeModulus % n == 0 {
      var k := SizeModulus / n;
      assert SizeModulus == k * n;
      assert k >= 1;
      DivModUnique(SizeModulus - 1, n, k - 1, n - 1);
    }
  }

  /** With two lines (three entries), walking up past the oldest line
      returns the oldest line again instead of the sentinel, because 2^64 - 1
      is a multiple of 3. */
  lemma PrevWrapRepeatsOldest(a: string, b: string)
    ensures var h := Hist(WithSentinel([a, b]), 0);
            Prev(h).1 == Some(a)
  {
    var h := Hist(WithSentinel([a, b]), 0);
    DivModUnique(SizeModulus - 1, 3, 6148914691236517205, 0);
  }

  /** What `hist_save` did. */
  datatype SaveOutcome =
    | NotOpened           // `fopen` failed: 1 is returned and nothing is written
    | Fault               // the drop loop runs past the entries
    | Written(text: string)

  /** The lines of the non-NULL entries, in order. */
  function Present(elems: seq<Option<string>>): (r: seq<string>)
    ensures |r| <= |elems|
    decreases |elems|
  {
    if |elems| == 0 then []
    else (if elems[0].Some? then [elems[0].value] else []) + Present(elems[1..])
  }

  /** The number of oldest entries `hist_save` frees: when the count
      passes the guard, the count minus the cap. Both comparisons and the
      subtraction are on `size_t`, the `int` constants converted to it. */
  function DropCount(n: nat): nat
  {
    if n > SizeT(MaxHistoryLines - 2) then SizeT(n - MaxHistoryLines) else 0
  }

  /** The drop count without conversions: the excess over the cap, except
      that one entry below the cap underflows to `SIZE_MAX`, and a cap of 1
      makes the guard's bound `SIZE_MAX` so that nothing is dropped. */
  lemma DropCountSpec(n: nat)
    requires n < SizeModulus
    ensures DropCount(n) ==
              if MaxHistoryLines >= 2 && n >= MaxHistoryLines then n - MaxHistoryLines
              else if MaxHistoryLines >= 2 && n == MaxHistoryLines - 1 then SizeModulus - 1
              else 0
  {
    if MaxHistoryLines >= 2 {
      SmallMod(MaxHistoryLines - 2);
      if n >= MaxHistoryLines {
        SmallMod(n - MaxHistoryLines);
      } else if n == MaxHistoryLines - 1 {
        WrapMod(n - MaxHistoryLines);
      }
    } else {
      WrapMod(MaxHistoryLines - 2);
    }
  }

  /** `hist_save`: when the file opens, free the oldest entries (running
      past the entries when the count exceeds them), then write every
      remaining non-NULL entry and the command, each followed by a newline.
      No duplicate check. */
  function Save(h: Hist, cmd: string, opens: bool): (r: SaveOutcome)
    ensures !opens <==> r == NotOpened
  {
    if !opens then NotOpened
    else
      var drop := DropCount(|h.elems|);
      if drop > |h.elems| then Fault
      else Written(Terminated(Present(h.elems[drop..]) + [cmd]))
  }

  /** The drop bound underflows: with one entry fewer than the cap the loop
      runs towards `SIZE_MAX`. That is the only fault. */
  lemma SaveFaultIff(h: Hist, cmd: string)
    requires |h.elems| < SizeModulus
    ensures Save(h, cmd, true) == Fault <==> MaxHistoryLines >= 2 && |h.elems| == MaxHistoryLines - 1
  {
    DropCountSpec(|h.elems|);
  }

  /** How many oldest entries a save keeps out when it does not fault. */
  function Dropped(n: nat): nat
  {
    if MaxHistoryLines >= 2 && n >= MaxHistoryLines then n - MaxHistoryLines else 0
  }

  /** Round trip through the file: saving a loaded history and loading
      again gives the newest lines that fit under the cap followed by the
      command, unless the save faults. A file one line short of the cap
      less one faults; below that the file only grows. */
  lemma SaveLoad(lines: seq<string>, cmd: string)
    requires |lines| + 1 < SizeModulus
    requires cmd != "" && '\n' !in cmd && '\0' !in cmd && |cmd| <= MaxCmdLen
    requires forall i :: 0 <= i < |lines| ==> lines[i] != "" && '\n' !in lines[i] && '\0' !in lines[i] && |lines[i]| <= MaxCmdLen
    ensures var h := Hist(WithSentinel(lines), |lines|);
            || (Save(h, cmd, true) == Fault && |lines| + 2 == MaxHistoryLines)
            || (&& Save(h, cmd, true).Written?
                && ReadLines(Save(h, cmd, true).text) == Some(lines[Dropped(|lines| + 1)..] + [cmd])
                && (MaxHistoryLines >= 2 ==> |lines[Dropped(|lines| + 1)..]| + 1 <= MaxHistoryLines))
  {
    DropCountSpec(|lines| + 1);
    if DropCount(|lines| + 1) <= |lines| + 1 {
      var k := Dropped(|lines| + 1);
      SaveText(lines, cmd, k);
      var kept := lines[k..] + [cmd];
      assert forall i :: 0 <= i < |kept| ==> kept[i] != "" && '\n' !in kept[i] && '\0' !in kept[i] && |kept[i]| <= MaxCmdLen by {
        forall i | 0 <= i < |kept|
          ensures kept[i] != "" && '\n' !in kept[i] && '\0' !in kept[i] && |kept[i]| <= MaxCmdLen
        {
          if i < |lines| - k {
            assert kept[i] == lines[k + i];
          }
        }
      }
      ReadTerminated(kept);
    }
  }

  /** Return on an empty line saves the empty command: the file gets a bare
      newline, which loading skips, so the round trip gives just the newest
      lines that fit under the cap, unless the save faults. */
  lemma SaveEmptyLoad(lines: seq<string>)
    requires |lines| + 1 < SizeModulus
    requires forall i :: 0 <= i < |lines| ==> lines[i] != "" && '\n' !in lines[i] && '\0' !in lines[i] && |lines[i]| <= MaxCmdLen
    ensures var h := Hist(WithSentinel(lines), |lines|);
            || (Save(h, "", true) == Fault && |lines| + 2 == MaxHistoryLines)
            || (&& Save(h, "", true).Written?
                && ReadLines(Save(h, "", true).text) == Some(lines[Dropped(|lines| + 1)..]))
  {
    DropCountSpec(|lines| + 1);
    if DropCount(|lines| + 1) <= |lines| + 1 {
      var k := Dropped(|lines| + 1);
      SaveText(lines, "", k);
      TerminatedAppend(lines[k..], "");
      assert forall i :: 0 <= i < |lines[k..]| ==>
               lines[k..][i] != "" && '\n' !in lines[k..][i] && '\0' !in lines[k..][i] && |lines[k..][i]| <= MaxCmdLen;
      ReadBlankLine();
      ReadTerminatedThen(lines[k..], "\n");
      assert Terminated(lines[k..]) + "" + "\n" == Terminated(lines[k..]) + "\n";
      assert lines[k..] + [] == lines[k..];
    }
  }

  /** Round trip for any entries a load can produce, empty ones included:
      an empty entry (from a line that started with a NUL) is written as a
      bare newline and skipped by the next load. */
  lemma SaveLoadSkipsEmpty(lines: seq<string>, cmd: string)
    requires |lines| + 1 < SizeModulus
    requires cmd != "" && '\n' !in cmd && '\0' !in cmd && |cmd| <= MaxCmdLen
    requires forall i :: 0 <= i < |lines| ==> '\n' !in lines[i] && '\0' !in lines[i] && |lines[i]| <= MaxCmdLen
    ensures var h := Hist(WithSentinel(lines), |lines|);
            || (Save(h, cmd, true) == Fault && |lines| + 2 == MaxHistoryLines)
            || (&& Save(h, cmd, true).Written?
                && ReadLines(Save(h, cmd, true).text) == Some(NonEmpty(lines[Dropped(|lines| + 1)..]) + [cmd]))
  {
    DropCountSpec(|lines| + 1);
    if DropCount(|lines| + 1) <= |lines| + 1 {
      var k := Dropped(|lines| + 1);
      SaveText(lines, cmd, k);
      var kept := KeptLines(lines, k, cmd);
      ReadTerminatedSkipsEmpty(kept);
      NonEmptySnoc(lines[k..], cmd);
    }
  }

  lemma KeptLines(lines: seq<string>, k: nat, cmd: string) returns (kept: seq<string>)
    requires k <= |lines| && '\n' !in cmd && '\0' !in cmd && |cmd| <= MaxCmdLen
    requires forall i :: 0 <= i < |lines| ==> '\n' !in lines[i] && '\0' !in lines[i] && |lines[i]| <= MaxCmdLen
    ensures kept == lines[k..] + [cmd]
    ensures forall i :: 0 <= i < |kept| ==> '\n' !in kept[i] && '\0' !in kept[i] && |kept[i]| <= MaxCmdLen
  {
    kept := lines[k..] + [cmd];
    forall i | 0 <= i < |kept|
      ensures '\n' !in kept[i] && '\0' !in kept[i] && |kept[i]| <= MaxCmdLen
    {
      if i < |lines| - k {
        assert kept[i] == lines[k + i];
      }
    }
  }

  /** Newline-terminated lines that fit read back as the non-empty ones. */
  lemma {:induction false} ReadTerminatedSkipsEmpty(lines: seq<string>)
    requires forall i :: 0 <= i < |lines| ==> '\n' !in lines[i] && '\0' !in lines[i] && |lines[i]| <= MaxCmdLen
    ensures ReadLines(Terminated(lines)) == Some(NonEmpty(lines))
    decreases |lines|
  {
    if |lines| > 0 {
      ReadTerminatedSkipsEmpty(lines[1..]);
      TerminatedHead(lines, "");
      if lines[0] == "" {
        BlankLineThen(Terminated(lines[1..]));
      } else {
        ReadLineThen(lines[0], Terminated(lines[1..]));
      }
      NoTail(lines);
    }
  }

  lemma NoTail(lines: seq<string>)
    requires |lines| > 0
    ensures Terminated(lines) + "" == Terminated(lines) && Terminated(lines[1..]) + "" == Terminated(lines[1..])
  {
  }

  /** An empty line is skipped. */
  lemma BlankLineThen(rest: string)
    ensures ReadLines("" + ("\n" + rest)) == ReadLines(rest)
  {
    var s := "" + ("\n" + rest);
    assert LinePrefix(s, MaxCmdLen) == "";
    assert s[1..] == rest;
  }

  lemma {:induction false} NonEmptySnoc(pieces: seq<string>, x: string)
    requires x != ""
    ensures NonEmpty(pieces + [x]) == NonEmpty(pieces) + [x]
    decreases |pieces|
  {
    if |pieces| > 0 {
      assert (pieces + [x])[1..] == pieces[1..] + [x];
      NonEmptySnoc(pieces[1..], x);
    } else {
      assert pieces + [x] == [x];
      assert [x][1..] == [];
    }
  }

  /** The first run: with no history file `hist_init` gives no entries and
      no sentinel, and the save writes just the command on its own line. */
  lemma SaveFirstRun(cmd: string)
    ensures Save(Load(None).value, cmd, true) == Written(cmd + "\n")
  {
    var h := Load(None).value;
    assert h == Hist([], 0);
    assert DropCount(0) == 0;
    assert h.elems[0..] == [];
    assert Present(h.elems[0..]) + [cmd] == [cmd];
    assert [cmd][1..] == [];
    assert Terminated([cmd]) == cmd + "\n" + "";
    assert cmd + "\n" + "" == cmd + "\n";
  }

  /** What the first run saved loads back as the command alone, or as no
      lines when the command was empty. */
  lemma SaveFirstRunLoad(cmd: string)
    requires '\n' !in cmd && '\0' !in cmd && |cmd| <= MaxCmdLen
    ensures Save(Load(None).value, cmd, true).Written?
    ensures var file := Save(Load(None).value, cmd, true).text;
            && ReadLines(file) == Some(if cmd == "" then [] else [cmd])
            && Load(Some(file)) == Some(Hist(WithSentinel(if cmd == "" then [] else [cmd]), if cmd == "" then 0 else 1))
  {
    SaveFirstRun(cmd);
    if cmd == "" {
      ReadBlankLine();
      assert cmd + "\n" == "\n";
    } else {
      ReadTerminated([cmd]);
      assert Terminated([cmd]) == cmd + "\n" + Terminated([]);
      SmallMod(1);
    }
  }

  /** A lone newline reads as no lines. */
  lemma ReadBlankLine()
    ensures ReadLines("\n") == Some([])
  {
    assert LinePrefix("\n", MaxCmdLen) == "";
    assert "\n"[1..] == "";
  }

  /** What a save that drops `k` entries of a loaded history writes: the
      kept lines and the command, each followed by a newline, whatever the
      command is. */
  lemma SaveText(lines: seq<string>, cmd: string, k: nat)
    requires k <= |lines| && DropCount(|lines| + 1) == k
    ensures Save(Hist(WithSentinel(lines), |lines|), cmd, true) == Written(Terminated(lines[k..] + [cmd]))
  {
    assert WithSentinel(lines)[k..] == WithSentinel(lines[k..]);
    PresentOfSentinel(lines[k..]);
  }

  lemma {:induction false} PresentOfSentinel(lines: seq<string>)
    ensures Present(WithSentinel(lines)) == lines
    decreases |lines|
  {
    if |lines| > 0 {
      assert WithSentinel(lines)[1..] == WithSentinel(lines[1..]);
      PresentOfSentinel(lines[1..]);
    }
  }

  /** Reading back newline-terminated lines that fit gives the same lines. */
  lemma {:induction false} ReadTerminated(lines: seq<string>)
    requires forall i :: 0 <= i < |lines| ==> lines[i] != "" && '\n' !in lines[i] && '\0' !in lines[i] && |lines[i]| <= MaxCmdLen
    ensures ReadLines(Terminated(lines)) == Some(lines)
    decreases |lines|
  {
    if |lines| > 0 {
      var s := Terminated(lines);
      var rest := Terminated(lines[1..]);
      assert s == lines[0] + ("\n" + rest);
      LineRead(lines[0], "\n" + rest, MaxCmdLen);
      BeforeNulWhole(lines[0]);
      assert s[|lines[0]|..] == "\n" + rest;
      ReadTerminated(lines[1..]);
      assert lines == [lines[0]] + lines[1..];
    }
  }

  /** Newline-terminated lines that fit, followed by text that reads, read
      as those lines followed by what that text reads as. */
  lemma {:induction false} ReadTerminatedThen(lines: seq<string>, t: string)
    requires forall i :: 0 <= i < |lines| ==> lines[i] != "" && '\n' !in lines[i] && '\0' !in lines[i] && |lines[i]| <= MaxCmdLen
    requires ReadLines(t).Some?
    ensures ReadLines(Terminated(lines) + t) == Some(lines + ReadLines(t).value)
    decreases |lines|
  {
    if |lines| > 0 {
      ReadTerminatedThen(lines[1..], t);
      TerminatedHead(lines, t);
      ReadLineThen(lines[0], Terminated(lines[1..]) + t);
      ConsAppend(lines, ReadLines(t).value);
    } else {
      NoLines(lines, t, ReadLines(t).value);
    }
  }

  lemma ConsAppend(xs: seq<string>, ys: seq<string>)
    requires |xs| > 0
    ensures xs + ys == [xs[0]] + (xs[1..] + ys)
  {
  }

  lemma NoLines(lines: seq<string>, t: string, ys: seq<string>)
    requires |lines| == 0
    ensures Terminated(lines) + t == t && lines + ys == ys
  {
  }

  lemma TerminatedHead(lines: seq<string>, t: string)
    requires |lines| > 0
    ensures Terminated(lines) + t == lines[0] + ("\n" + (Terminated(lines[1..]) + t))
  {
  }

  /** One line that fits, then a newline, in front of text that reads. */
  lemma ReadLineThen(line: string, rest: string)
    requires line != "" && '\n' !in line && '\0' !in line && |line| <= MaxCmdLen
    requires ReadLines(rest).Some?
    ensures ReadLines(line + ("\n" + rest)) == Some([line] + ReadLines(rest).value)
  {
    var s := line + ("\n" + rest);
    LineRead(line, "\n" + rest, MaxCmdLen);
    BeforeNulWhole(line);
    assert s[|line|..] == "\n" + rest;
    assert s[|line|..][1..] == rest;
  }

  /** A line with a NUL in it, then a newline, in front of text that reads:
      the entry is the part before the NUL, and empty when the line starts
      with the NUL. */
  lemma NulCutsLine(head: string, tail: string, rest: string)
    requires '\n' !in head && '\0' !in head && '\n' !in tail && |head| + 1 + |tail| <= MaxCmdLen
    requires ReadLines(rest).Some?
    ensures ReadLines(head + ['\0'] + tail + ("\n" + rest)) == Some([head] + ReadLines(rest).value)
  {
    var line := NulLine(head, tail);
    LineRead(line, "\n" + rest, MaxCmdLen);
    Reassociate(line, rest);
    ReadOneLine(line + ("\n" + rest), line, rest);
    BeforeNulCut(head, tail);
  }

  lemma NulLine(head: string, tail: string) returns (line: string)
    requires '\n' !in head && '\n' !in tail && |head| + 1 + |tail| <= MaxCmdLen
    ensures line == head + ['\0'] + tail && line != "" && '\n' !in line && |line| <= MaxCmdLen
  {
    line := head + ['\0'] + tail;
    assert line[|head|] == '\0';
  }

  lemma Reassociate(line: string, rest: string)
    ensures line + ("\n" + rest) == line + "\n" + rest
  {
  }

}

=== FILE: history_cpp.dfy ===
/** The C++ generation's history log (history.cpp): the non-empty lines of
    the history file, a cursor that starts before the first entry and wraps
    at both ends, and a serialiser that rewrites the whole file. */
module HistoryCpp {
  import opened Base
  import opened Text

  /** `History` without its file name: the entries and `m_iter` as an index,
      -1 standing for `begin() - 1`. */
  datatype Hist = Hist(elems: seq<string>, iter: int)

  /** The cursor is before the first entry or on one of them. */
  predicate Valid(h: Hist)
  {
    -1 <= h.iter < |h.elems|
  }

  /** The constructor: a file that does not open gives no entries; otherwise
      every non-empty line, in file order. The cursor starts before the
      first entry. */
  function Load(file: Option<string>): (h: Hist)
    ensures Valid(h) && h.iter == -1
  {
    Hist(if file.None? then [] else NonEmpty(Split(file.value, '\n')), -1)
  }

  /** What the loader keeps: exactly the non-empty lines, none of them
      holding a newline. */
  lemma LoadSpec(file: string, line: string)
    ensures line in Load(Some(file)).elems <==> line != "" && line in Split(file, '\n')
    ensures forall i :: 0 <= i < |Load(Some(file)).elems| ==>
              Load(Some(file)).elems[i] != "" && '\n' !in Load(Some(file)).elems[i]
  {
    var pieces := Split(file, '\n');
    if line != "" && line in pieces {
      var k :| 0 <= k < |pieces| && pieces[k] == line;
    }
  }

  /** `History::next`: an empty history gives the empty string and keeps
      the cursor; otherwise the cursor moves one on, wrapping from the last
      entry to the first. */
  function Next(h: Hist): (r: (Hist, string))
    requires Valid(h)
    ensures Valid(r.0) && r.0.elems == h.elems
    ensures |h.elems| == 0 ==> r.0 == h && r.1 == ""
    ensures |h.elems| > 0 ==> 0 <= r.0.iter && r.1 == h.elems[r.0.iter]
  {
    if |h.elems| == 0 then (h, "")
    else
      var i := if h.iter >= |h.elems| - 1 then 0 else h.iter + 1;
      (Hist(h.elems, i), h.elems[i])
  }

  /** `History::prev`: the mirror image, wrapping from the first entry (and
      from before it) to the last. */
  function Prev(h: Hist): (r: (Hist, string))
    requires Valid(h)
    ensures Valid(r.0) && r.0.elems == h.elems
    ensures |h.elems| == 0 ==> r.0 == h && r.1 == ""
    ensures |h.elems| > 0 ==> 0 <= r.0.iter && r.1 == h.elems[r.0.iter]
  {
    if |h.elems| == 0 then (h, "")
    else
      var i := if h.iter <= 0 then |h.elems| - 1 else h.iter - 1;
      (Hist(h.elems, i), h.elems[i])
  }

  /** On an entry, `prev` undoes `next` and `next` undoes `prev`. */
  lemma NextPrevInverse(h: Hist)
    requires 0 <= h.iter < |h.elems|
    ensures Prev(Next(h).0).0 == h
    ensures Next(Prev(h).0).0 == h
  {
  }

  /** The state after `t` `next` calls from the loaded state. */
  function AfterNext(elems: seq<string>, t: nat): (h: Hist)
    ensures Valid(h) && h.elems == elems
    decreases t
  {
    if t == 0 then Hist(elems, -1) else Next(AfterNext(elems, t - 1)).0
  }

  /** Down presses from the start walk the history oldest first and wrap:
      call `t` (from 0) returns entry `t mod n`. */
  lemma {:induction false} NextCycles(elems: seq<string>, t: nat)
    requires |elems| > 0
    ensures Next(AfterNext(elems, t)).0.iter == Lap(t, |elems|)
    ensures Next(AfterNext(elems, t)).1 == elems[t % |elems|]
    decreases t
  {
    if t > 0 {
      NextCycles(elems, t - 1);
    }
    LapIsMod(t, |elems|);
  }

  /** The first Up press from the start returns the newest entry. */
  lemma FirstPrevIsNewest(elems: seq<string>)
    requires |elems| > 0
    ensures Prev(Hist(elems, -1)).1 == elems[|elems| - 1]
  {
  }

  /** `History::save`: every entry followed by a newline, then `entry` with
      no newline after it. The file is rewritten; the entries in memory are
      not changed, nothing is capped and nothing is deduplicated. */
  function Save(h: Hist, entry: string): string
  {
    Terminated(h.elems) + entry
  }

  /** Round trip: loading what `save` wrote gives the old entries followed
      by the saved one, as long as no line is empty or holds a newline. */
  lemma SaveLoad(h: Hist, entry: string)
    requires entry != "" && '\n' !in entry
    requires forall i :: 0 <= i < |h.elems| ==> h.elems[i] != "" && '\n' !in h.elems[i]
    ensures Load(Some(Save(h, entry))).elems == h.elems + [entry]
  {
    var lines := h.elems + [entry];
    TerminatedIsJoin(h.elems, entry);
    SplitJoin(lines, '\n');
    NonEmptyKeepsAll(lines);
  }

  /** Saving an empty command leaves a file that loads to the old entries:
      the empty last line is dropped. */
  lemma SaveEmptyLoad(h: Hist)
    requires forall i :: 0 <= i < |h.elems| ==> h.elems[i] != "" && '\n' !in h.elems[i]
    ensures Load(Some(Save(h, ""))).elems == h.elems
  {
    var lines := h.elems + [""];
    TerminatedIsJoin(h.elems, "");
    SplitJoin(lines, '\n');
    NonEmptyDropsLast(h.elems);
  }

  lemma {:induction false} NonEmptyDropsLast(lines: seq<string>)
    requires forall i :: 0 <= i < |lines| ==> lines[i] != ""
    ensures NonEmpty(lines + [""]) == lines
    decreases |lines|
  {
    if |lines| > 0 {
      assert (lines + [""])[1..] == lines[1..] + [""];
      NonEmptyDropsLast(lines[1..]);
    } else {
      assert lines + [""] == [""];
    }
  }
}

=== FILE: keys.dfy ===
/** Key events as both launchers see them after `XLookupString`: the keysym,
    the one character of text it produced, and the Control and Alt (Mod1)
    modifier bits. */
module Keys {

  /** One key press. */
  datatype KeyEvent = KeyEvent(sym: nat, text: char, ctrl: bool, alt: bool)

  /** The keysyms the handlers switch on (X11 keysymdef.h). */
  const BackSpace: nat := 0xff08
  const Tab: nat := 0xff09
  const Return: nat := 0xff0d
  const Escape: nat := 0xff1b
  const Home: nat := 0xff50
  const Left: nat := 0xff51
  const Up: nat := 0xff52
  const Right: nat := 0xff53
  const Down: nat := 0xff54
  const End: nat := 0xff57
  const KeypadTab: nat := 0xff89
  const KeypadHome: nat := 0xff95
  const KeypadLeft: nat := 0xff96
  const KeypadUp: nat := 0xff97
  const KeypadRight: nat := 0xff98
  const KeypadDown: nat := 0xff99
  const KeypadEnd: nat := 0xff9c
  const LetterK: nat := 0x6b
  const LetterW: nat := 0x77

  /** The keys whose text is inserted: Latin-1 to Latin-8 and the keypad
      digits. */
  predicate Printable(sym: nat)
  {
    (0x20 <= sym <= 0x13be) || (0xffb0 <= sym <= 0xffb9)
  }

  /** The keysym the insertion test sees: Control-k and Control-w are set to
      0 by their handlers so that no letter is inserted. */
  function Effective(ev: KeyEvent): (sym: nat)
    ensures Printable(sym) <==> Printable(ev.sym) && !(ev.ctrl && (ev.sym == LetterK || ev.sym == LetterW))
  {
    if ev.ctrl && (ev.sym == LetterK || ev.sym == LetterW) then 0 else ev.sym
  }

  /** None of the editing keys inserts text. */
  lemma EditingKeysDoNotInsert(sym: nat)
    requires sym in {BackSpace, Tab, Return, Escape, Home, Left, Up, Right, Down, End,
                     KeypadTab, KeypadHome, KeypadLeft, KeypadUp, KeypadRight, KeypadDown, KeypadEnd}
    ensures !Printable(sym)
  {
  }
}

=== FILE: launcher_c.dfy ===
/** The C generation's line editor (thingylaunch.c, `keypress` and the
    truncation in `execcmd`): a command buffer of `MAX_CMD_LEN + 1` bytes, a
    cursor, and the completion and history objects, driven one key press at
    a time. */
module LauncherC {
  import opened Base
  import opened Text
  import opened Keys
  import CompletionC
  import HistoryC

  /** The globals `keypress` works on: the command up to its NUL, the
      cursor, the completion object and the history object. */
  datatype Editor = Editor(command: string, cursor: nat, comp: CompletionC.Comp, hist: HistoryC.Hist)

  /** What the program does after a key press. */
  datatype Outcome =
    | Continue(editor: Editor)
    | Exit                                          // Escape: `exit(0)`
    | Launch(run: string, saved: HistoryC.SaveOutcome) // Return: saved, then the shell runs `run`
    | Fault                                         // undefined behaviour

  /** The states the editor keeps: the cursor within the command, the
      command within the buffer, and completion and history objects as their
      constructors leave them. */
  predicate Valid(e: Editor)
  {
    && e.cursor <= |e.command| <= MaxCmdLen
    && CompletionC.Valid(e.comp) && CompletionC.WellFormedIndex(e.comp.index)
    && HistoryC.Valid(e.hist) && |e.hist.elems| < SizeModulus
  }

  /** `main` before the event loop: an empty command and the cursor at 0. */
  function Start(comp: CompletionC.Comp, hist: HistoryC.Hist): (e: Editor)
    ensures e.command == "" && e.cursor == 0
  {
    Editor("", 0, comp, hist)
  }

  /** The Control-w loop on a buffer that is not full: delete the character
      before the cursor, then stop if the character before the cursor is a
      blank; once the cursor reaches 0 the test reads `command[-1]`
      (`None`). With the cursor at 0 the loop does not run. */
  function EraseWord(s: string, c: nat): (r: Option<(string, nat)>)
    requires c <= |s|
    decreases c
  {
    if c == 0 then Some((s, 0))
    else
      var t := s[..c - 1] + s[c..];
      if c == 1 then None
      else if t[c - 2] == ' ' then Some((t, c - 1))
      else EraseWord(t, c - 1)
  }

  /** Control-w removes the text between the last blank before the
      character left of the cursor and the cursor, keeping that blank; it
      fails when there is no such blank. */
  lemma {:induction false} EraseWordSpec(s: string, c: nat)
    requires 0 < c <= |s|
    ensures EraseWord(s, c).None? <==> LastSpace(s, c - 1).None?
    ensures LastSpace(s, c - 1).Some? ==>
              var j := LastSpace(s, c - 1).value;
              EraseWord(s, c) == Some((s[..j + 1] + s[c..], j + 1))
    decreases c
  {
    if c > 1 {
      var t := s[..c - 1] + s[c..];
      assert t[c - 2] == s[c - 2];
      if s[c - 2] != ' ' {
        EraseWordSpec(t, c - 1);
        LastSpaceOfPrefix(s, t, c - 2);
        if LastSpace(s, c - 1).Some? {
          var j := LastSpace(s, c - 1).value;
          assert t[..j + 1] == s[..j + 1];
          assert t[c - 1..] == s[c..];
        }
      } else {
        assert s[..c - 1] == s[..c - 2 + 1];
      }
    }
  }

  /** The `switch` of `keypress`. */
  function Handle(e: Editor, ev: KeyEvent, opens: bool): (r: Outcome)
    requires Valid(e)
    ensures r.Continue? ==> Valid(r.editor)
  {
    var len := |e.command|;
    var s := ev.sym;
    if s == Escape then Exit
    else if s == BackSpace then
      // the shift copies `command[len + 1]`, past the buffer when it is full
      if e.cursor == 0 then Continue(e.(comp := CompletionC.Reset(e.comp)))
      else if len == MaxCmdLen then Fault
      else Continue(Editor(e.command[..e.cursor - 1] + e.command[e.cursor..], e.cursor - 1,
                           CompletionC.Reset(e.comp), e.hist))
    else if s == Left || s == KeypadLeft then
      Continue(e.(cursor := if e.cursor > 0 then e.cursor - 1 else 0))
    else if s == Right || s == KeypadRight then
      Continue(e.(cursor := if e.cursor < len then e.cursor + 1 else e.cursor))
    else if s == Up || s == KeypadUp then
      var (h, line) := HistoryC.Prev(e.hist);
      Recall(e, h, line)
    else if s == Down || s == KeypadDown then
      var (h, line) := HistoryC.Next(e.hist);
      Recall(e, h, line)
    else if s == Home || s == KeypadHome then Continue(e.(cursor := 0))
    else if s == End || s == KeypadEnd then Continue(e.(cursor := len))
    else if s == Return then
      var saved := HistoryC.Save(e.hist, e.command, opens);
      if saved.Fault? then Fault else Launch(e.command[..e.cursor], saved)
    else if s == Tab || s == KeypadTab then
      CompleteTab(e)
    else if s == LetterK && ev.ctrl then
      Continue(Editor("", 0, CompletionC.Reset(e.comp), e.hist))
    else if s == LetterW && ev.ctrl then
      if e.cursor == 0 then Continue(e)
      else if len == MaxCmdLen then Fault
      else
        match EraseWord(e.command, e.cursor)
        case None => Fault
        case Some((t, c)) =>
          EraseWordShrinks(e.command, e.cursor);
          Continue(e.(command := t, cursor := c))
    else Continue(e)
  }

  lemma {:induction false} EraseWordShrinks(s: string, c: nat)
    requires c <= |s|
    ensures EraseWord(s, c).Some? ==> EraseWord(s, c).value.1 <= |EraseWord(s, c).value.0| <= |s|
    decreases c
  {
    if c > 1 {
      EraseWordShrinks(s[..c - 1] + s[c..], c - 1);
    }
  }

  /** Up and Down: the entry cut to `MAX_CMD_LEN - 1` characters by
      `snprintf`, or the empty command for the NULL sentinel; the cursor
      goes to the end. */
  function Recall(e: Editor, h: HistoryC.Hist, line: Option<string>): (r: Outcome)
    requires Valid(e) && HistoryC.Valid(h) && h.elems == e.hist.elems
    ensures r.Continue? && Valid(r.editor)
  {
    var command := if line.Some? then Truncate(line.value, MaxCmdLen - 1) else "";
    Continue(Editor(command, |command|, e.comp, h))
  }

  /** Tab: ask the completion object for the next entry; with none only the
      completion state changes; otherwise the command becomes what follows
      the entry's last slash, cut to `MAX_CMD_LEN - 1` characters, and the
      cursor its uncut length. A full path without a slash would make
      `strrchr` return NULL. */
  function CompleteTab(e: Editor): (r: Outcome)
    requires Valid(e)
    ensures r.Continue? ==> Valid(r.editor)
  {
    var (comp, full) := CompletionC.Next(e.comp, e.command);
    if full.None? then Continue(e.(comp := comp))
    else if '/' !in full.value then Fault
    else
      var name := AfterLast(full.value, '/');
      CompletionC.NextSpec(e.comp, e.command);
      Continue(Editor(Truncate(name, MaxCmdLen - 1), |name|, comp, e.hist))
  }

  /** The insertion after the `switch`: a printable key's text goes in at
      the cursor when the buffer has room, and the completion hint is
      forgotten. */
  function Insert(e: Editor, ev: KeyEvent): (r: Editor)
    requires Valid(e)
    ensures Valid(r)
  {
    if Printable(Effective(ev)) && |e.command| < MaxCmdLen then
      Editor(e.command[..e.cursor] + [ev.text] + e.command[e.cursor..], e.cursor + 1,
             CompletionC.Reset(e.comp), e.hist)
    else e
  }

  /** The key presses the model covers: a printable key whose lookup
      produced no text would insert the NUL byte, leaving bytes past the
      terminator that later edits can bring back. */
  predicate Modelled(ev: KeyEvent)
  {
    Printable(Effective(ev)) ==> ev.text != '\0'
  }

  /** `keypress`. */
  function Step(e: Editor, ev: KeyEvent, opens: bool): (r: Outcome)
    requires Valid(e) && Modelled(ev)
    ensures r.Continue? ==> Valid(r.editor)
    ensures r == Exit <==> ev.sym == Escape
    ensures r.Launch? ==> ev.sym == Return && r.run <= e.command && |r.run| == e.cursor
  {
    match Handle(e, ev, opens)
    case Continue(mid) => Continue(Insert(mid, ev))
    case other => other
  }

  /** A printable key other than Control-k and Control-w only inserts. */
  lemma InsertKey(e: Editor, ev: KeyEvent, opens: bool)
    requires Valid(e) && Modelled(ev) && Printable(Effective(ev))
    ensures Step(e, ev, opens) == Continue(Insert(e, ev))
  {
    assert Handle(e, ev, opens) == Continue(e);
  }

  /** The key presses that end in undefined behaviour: Backspace or
      Control-w on a full buffer with the cursor off the start, Control-w
      with no blank before the character left of the cursor, and Return
      when the history holds one entry fewer than its cap. */
  lemma StepFaultIff(e: Editor, ev: KeyEvent, opens: bool)
    requires Valid(e) && Modelled(ev)
    ensures Step(e, ev, opens) == Fault <==>
              || (ev.sym == BackSpace && e.cursor > 0 && |e.command| == MaxCmdLen)
              || (ev.sym == LetterW && ev.ctrl && e.cursor > 0 &&
                  (|e.command| == MaxCmdLen || ' ' !in e.command[..e.cursor - 1]))
              || (ev.sym == Return && opens && MaxHistoryLines >= 2 && |e.hist.elems| == MaxHistoryLines - 1)
  {
    if ev.sym == Return {
      HistoryC.SaveFaultIff(e.hist, e.command);
    }
    if ev.sym == Tab || ev.sym == KeypadTab {
      TabNeverFaults(e);
    }
    if ev.sym == LetterW && ev.ctrl && e.cursor > 0 && |e.command| < MaxCmdLen {
      EraseWordSpec(e.command, e.cursor);
      var p := e.command[..e.cursor - 1];
      if LastSpace(e.command, e.cursor - 1).Some? {
        var j := LastSpace(e.command, e.cursor - 1).value;
        assert p[j] == ' ';
      } else {
        assert forall k :: 0 <= k < |p| ==> p[k] == e.command[k];
      }
    }
  }

  /** A printable key puts its character at the cursor, shifting the text
      after it right, and forgets the completion hint; on a full buffer the
      key changes nothing at all. */
  lemma TypeInserts(e: Editor, ev: KeyEvent, opens: bool)
    requires Valid(e) && Modelled(ev) && Printable(Effective(ev))
    ensures var r := Step(e, ev, opens);
            var c := e.cursor;
            && r.Continue?
            && (|e.command| == MaxCmdLen ==> r.editor == e)
            && (|e.command| < MaxCmdLen ==>
                  && |r.editor.command| == |e.command| + 1
                  && r.editor.command[..c] == e.command[..c]
                  && r.editor.command[c] == ev.text
                  && r.editor.command[c + 1..] == e.command[c..]
                  && r.editor.cursor == c + 1
                  && r.editor.comp.hint.None? && r.editor.hist == e.hist)
  {
    InsertKey(e, ev, opens);
    var c := e.cursor;
    var t := e.command[..c] + [ev.text] + e.command[c..];
    assert t[..c] == e.command[..c];
    assert t[c + 1..] == e.command[c..];
  }

  /** Up and Down step the history and show the entry they land on, cut to
      `MAX_CMD_LEN - 1` characters, or the empty command at the NULL
      sentinel, with the cursor at its end; the completion state is kept. */
  lemma RecallKeys(e: Editor, ev: KeyEvent, opens: bool)
    requires Valid(e) && ev.sym in {Up, KeypadUp, Down, KeypadDown}
    ensures var (h, line) := if ev.sym in {Up, KeypadUp} then HistoryC.Prev(e.hist) else HistoryC.Next(e.hist);
            var r := Step(e, ev, opens);
            && r.Continue?
            && r.editor.hist == h
            && (line.Some? ==> r.editor.command == Truncate(line.value, MaxCmdLen - 1))
            && (line.None? ==> r.editor.command == "")
            && |r.editor.command| < MaxCmdLen
            && r.editor.cursor == |r.editor.command|
            && r.editor.comp == e.comp
  {
    EditingKeysDoNotInsert(ev.sym);
  }

  /** Tab with no matching entry leaves the command and the cursor as they
      were. */
  lemma TabWithoutMatch(e: Editor, opens: bool)
    requires Valid(e) && CompletionC.Next(e.comp, e.command).1.None?
    ensures var r := Step(e, KeyEvent(Tab, '\t', false, false), opens);
            && r.Continue?
            && r.editor.command == e.command && r.editor.cursor == e.cursor
            && r.editor.comp == CompletionC.Next(e.comp, e.command).0
  {
  }

  /** Every full path in a well-formed index has a slash, so Tab never
      reaches the NULL `strrchr`. */
  lemma TabNeverFaults(e: Editor)
    requires Valid(e)
    ensures CompleteTab(e) != Fault
  {
    var full := CompletionC.Next(e.comp, e.command).1;
    CompletionC.NextSpec(e.comp, e.command);
    if full.Some? {
      var i := CompletionC.Next(e.comp, e.command).0.curr.value;
      var en := e.comp.index[i];
      assert en.fullpath == en.dir + "/" + en.filename;
      assert en.fullpath[|en.dir|] == '/';
    }
  }

  /** Tab puts the completed entry's file name in the command, with the
      cursor after it, when the name holds no slash. */
  lemma TabYieldsFileName(e: Editor)
    requires Valid(e)
    requires CompletionC.Next(e.comp, e.command).1.Some?
    requires var i := CompletionC.Next(e.comp, e.command).0.curr.value;
             '/' !in e.comp.index[i].filename
    ensures var i := CompletionC.Next(e.comp, e.command).0.curr.value;
            var r := Step(e, KeyEvent(Tab, '\t', false, false), false);
            && r.Continue?
            && r.editor.command == e.comp.index[i].filename
            && r.editor.cursor == |e.comp.index[i].filename|
  {
    CompletionC.NextSpec(e.comp, e.command);
    var i := CompletionC.Next(e.comp, e.command).0.curr.value;
    var en := e.comp.index[i];
    AfterLastOfJoin(en.dir, '/', en.filename);
    assert en.dir + "/" + en.filename == en.dir + ['/'] + en.filename;
  }

  /** A printable key typed without Control into a buffer with room is
      undone by Backspace, unless the buffer is then full. */
  lemma TypeThenBackspace(e: Editor, ch: char, opens: bool)
    requires Valid(e) && ch != '\0' && Printable(ch as nat)
    requires |e.command| + 1 < MaxCmdLen
    ensures var typed := Step(e, KeyEvent(ch as nat, ch, false, false), opens);
            && typed.Continue?
            && var back := Step(typed.editor, KeyEvent(BackSpace, '\U{0008}', false, false), opens);
            && back.Continue?
            && back.editor.command == e.command && back.editor.cursor == e.cursor
  {
    var ev := KeyEvent(ch as nat, ch, false, false);
    InsertKey(e, ev, opens);
    var typed := Insert(e, ev);
    BackspaceKey(typed, KeyEvent(BackSpace, '\U{0008}', false, false), opens);
    var s := e.command;
    var c := e.cursor;
    var t := s[..c] + [ch] + s[c..];
    assert t[..c] == s[..c];
    assert t[c + 1..] == s[c..];
    assert s[..c] + s[c..] == s;
  }

  /** Backspace removes the character left of the cursor, reading past the
      buffer when it is full. */
  lemma BackspaceKey(e: Editor, ev: KeyEvent, opens: bool)
    requires Valid(e) && ev.sym == BackSpace
    ensures Step(e, ev, opens) ==
              if e.cursor == 0 then Continue(e.(comp := CompletionC.Reset(e.comp)))
              else if |e.command| == MaxCmdLen then Fault
              else Continue(Editor(e.command[..e.cursor - 1] + e.command[e.cursor..], e.cursor - 1,
                                   CompletionC.Reset(e.comp), e.hist))
  {
  }

  /** Backspace on a buffer just filled by a printable key reads past it. */
  lemma TypeToFullThenBackspaceFaults(e: Editor, ch: char, opens: bool)
    requires Valid(e) && ch != '\0' && Printable(ch as nat)
    requires |e.command| + 1 == MaxCmdLen
    ensures var typed := Step(e, KeyEvent(ch as nat, ch, false, false), opens);
            && typed.Continue?
            && Step(typed.editor, KeyEvent(BackSpace, '\U{0008}', false, false), opens) == Fault
  {
    var ev := KeyEvent(ch as nat, ch, false, false);
    InsertKey(e, ev, opens);
    BackspaceKey(Insert(e, ev), KeyEvent(BackSpace, '\U{0008}', false, false), opens);
  }

  /** Return runs the command up to the cursor and saves the whole command,
      when the history file opens and the save does not fault. */
  lemma ReturnRunsPrefix(e: Editor, opens: bool)
    requires Valid(e)
    requires !(opens && MaxHistoryLines >= 2 && |e.hist.elems| == MaxHistoryLines - 1)
    ensures var r := Step(e, KeyEvent(Return, '\r', false, false), opens);
            && r.Launch?
            && r.run == e.command[..e.cursor]
            && r.saved == HistoryC.Save(e.hist, e.command, opens)
  {
    HistoryC.SaveFaultIff(e.hist, e.command);
  }

  /** The events that type `s` character by character. */
  function Typing(s: string): (evs: seq<KeyEvent>)
    ensures |evs| == |s|
    ensures forall i :: 0 <= i < |s| ==> evs[i] == KeyEvent(s[i] as nat, s[i], false, false)
  {
    seq(|s|, i requires 0 <= i < |s| => KeyEvent(s[i] as nat, s[i], false, false))
  }

  /** Text that can be typed: printable characters other than NUL. */
  predicate Typable(s: string)
  {
    forall i :: 0 <= i < |s| ==> s[i] != '\0' && Printable(s[i] as nat)
  }

  /** The outcome of a sequence of key presses, stopping at the first one
      that does not continue. */
  function Run(e: Editor, evs: seq<KeyEvent>, opens: bool): (r: Outcome)
    requires Valid(e)
    requires forall i :: 0 <= i < |evs| ==> Modelled(evs[i])
    ensures r.Continue? ==> Valid(r.editor)
    decreases |evs|
  {
    if |evs| == 0 then Continue(e)
    else
      match Step(e, evs[0], opens)
      case Continue(next) => Run(next, evs[1..], opens)
      case other => other
  }

  /** Typed text, when it fits the buffer, is the command afterwards, with
      the cursor after it; the history object is not touched. */
  lemma {:induction false} TypeAppends(e: Editor, s: string, opens: bool)
    requires Valid(e) && e.cursor == |e.command|
    requires |e.command| + |s| <= MaxCmdLen
    requires Typable(s)
    ensures var r := Run(e, Typing(s), opens);
            && r.Continue? && r.editor.command == e.command + s && r.editor.cursor == |e.command| + |s|
            && r.editor.hist == e.hist
    decreases |s|
  {
    if |s| > 0 {
      var next := e.(command := e.command + [s[0]], cursor := |e.command| + 1, comp := CompletionC.Reset(e.comp));
      TypeOne(e, s, opens);
      TypableTail(s);
      TypeAppends(next, s[1..], opens);
      AppendFirst(e.command, s);
    } else {
      assert e.command + s == e.command;
    }
  }

  lemma TypableTail(s: string)
    requires Typable(s) && |s| > 0
    ensures Typable(s[1..])
  {
    forall i | 0 <= i < |s[1..]|
      ensures s[1..][i] != '\0' && Printable(s[1..][i] as nat)
    {
      assert s[1..][i] == s[i + 1];
    }
  }

  lemma AppendFirst(a: string, s: string)
    requires |s| > 0
    ensures a + [s[0]] + s[1..] == a + s
  {
  }

  /** Typing runs one insertion and then types the rest. */
  lemma TypeOne(e: Editor, s: string, opens: bool)
    requires Valid(e) && |s| > 0
    requires Typable(s)
    requires e.cursor == |e.command| < MaxCmdLen
    ensures var next := e.(command := e.command + [s[0]], cursor := |e.command| + 1, comp := CompletionC.Reset(e.comp));
            && Valid(next)
            && Run(e, Typing(s), opens) == Run(next, Typing(s[1..]), opens)
  {
    AppendKey(e, s[0], opens);
    RunFirst(e, Typing(s), opens);
    assert Typing(s)[1..] == Typing(s[1..]);
  }

  /** A printable key typed with the cursor at the end of a command that
      has room appends its character. */
  lemma AppendKey(e: Editor, ch: char, opens: bool)
    requires Valid(e) && ch != '\0' && Printable(ch as nat)
    requires e.cursor == |e.command| < MaxCmdLen
    ensures Step(e, KeyEvent(ch as nat, ch, false, false), opens)
              == Continue(e.(command := e.command + [ch], cursor := |e.command| + 1, comp := CompletionC.Reset(e.comp)))
  {
    InsertKey(e, KeyEvent(ch as nat, ch, false, false), opens);
    assert e.command[..e.cursor] + [ch] + e.command[e.cursor..] == e.command + [ch];
  }

  /** A run whose first key press continues goes on from the editor it
      leaves. */
  lemma RunFirst(e: Editor, evs: seq<KeyEvent>, opens: bool)
    requires Valid(e) && |evs| > 0
    requires forall i :: 0 <= i < |evs| ==> Modelled(evs[i])
    requires Step(e, evs[0], opens).Continue?
    ensures Run(e, evs, opens) == Run(Step(e, evs[0], opens).editor, evs[1..], opens)
  {
  }

  /** From the start, typing a command and pressing Return launches exactly
      that command. */
  lemma TypeAndLaunch(comp: CompletionC.Comp, hist: HistoryC.Hist, s: string, opens: bool)
    requires Valid(Start(comp, hist))
    requires |s| <= MaxCmdLen
    requires Typable(s)
    requires !(opens && MaxHistoryLines >= 2 && |hist.elems| == MaxHistoryLines - 1)
    ensures var typed := Run(Start(comp, hist), Typing(s), opens);
            && typed.Continue?
            && Step(typed.editor, KeyEvent(Return, '\r', false, false), opens)
               == Launch(s, HistoryC.Save(hist, s, opens))
  {
    TypeAppends(Start(comp, hist), s, opens);
    var typed := Run(Start(comp, hist), Typing(s), opens);
    assert typed.editor.command == s && typed.editor.cursor == |s|;
    ReturnRunsPrefix(typed.editor, opens);
    assert typed.editor.command[..typed.editor.cursor] == s;
  }

  /** The first Up press after start-up recalls the newest history line,
      cut to the buffer. */
  lemma UpRecallsNewest(comp: CompletionC.Comp, lines: seq<string>)
    requires |lines| > 0 && |lines| + 1 < SizeModulus
    requires Valid(Start(comp, HistoryC.Hist(HistoryC.WithSentinel(lines), |lines|)))
    ensures var e := Start(comp, HistoryC.Hist(HistoryC.WithSentinel(lines), |lines|));
            var r := Step(e, KeyEvent(Up, '\0', false, false), false);
            && r.Continue?
            && r.editor.command == Truncate(lines[|lines| - 1], MaxCmdLen - 1)
  {
    HistoryC.PrevWalksBack(lines, 0);
  }

  /** Control-k empties the command and forgets the completion hint. */
  lemma ControlKClears(e: Editor, opens: bool)
    requires Valid(e)
    ensures var r := Step(e, KeyEvent(LetterK, 'k', true, false), opens);
            r.Continue? && r.editor.command == "" && r.editor.cursor == 0 && r.editor.comp.hint.None?
  {
  }

  /** The cursor keys never change the command and keep the cursor within
      it. */
  lemma CursorKeysKeepCommand(e: Editor, ev: KeyEvent, opens: bool)
    requires Valid(e) && Modelled(ev)
    requires ev.sym in {Left, KeypadLeft, Right, KeypadRight, Home, KeypadHome, End, KeypadEnd}
    ensures var r := Step(e, ev, opens);
            && r.Continue? && r.editor.command == e.command && r.editor.cursor <= |e.command|
            && (ev.sym in {Home, KeypadHome} ==> r.editor.cursor == 0)
            && (ev.sym in {End, KeypadEnd} ==> r.editor.cursor == |e.command|)
  {
  }

  /** Control-w with a blank before the character left of the cursor keeps
      the text up to and including the last such blank and the text after
      the cursor, and puts the cursor after that blank. */
  lemma ControlWErases(e: Editor, opens: bool)
    requires Valid(e) && 0 < e.cursor && |e.command| < MaxCmdLen
    requires LastSpace(e.command, e.cursor - 1).Some?
    ensures var j := LastSpace(e.command, e.cursor - 1).value;
            Step(e, KeyEvent(LetterW, '\U{0017}', true, false), opens)
              == Continue(e.(command := e.command[..j + 1] + e.command[e.cursor..], cursor := j + 1))
  {
    EraseWordSpec(e.command, e.cursor);
  }

  /** Control-w at the end of "foo bar" leaves "foo "; inside the first
      word it faults; at the end of " foo" it keeps the leading blank. */
  lemma ControlWExamples(comp: CompletionC.Comp, hist: HistoryC.Hist)
    requires Valid(Editor("foo bar", 7, comp, hist)) && 7 < MaxCmdLen
    ensures Step(Editor("foo bar", 7, comp, hist), KeyEvent(LetterW, '\U{0017}', true, false), false)
              == Continue(Editor("foo ", 4, comp, hist))
    ensures Step(Editor("foo bar", 3, comp, hist), KeyEvent(LetterW, '\U{0017}', true, false), false) == Fault
    ensures Step(Editor(" foo", 4, comp, hist), KeyEvent(LetterW, '\U{0017}', true, false), false)
              == Continue(Editor(" ", 1, comp, hist))
  {
    var e := Editor("foo bar", 7, comp, hist);
    assert LastSpace("foo bar", 6) == Some(3);
    ControlWErases(e, false);
    assert "foo bar"[..4] + "foo bar"[7..] == "foo ";
    StepFaultIff(Editor("foo bar", 3, comp, hist), KeyEvent(LetterW, '\U{0017}', true, false), false);
    assert "foo bar"[..2] == "fo";
    assert LastSpace(" foo", 3) == Some(0);
    ControlWErases(Editor(" foo", 4, comp, hist), false);
    assert " foo"[..1] + " foo"[4..] == " ";
  }
}

=== FILE: launcher_cpp.dfy ===
/** The C++ generation's line editor (thingylaunch.cpp, `keypress`): a
    `std::string` command, an iterator cursor into it, and the completion,
    history and bookmark objects, driven one key press at a time. */
module LauncherCpp {
  import opened Base
  import opened Text
  import opened Keys
  import CompletionCpp
  import HistoryCpp
  import BookmarkCpp

  /** The members `keypress` works on; the cursor is the iterator's offset
      from `begin()`, kept across the calls that change the command as if
      the string were never reallocated. */
  datatype Editor = Editor(command: string, cursor: nat, comp: CompletionCpp.Comp,
                           hist: HistoryCpp.Hist, book: map<char, string>)

  /** What the program does after a key press. */
  datatype Outcome =
    | Continue(editor: Editor)
    | Exit                              // Escape: `exit(0)`
    | Launch(run: string, saved: string) // the history file is rewritten with `saved`, then the shell gets `run`
    | Fault                             // undefined behaviour

  /** The cursor stays within the command; the completion and history
      iterators within their lists. */
  predicate Valid(e: Editor)
  {
    && e.cursor <= |e.command|
    && CompletionCpp.Valid(e.comp) && HistoryCpp.Valid(e.hist)
  }

  /** The constructor: an empty command with the cursor at its start. */
  function Start(comp: CompletionCpp.Comp, hist: HistoryCpp.Hist, book: map<char, string>): (e: Editor)
    ensures e.command == "" && e.cursor == 0
  {
    Editor("", 0, comp, hist, book)
  }

  /** The Control-w scan: from one before the cursor, step back while not
      at the beginning, stopping on a blank. The result is where the
      iterator stops: on the last blank before position `i`, or at the
      beginning. */
  function ScanBack(s: string, i: nat): (r: nat)
    requires i <= |s|
    ensures r <= i
    decreases i
  {
    if i == 0 then 0 else if s[i - 1] == ' ' then i - 1 else ScanBack(s, i - 1)
  }

  /** Where Control-w starts erasing: after the blank the scan stopped on,
      unless the scan ended at the beginning, where nothing is skipped. */
  function WordStart(s: string, c: nat): nat
    requires 0 < c <= |s|
  {
    var i := ScanBack(s, c - 1);
    if i != 0 then i + 1 else 0
  }

  /** The scan finds the last blank before the character left of the
      cursor. Control-w therefore keeps that blank, except when it is the
      first character: then it goes too, and so does everything before the
      cursor when there is no blank. */
  lemma WordStartSpec(s: string, c: nat)
    requires 0 < c <= |s|
    ensures WordStart(s, c) ==
              match LastSpace(s, c - 1)
              case Some(j) => if j > 0 then j + 1 else 0
              case None => 0
  {
    ScanBackIsLastSpace(s, c - 1);
  }

  lemma {:induction false} ScanBackIsLastSpace(s: string, i: nat)
    requires i <= |s|
    ensures ScanBack(s, i) == if LastSpace(s, i).Some? then LastSpace(s, i).value else 0
    decreases i
  {
    if i > 0 && s[i - 1] != ' ' {
      ScanBackIsLastSpace(s, i - 1);
    }
  }

  /** The `switch` of `keypress` followed by the insertion of printable
      text. */
  function Dispatch(e: Editor, ev: KeyEvent): (r: Outcome)
    requires Valid(e)
    ensures r.Continue? ==> Valid(r.editor)
  {
    var s := ev.sym;
    if s == Escape then Exit
    else if s == Return then Launch(BeforeNul(e.command), HistoryCpp.Save(e.hist, e.command))
    else if s == LetterW && ev.ctrl then
      // `m_cursorPos - 1` steps before `begin()` when the cursor is there
      if e.cursor == 0 then Fault
      else
        var k := WordStart(e.command, e.cursor);
        Continue(e.(command := e.command[..k] + e.command[e.cursor..], cursor := k))
    else Continue(Insert(Edit(e, ev), ev))
  }

  /** The remaining cases of the `switch`. */
  function Edit(e: Editor, ev: KeyEvent): (r: Editor)
    requires Valid(e)
    ensures Valid(r)
  {
    var s := ev.sym;
    if s == BackSpace then
      var comp := CompletionCpp.Reset(e.comp);
      if e.cursor == 0 then e.(comp := comp)
      else e.(command := e.command[..e.cursor - 1] + e.command[e.cursor..], cursor := e.cursor - 1, comp := comp)
    else if s == Left || s == KeypadLeft then
      e.(cursor := if e.cursor > 0 then e.cursor - 1 else 0)
    else if s == Right || s == KeypadRight then
      e.(cursor := if e.cursor < |e.command| then e.cursor + 1 else e.cursor)
    else if s == Up || s == KeypadUp then
      var (h, line) := HistoryCpp.Prev(e.hist);
      e.(command := line, cursor := |line|, hist := h)
    else if s == Down || s == KeypadDown then
      var (h, line) := HistoryCpp.Next(e.hist);
      e.(command := line, cursor := |line|, hist := h)
    else if s == Home || s == KeypadHome then e.(cursor := 0)
    else if s == End || s == KeypadEnd then e.(cursor := |e.command|)
    else if s == Tab || s == KeypadTab then
      var (comp, command) := CompletionCpp.Next(e.comp, e.command);
      e.(command := command, cursor := |command|, comp := comp)
    else if s == LetterK && ev.ctrl then
      e.(command := "", cursor := 0, comp := CompletionCpp.Reset(e.comp))
    else e
  }

  /** A printable key's text goes in at the cursor and the completion state
      is reset. The string has no length limit; a `push_back` or `insert`
      that reallocates it leaves the code's cursor dangling, which the
      offset does not show. */
  function Insert(e: Editor, ev: KeyEvent): (r: Editor)
    requires Valid(e)
    ensures Valid(r)
  {
    if Printable(Effective(ev)) then
      e.(command := e.command[..e.cursor] + [ev.text] + e.command[e.cursor..], cursor := e.cursor + 1,
         comp := CompletionCpp.Reset(e.comp))
    else e
  }

  /** The keys whose handling never reads the cursor: Escape exits, Return
      launches, and the others assign the cursor before the `switch` or
      `redraw` read it. */
  predicate SetsCursorFirst(ev: KeyEvent)
  {
    || ev.sym in {Escape, Return, Up, KeypadUp, Down, KeypadDown, Home, KeypadHome,
                  End, KeypadEnd, Tab, KeypadTab}
    || (ev.sym == LetterK && ev.ctrl)
  }

  /** `keypress`. With Alt held the key's text is looked up as a bookmark: a
      bookmark is saved to the history and launched; otherwise the command
      has been assigned the empty string. A cursor off the start then
      points past its end, which is undefined once anything reads it; a key
      that does not read it is handled on the empty command. */
  function Step(e: Editor, ev: KeyEvent): (r: Outcome)
    requires Valid(e)
    ensures r.Continue? ==> Valid(r.editor)
    ensures r == Exit <==> ev.sym == Escape && !(ev.alt && BookmarkCpp.Lookup(e.book, ev.text) != "")
  {
    if ev.alt then
      var b := BookmarkCpp.Lookup(e.book, ev.text);
      if b != "" then Launch(BeforeNul(b), HistoryCpp.Save(e.hist, b))
      else if e.cursor != 0 && !SetsCursorFirst(ev) then Fault
      else Dispatch(e.(command := "", cursor := 0), ev)
    else Dispatch(e, ev)
  }

  /** The key presses that end in undefined behaviour: Alt with no bookmark
      while the cursor is off the start, on a key that reads the cursor,
      and Control-w at the start. */
  lemma StepFaultIff(e: Editor, ev: KeyEvent)
    requires Valid(e)
    ensures Step(e, ev) == Fault <==>
              var b := BookmarkCpp.Lookup(e.book, ev.text);
              || (ev.alt && b == "" && e.cursor != 0 && !SetsCursorFirst(ev))
              || (ev.sym == LetterW && ev.ctrl && e.cursor == 0 && !(ev.alt && b != ""))
  {
  }

  /** Alt with no bookmark, on a key that does not read the cursor, acts
      as that key on the empty command, whatever the command and the cursor
      were. */
  lemma AltWithoutBookmark(e: Editor, ev: KeyEvent)
    requires Valid(e) && ev.alt && BookmarkCpp.Lookup(e.book, ev.text) == "" && SetsCursorFirst(ev)
    ensures Step(e, ev) == Step(e.(command := "", cursor := 0), ev)
    ensures Step(e, ev) != Fault
  {
  }

  /** A program is launched by an Alt key with a bookmark, which runs the
      bookmark, or by Return, which runs the whole command whatever the
      cursor, and the empty command when Alt found no bookmark. The whole
      string is written to the history file after the old entries; the
      shell gets it through `c_str()`, so it runs the text up to the first
      NUL. */
  lemma LaunchIff(e: Editor, ev: KeyEvent)
    requires Valid(e)
    ensures var b := BookmarkCpp.Lookup(e.book, ev.text);
            var r := Step(e, ev);
            && (r.Launch? <==> (ev.alt && b != "") || ev.sym == Return)
            && (r.Launch? && ev.alt && b != "" ==> r == Launch(BeforeNul(b), HistoryCpp.Save(e.hist, b)))
            && (r.Launch? && !(ev.alt && b != "") ==>
                  var command := if ev.alt then "" else e.command;
                  r == Launch(BeforeNul(command), HistoryCpp.Save(e.hist, command)))
            && (r.Launch? ==> '\0' !in r.run && exists command :: r.run <= command && r.saved == HistoryCpp.Save(e.hist, command))
  {
  }

  /** Control-space types a NUL (its keysym is the printable space, its
      text the NUL), which the string keeps: Return then saves the whole
      command but runs only the text before the cursor. */
  lemma ControlSpaceCutsRun(e: Editor, ret: KeyEvent)
    requires Valid(e) && '\0' !in e.command && ret.sym == Return && !ret.alt
    ensures var r := Step(e, KeyEvent(0x20, '\0', true, false));
            && r.Continue?
            && r.editor.command == e.command[..e.cursor] + ['\0'] + e.command[e.cursor..]
            && Step(r.editor, ret) == Launch(e.command[..e.cursor], HistoryCpp.Save(e.hist, r.editor.command))
  {
    var ev := KeyEvent(0x20, '\0', true, false);
    TypeInserts(e, ev);
    var r := Step(e, ev);
    Reassemble(r.editor.command, e.command[..e.cursor], '\0', e.command[e.cursor..]);
    ReturnLaunches(r.editor, ret);
    NulFreeHead(e.command, e.cursor);
    BeforeNulCut(e.command[..e.cursor], e.command[e.cursor..]);
  }

  lemma Reassemble(t: string, head: string, x: char, tail: string)
    requires |t| == |head| + 1 + |tail| && t[..|head|] == head && t[|head|] == x && t[|head| + 1..] == tail
    ensures t == head + [x] + tail
  {
    assert t == t[..|head|] + [t[|head|]] + t[|head| + 1..];
  }

  lemma NulFreeHead(s: string, k: nat)
    requires k <= |s| && '\0' !in s
    ensures '\0' !in s[..k]
  {
    assert forall i :: 0 <= i < k ==> s[..k][i] == s[i];
  }

  /** Return without Alt launches the command as the shell sees it. */
  lemma ReturnLaunches(e: Editor, ret: KeyEvent)
    requires Valid(e) && ret.sym == Return && !ret.alt
    ensures Step(e, ret) == Launch(BeforeNul(e.command), HistoryCpp.Save(e.hist, e.command))
  {
  }

  /** A printable key typed without Control or Alt is undone by Backspace. */
  lemma TypeThenBackspace(e: Editor, ch: char)
    requires Valid(e) && Printable(ch as nat)
    ensures var typed := Step(e, KeyEvent(ch as nat, ch, false, false));
            && typed.Continue?
            && var back := Step(typed.editor, KeyEvent(BackSpace, '\U{0008}', false, false));
            && back.Continue?
            && back.editor.command == e.command && back.editor.cursor == e.cursor
  {
    var s := e.command;
    var c := e.cursor;
    var t := s[..c] + [ch] + s[c..];
    assert t[..c] == s[..c];
    assert t[c + 1..] == s[c..];
    assert s[..c] + s[c..] == s;
  }

  /** A printable key typed without Alt puts its character at the cursor,
      shifting the text after it right, whatever the command's length, and
      resets the completion. */
  lemma TypeInserts(e: Editor, ev: KeyEvent)
    requires Valid(e) && !ev.alt && Printable(Effective(ev))
    ensures var r := Step(e, ev);
            var c := e.cursor;
            && r.Continue?
            && |r.editor.command| == |e.command| + 1
            && r.editor.command[..c] == e.command[..c]
            && r.editor.command[c] == ev.text
            && r.editor.command[c + 1..] == e.command[c..]
            && r.editor.cursor == c + 1
            && r.editor.comp == CompletionCpp.Fresh(e.comp.elements)
            && r.editor.hist == e.hist
  {
    var c := e.cursor;
    var t := e.command[..c] + [ev.text] + e.command[c..];
    assert t[..c] == e.command[..c];
    assert t[c + 1..] == e.command[c..];
  }

  /** Backspace without Alt removes the character left of the cursor, does
      nothing else at the start, and resets the completion either way. */
  lemma BackspaceKey(e: Editor, ev: KeyEvent)
    requires Valid(e) && !ev.alt && ev.sym == BackSpace
    ensures var r := Step(e, ev);
            && r.Continue?
            && r.editor.comp == CompletionCpp.Fresh(e.comp.elements)
            && (e.cursor == 0 ==> r.editor.command == e.command && r.editor.cursor == 0)
            && (e.cursor > 0 ==>
                  && r.editor.command == e.command[..e.cursor - 1] + e.command[e.cursor..]
                  && r.editor.cursor == e.cursor - 1)
  {
    EditingKeysDoNotInsert(ev.sym);
  }

  /** Control-k empties the command and resets the completion. */
  lemma ControlKClears(e: Editor)
    requires Valid(e)
    ensures var r := Step(e, KeyEvent(LetterK, 'k', true, false));
            && r.Continue? && r.editor.command == "" && r.editor.cursor == 0
            && r.editor.comp == CompletionCpp.Fresh(e.comp.elements)
  {
  }

  /** Up and Down without Alt step the history and show the entry they land
      on, whole, with the cursor at its end. */
  lemma RecallKeys(e: Editor, ev: KeyEvent)
    requires Valid(e) && !ev.alt && ev.sym in {Up, KeypadUp, Down, KeypadDown}
    ensures var (h, line) := if ev.sym in {Up, KeypadUp} then HistoryCpp.Prev(e.hist) else HistoryCpp.Next(e.hist);
            var r := Step(e, ev);
            && r.Continue?
            && r.editor.hist == h && r.editor.command == line && r.editor.cursor == |line|
            && r.editor.comp == e.comp
  {
    EditingKeysDoNotInsert(ev.sym);
  }

  /** Control-w keeps the text up to the blank the scan found (dropping it
      when it is the first character) and the text after the cursor. */
  lemma ControlWErases(e: Editor)
    requires Valid(e) && 0 < e.cursor
    ensures var k := match LastSpace(e.command, e.cursor - 1)
                     case Some(j) => if j > 0 then j + 1 else 0
                     case None => 0;
            Step(e, KeyEvent(LetterW, '\U{0017}', true, false))
              == Continue(e.(command := e.command[..k] + e.command[e.cursor..], cursor := k))
  {
    WordStartSpec(e.command, e.cursor);
  }

  /** Control-w at the end of "foo bar" leaves "foo "; at the end of
      " foo" the leading blank goes as well. */
  lemma ControlWExamples(comp: CompletionCpp.Comp, hist: HistoryCpp.Hist, book: map<char, string>)
    requires CompletionCpp.Valid(comp) && HistoryCpp.Valid(hist)
    ensures Step(Editor("foo bar", 7, comp, hist, book), KeyEvent(LetterW, '\U{0017}', true, false))
              == Continue(Editor("foo ", 4, comp, hist, book))
    ensures Step(Editor(" foo", 4, comp, hist, book), KeyEvent(LetterW, '\U{0017}', true, false))
              == Continue(Editor("", 0, comp, hist, book))
  {
    assert LastSpace("foo bar", 6) == Some(3);
    ControlWErases(Editor("foo bar", 7, comp, hist, book));
    assert "foo bar"[..4] + "foo bar"[7..] == "foo ";
    assert LastSpace(" foo", 3) == Some(0);
    ControlWErases(Editor(" foo", 4, comp, hist, book));
    assert " foo"[..0] + " foo"[4..] == "";
  }

  /** Tab puts the completion's answer in the command with the cursor at its
      end: a name starting with the latched prefix, or the command itself
      when no name matches. */
  lemma TabCompletes(e: Editor)
    requires Valid(e)
    ensures var r := Step(e, KeyEvent(Tab, '\t', false, false));
            var p := CompletionCpp.Latch(e.comp, e.command);
            && r.Continue?
            && r.editor.cursor == |r.editor.command|
            && r.editor.comp.prefix == p
            && ((r.editor.command in e.comp.elements && CompletionCpp.Matches(r.editor.command, p))
                || (r.editor.command == e.command &&
                    forall i :: 0 <= i < |e.comp.elements| ==> !CompletionCpp.Matches(e.comp.elements[i], p)))
  {
    CompletionCpp.NextSpec(e.comp, e.command);
  }

  /** The first Up press after start-up recalls the newest history entry. */
  lemma UpRecallsNewest(comp: CompletionCpp.Comp, file: string, book: map<char, string>)
    requires CompletionCpp.Valid(comp)
    requires |HistoryCpp.Load(Some(file)).elems| > 0
    ensures var h := HistoryCpp.Load(Some(file));
            var r := Step(Start(comp, h, book), KeyEvent(Up, '\0', false, false));
            r.Continue? && r.editor.command == h.elems[|h.elems| - 1]
  {
    HistoryCpp.FirstPrevIsNewest(HistoryCpp.Load(Some(file)).elems);
  }
}

=== FILE: scan.dfy ===
/** The executable search shared by both generations of the completion
    index: split the `PATH` value on ':', list each directory that opens, and
    keep the entries whose `stat` information passes the executable test.
    Directory listings are an input (`FileSystem`); nothing here touches a
    real file system. */
module PathScan {
  import opened Text

  /** One `readdir` result with the `stat` information for its path:
      `statOk` is false when `stat` failed. */
  datatype DirEntry = DirEntry(name: string, statOk: bool, mode: bv32, uid: nat, gid: nat)

  /** The directories that `opendir` can open, each with its entries in
      `readdir` order. A directory missing from the map fails to open. */
  type FileSystem = map<string, seq<DirEntry>>

  /** An entry found while scanning, with the `PATH` element it came from. */
  datatype Found = Found(dir: string, entry: DirEntry)

  // File-type and permission bits of `st_mode` (POSIX encoding).
  const S_IFMT: bv32 := 0xF000
  const S_IFREG: bv32 := 0x8000
  const S_IFSOCK: bv32 := 0xC000
  const S_IXUSR: bv32 := 0x40
  const S_IXGRP: bv32 := 0x8
  const S_IXOTH: bv32 := 0x1

  /** `S_ISREG`: the file-type field says regular file. */
  predicate IsRegular(mode: bv32)
  {
    mode & S_IFMT == S_IFREG
  }

  /** Some execute bit applies to a process with this `uid` and `gid`. */
  predicate ExecutableBy(e: DirEntry, uid: nat, gid: nat)
  {
    || (e.uid == uid && e.mode & S_IXUSR == S_IXUSR)
    || (e.gid == gid && e.mode & S_IXGRP == S_IXGRP)
    || e.mode & S_IXOTH == S_IXOTH
  }

  /** The test both index builders apply: `stat` succeeded, the mode has the
      `S_IFREG` bit set (a bit test, not `S_ISREG`) and an execute bit
      applies. */
  predicate Accepted(e: DirEntry, uid: nat, gid: nat)
  {
    e.statOk && e.mode & S_IFREG == S_IFREG && ExecutableBy(e, uid, gid)
  }

  /** Every regular file with an applicable execute bit is accepted. */
  lemma RegularExecutableAccepted(e: DirEntry, uid: nat, gid: nat)
    requires e.statOk && IsRegular(e.mode) && ExecutableBy(e, uid, gid)
    ensures Accepted(e, uid, gid)
  {
  }

  /** The bit test also lets a socket through: its type field 0xC000 has the
      0x8000 bit set, so a world-executable socket in a `PATH` directory is
      accepted although it is not a regular file. */
  lemma SocketAccepted(name: string, uid: nat, gid: nat)
    ensures var e := DirEntry(name, true, S_IFSOCK | S_IXOTH, uid, gid);
            Accepted(e, uid, gid) && !IsRegular(e.mode)
  {
  }

  function Tag(dir: string, entries: seq<DirEntry>): (r: seq<Found>)
    ensures |r| == |entries|
    ensures forall i :: 0 <= i < |r| ==> r[i] == Found(dir, entries[i])
    decreases |entries|
  {
    if |entries| == 0 then [] else [Found(dir, entries[0])] + Tag(dir, entries[1..])
  }

  /** Every entry of every openable directory of `dirs`: directories in
      `dirs` order, entries in `readdir` order. */
  function Listing(dirs: seq<string>, fs: FileSystem): seq<Found>
    decreases |dirs|
  {
    if |dirs| == 0 then []
    else (if dirs[0] in fs then Tag(dirs[0], fs[dirs[0]]) else []) + Listing(dirs[1..], fs)
  }

  /** An entry is in the listing exactly when its directory is one of `dirs`,
      opens, and lists it. */
  lemma {:induction false} InListing(dirs: seq<string>, fs: FileSystem, x: Found)
    ensures x in Listing(dirs, fs) <==> x.dir in dirs && x.dir in fs && x.entry in fs[x.dir]
    decreases |dirs|
  {
    if |dirs| > 0 {
      InListing(dirs[1..], fs, x);
      assert dirs == [dirs[0]] + dirs[1..];
      if dirs[0] in fs {
        var t := Tag(dirs[0], fs[dirs[0]]);
        assert x in t <==> x.dir == dirs[0] && x.entry in fs[dirs[0]] by {
          if x in t {
            var i :| 0 <= i < |t| && t[i] == x;
          }
          if x.dir == dirs[0] && x.entry in fs[dirs[0]] {
            var i :| 0 <= i < |fs[dirs[0]]| && fs[dirs[0]][i] == x.entry;
            assert t[i] == x;
          }
        }
      }
    }
  }

  /** The accepted entries of `xs`, in order. Each accepted entry keeps its
      multiplicity and each rejected one is gone. */
  function Select(xs: seq<Found>, uid: nat, gid: nat): (r: seq<Found>)
    ensures forall x :: multiset(r)[x] == if Accepted(x.entry, uid, gid) then multiset(xs)[x] else 0
    ensures forall i :: 0 <= i < |r| ==> Accepted(r[i].entry, uid, gid)
    decreases |xs|
  {
    if |xs| == 0 then []
    else
      var rest := Select(xs[1..], uid, gid);
      assert xs == [xs[0]] + xs[1..];
      if Accepted(xs[0].entry, uid, gid) then [xs[0]] + rest else rest
  }

  /** The scan both generations perform over a `PATH` value. */
  function Candidates(pathVar: string, fs: FileSystem, uid: nat, gid: nat): seq<Found>
  {
    Select(Listing(Split(pathVar, ':'), fs), uid, gid)
  }

  /** An entry is a candidate exactly when its directory is a `PATH` element
      that opens, the directory lists it, and it passes the executable test. */
  lemma CandidateIff(pathVar: string, fs: FileSystem, uid: nat, gid: nat, x: Found)
    ensures x in Candidates(pathVar, fs, uid, gid) <==>
            x.dir in Split(pathVar, ':') && x.dir in fs && x.entry in fs[x.dir] && Accepted(x.entry, uid, gid)
  {
    var xs := Listing(Split(pathVar, ':'), fs);
    InListing(Split(pathVar, ':'), fs, x);
    assert x in Select(xs, uid, gid) <==> multiset(Select(xs, uid, gid))[x] > 0;
    assert x in xs <==> multiset(xs)[x] > 0;
  }
}

=== FILE: text.dfy ===
/** Strings as the launcher sees them: byte-wise ordering (`strcmp`),
    prefix matching (`strncmp` against a hint, `std::string::compare`),
    splitting on a separator (`strsep`, `std::getline`) and newline-terminated
    rendering (`fprintf("%s\n")`, `std::ostream_iterator`). Sequence prefix
    is Dafny's `p <= s`. */
module Text {
  import opened Base

  /** `strcmp(a, b) <= 0`: lexicographic order on character codes, where a
      proper prefix sorts first. */
  predicate StrLe(a: string, b: string)
    decreases |a|
  {
    |a| == 0 || (|b| > 0 && (a[0] < b[0] || (a[0] == b[0] && StrLe(a[1..], b[1..]))))
  }

  lemma {:induction false} StrLeReflexive(a: string)
    ensures StrLe(a, a)
    decreases |a|
  {
    if |a| > 0 {
      StrLeReflexive(a[1..]);
    }
  }

  lemma {:induction false} StrLeTotal(a: string, b: string)
    ensures StrLe(a, b) || StrLe(b, a)
    decreases |a|
  {
    if |a| > 0 && |b| > 0 && a[0] == b[0] {
      StrLeTotal(a[1..], b[1..]);
    }
  }

  lemma {:induction false} StrLeTransitive(a: string, b: string, c: string)
    requires StrLe(a, b) && StrLe(b, c)
    ensures StrLe(a, c)
    decreases |a|
  {
    if |a| > 0 && a[0] == b[0] && b[0] == c[0] {
      StrLeTransitive(a[1..], b[1..], c[1..]);
    }
  }

  lemma {:induction false} StrLeAntisymmetric(a: string, b: string)
    requires StrLe(a, b) && StrLe(b, a)
    ensures a == b
    decreases |a|
  {
    if |a| > 0 {
      StrLeAntisymmetric(a[1..], b[1..]);
      assert a == [a[0]] + a[1..];
      assert b == [b[0]] + b[1..];
    }
  }

  /** In byte-wise order the strings that start with `p` are contiguous: a
      string sorted between two of them starts with `p` too. This is what
      makes prefix completion over a sorted index a contiguous range. */
  lemma {:induction false} PrefixBetween(p: string, a: string, b: string, c: string)
    requires p <= a && p <= c
    requires StrLe(a, b) && StrLe(b, c)
    ensures p <= b
    decreases |p|
  {
    if |p| > 0 {
      assert |a| > 0 && |c| > 0 && a[0] == p[0] && c[0] == p[0];
      assert b[0] == p[0];
      assert p[1..] <= a[1..];
      assert p[1..] <= c[1..];
      PrefixBetween(p[1..], a[1..], b[1..], c[1..]);
    }
  }

  /** `s` cut to at most `n` characters, as `snprintf` into a buffer of
      `n + 1` bytes leaves it. */
  function Truncate(s: string, n: nat): (r: string)
    ensures r <= s
    ensures |r| == if |s| <= n then |s| else n
  {
    if |s| <= n then s else s[..n]
  }

  /** The pieces of `s` between occurrences of `sep`, empty pieces included:
      `k` separators give `k + 1` pieces. Both `strsep` and a `std::getline`
      loop guarded by `good()` tokenise this way. */
  function Split(s: string, sep: char): (r: seq<string>)
    ensures |r| >= 1
    ensures forall i :: 0 <= i < |r| ==> sep !in r[i]
    decreases |s|
  {
    if |s| == 0 then [""]
    else
      var rest := Split(s[1..], sep);
      if s[0] == sep then [""] + rest
      else [[s[0]] + rest[0]] + rest[1..]
  }

  /** The pieces joined back with `sep` between consecutive ones. */
  function Join(pieces: seq<string>, sep: char): string
    requires |pieces| >= 1
    decreases |pieces|
  {
    if |pieces| == 1 then pieces[0] else pieces[0] + [sep] + Join(pieces[1..], sep)
  }

  /** Splitting a text whose head holds no separator extends the first piece. */
  lemma {:induction false} SplitPrefixFree(a: string, t: string, sep: char)
    requires sep !in a
    ensures Split(a + t, sep) == [a + Split(t, sep)[0]] + Split(t, sep)[1..]
    decreases |a|
  {
    if |a| > 0 {
      assert (a + t)[1..] == a[1..] + t;
      SplitPrefixFree(a[1..], t, sep);
      assert [a[0]] + (a[1..] + Split(t, sep)[0]) == a + Split(t, sep)[0];
    } else {
      assert a + t == t;
      var r := Split(t, sep);
      assert a + r[0] == r[0];
      assert r == [r[0]] + r[1..];
    }
  }

  /** Round trip: splitting what `Join` produced gives back the pieces, as long
      as no piece holds the separator. */
  lemma {:induction false} SplitJoin(pieces: seq<string>, sep: char)
    requires |pieces| >= 1
    requires forall i :: 0 <= i < |pieces| ==> sep !in pieces[i]
    ensures Split(Join(pieces, sep), sep) == pieces
    decreases |pieces|
  {
    if |pieces| == 1 {
      SplitPrefixFree(pieces[0], "", sep);
      assert Split("", sep) == [""];
      assert pieces[0] + "" == pieces[0];
    } else {
      var tail := [sep] + Join(pieces[1..], sep);
      assert Join(pieces, sep) == pieces[0] + tail;
      SplitPrefixFree(pieces[0], tail, sep);
      assert tail[1..] == Join(pieces[1..], sep);
      SplitJoin(pieces[1..], sep);
      assert Split(tail, sep) == [""] + pieces[1..];
      assert pieces[0] + "" == pieces[0];
      assert pieces == [pieces[0]] + pieces[1..];
    }
  }

  /** Every line followed by a newline, concatenated: what `fprintf("%s\n")`
      in a loop, or copying to an `ostream_iterator` with `"\n"`, writes. */
  function Terminated(lines: seq<string>): string
    decreases |lines|
  {
    if |lines| == 0 then "" else lines[0] + "\n" + Terminated(lines[1..])
  }

  /** Terminated lines followed by an unterminated last line are the newline
      join of all of them. */
  lemma {:induction false} TerminatedIsJoin(lines: seq<string>, last: string)
    ensures Terminated(lines) + last == Join(lines + [last], '\n')
    decreases |lines|
  {
    if |lines| > 0 {
      TerminatedIsJoin(lines[1..], last);
      assert (lines + [last])[1..] == lines[1..] + [last];
    } else {
      assert lines + [last] == [last];
    }
  }

  lemma TerminatedAppend(lines: seq<string>, line: string)
    ensures Terminated(lines + [line]) == Terminated(lines) + line + "\n"
    decreases |lines|
  {
    if |lines| > 0 {
      assert (lines + [line])[1..] == lines[1..] + [line];
    }
  }

  /** The C library's `isspace` in the "C" locale. */
  predicate IsSpace(c: char)
  {
    c == ' ' || c == '\t' || c == '\n' || c == '\U{000B}' || c == '\U{000C}' || c == '\r'
  }

  /** The whitespace-free strings, what `>>` into a `std::string` can yield. */
  predicate NoSpace(s: string)
  {
    forall i :: 0 <= i < |s| ==> !IsSpace(s[i])
  }

  /** `s` after its leading whitespace, as the `" "` directive of `scanf` and
      formatted `>>` skip it. */
  function SkipSpace(s: string): (r: string)
    ensures |r| <= |s| && r == s[|s| - |r|..]
    ensures |r| > 0 ==> !IsSpace(r[0])
    ensures forall i :: 0 <= i < |s| - |r| ==> IsSpace(s[i])
    decreases |s|
  {
    if |s| > 0 && IsSpace(s[0]) then SkipSpace(s[1..]) else s
  }

  /** The longest prefix of `s` holding no whitespace: one `>>` word. */
  function Word(s: string): (r: string)
    ensures r <= s && NoSpace(r)
    ensures |r| < |s| ==> IsSpace(s[|r|])
    ensures |s| > 0 && !IsSpace(s[0]) ==> |r| > 0
    decreases |s|
  {
    if |s| == 0 || IsSpace(s[0]) then "" else [s[0]] + Word(s[1..])
  }

  /** The longest prefix of `s` with at most `n` characters and no newline:
      one `%n[^\n]` conversion. */
  function LinePrefix(s: string, n: nat): (r: string)
    ensures r <= s && |r| <= n && '\n' !in r
    ensures |r| < |s| && |r| < n ==> s[|r|] == '\n'
    decreases n
  {
    if |s| == 0 || n == 0 || s[0] == '\n' then "" else [s[0]] + LinePrefix(s[1..], n - 1)
  }

  /** `s` up to its first NUL: the string C sees when it copies `s` with
      `strdup` or `strncpy`, which stop at the terminator. */
  function BeforeNul(s: string): (r: string)
    ensures r <= s && '\0' !in r
    ensures |r| < |s| ==> s[|r|] == '\0'
    decreases |s|
  {
    if |s| == 0 || s[0] == '\0' then "" else [s[0]] + BeforeNul(s[1..])
  }

  /** A string with no NUL is copied whole. */
  lemma {:induction false} BeforeNulWhole(s: string)
    requires '\0' !in s
    ensures BeforeNul(s) == s
    decreases |s|
  {
    if |s| > 0 {
      BeforeNulWhole(s[1..]);
      assert [s[0]] + s[1..] == s;
    }
  }

  /** A NUL-free head followed by a NUL is copied as just the head. */
  lemma {:induction false} BeforeNulCut(head: string, tail: string)
    requires '\0' !in head
    ensures BeforeNul(head + ['\0'] + tail) == head
    decreases |head|
  {
    if |head| > 0 {
      assert (head + ['\0'] + tail)[1..] == head[1..] + ['\0'] + tail;
      BeforeNulCut(head[1..], tail);
      assert [head[0]] + head[1..] == head;
    }
  }

  /** The C copy of each string, in order. */
  function CStrings(pieces: seq<string>): (r: seq<string>)
    ensures |r| == |pieces| && forall i :: 0 <= i < |r| ==> r[i] == BeforeNul(pieces[i])
    decreases |pieces|
  {
    if |pieces| == 0 then [] else [BeforeNul(pieces[0])] + CStrings(pieces[1..])
  }

  lemma CStringsCons(x: string, ys: seq<string>)
    ensures CStrings([x] + ys) == [BeforeNul(x)] + CStrings(ys)
  {
    assert ([x] + ys)[1..] == ys;
  }

  /** The text after the last `c` in `s` (all of `s` when it has none):
      what `strrchr(s, c) + 1` points at. */
  function AfterLast(s: string, c: char): (r: string)
    ensures |r| <= |s| && r == s[|s| - |r|..] && c !in r
    ensures |r| < |s| ==> s[|s| - |r| - 1] == c
    decreases |s|
  {
    if |s| == 0 then s
    else if s[|s| - 1] == c then ""
    else AfterLast(s[..|s| - 1], c) + [s[|s| - 1]]
  }

  /** When `c` separates a head from a tail free of `c`, the text after the
      last `c` is exactly that tail. */
  lemma {:induction false} AfterLastOfJoin(a: string, c: char, b: string)
    requires c !in b
    ensures AfterLast(a + [c] + b, c) == b
    decreases |b|
  {
    var s := a + [c] + b;
    if |b| > 0 {
      assert s[..|s| - 1] == a + [c] + b[..|b| - 1];
      AfterLastOfJoin(a, c, b[..|b| - 1]);
      assert b == b[..|b| - 1] + [b[|b| - 1]];
    }
  }

  /** The non-empty strings of `pieces`, in order. */
  function NonEmpty(pieces: seq<string>): (r: seq<string>)
    ensures forall i :: 0 <= i < |r| ==> r[i] != "" && r[i] in pieces
    ensures forall i :: 0 <= i < |pieces| && pieces[i] != "" ==> pieces[i] in r
    decreases |pieces|
  {
    if |pieces| == 0 then []
    else if pieces[0] == "" then NonEmpty(pieces[1..])
    else [pieces[0]] + NonEmpty(pieces[1..])
  }

  /** Dropping empty strings from strings that are all non-empty changes
      nothing. */
  lemma {:induction false} NonEmptyKeepsAll(pieces: seq<string>)
    requires forall i :: 0 <= i < |pieces| ==> pieces[i] != ""
    ensures NonEmpty(pieces) == pieces
    decreases |pieces|
  {
    if |pieces| > 0 {
      NonEmptyKeepsAll(pieces[1..]);
    }
  }

  /** A line followed by a newline splits off as its own piece. */
  lemma SplitLine(line: string, rest: string)
    requires '\n' !in line
    ensures Split(line + "\n" + rest, '\n') == [line] + Split(rest, '\n')
  {
    SplitPrefixFree(line, "\n" + rest, '\n');
    assert line + "\n" + rest == line + ("\n" + rest);
    assert ("\n" + rest)[1..] == rest;
    assert Split("\n" + rest, '\n') == [""] + Split(rest, '\n');
    assert line + "" == line;
  }

  /** `%n[^\n]` on a line of at most `n` characters followed by a newline
      reads exactly the line. */
  lemma {:induction false} LineRead(line: string, rest: string, n: nat)
    requires '\n' !in line && |line| <= n
    requires |rest| > 0 && rest[0] == '\n'
    ensures LinePrefix(line + rest, n) == line
    decreases |line|
  {
    if |line| > 0 {
      assert (line + rest)[1..] == line[1..] + rest;
      LineRead(line[1..], rest, n - 1);
      assert line == [line[0]] + line[1..];
    }
  }

  /** The position of the last blank among the first `n` characters. */
  function LastSpace(s: string, n: nat): (r: Option<nat>)
    requires n <= |s|
    ensures r.Some? ==> r.value < n && s[r.value] == ' ' && forall k :: r.value < k < n ==> s[k] != ' '
    ensures r.None? ==> forall k :: 0 <= k < n ==> s[k] != ' '
    decreases n
  {
    if n == 0 then None else if s[n - 1] == ' ' then Some(n - 1) else LastSpace(s, n - 1)
  }

  /** The blanks before `n` only depend on the first `n` characters. */
  lemma {:induction false} LastSpaceOfPrefix(s: string, t: string, n: nat)
    requires n <= |s| && n <= |t| && s[..n] == t[..n]
    ensures LastSpace(s, n) == LastSpace(t, n)
    decreases n
  {
    if n > 0 {
      assert s[n - 1] == s[..n][n - 1] && t[n - 1] == t[..n][n - 1];
      assert s[..n - 1] == s[..n][..n - 1] && t[..n - 1] == t[..n][..n - 1];
      LastSpaceOfPrefix(s, t, n - 1);
    }
  }
}
